=== FILE: README.md ===
# Polymarket up/down strategies — a Dafny model

This project models the decision core of a set of Python trading scripts
for Polymarket's short "up or down" crypto markets. Each market lasts 5, 15
or 60 minutes and has two outcome tokens, UP (or YES) and DOWN (or NO). One
of them settles at $1 and the other at $0.

- **Order-book ladders** (`Ladder`, `Feed`). The streaming scripts keep a
  local copy of each token's order book. Books are updated from snapshots
  and from per-level deltas. A delta replaces the level at its price, or
  removes it when its size is 0. The side is then re-sorted: bids
  descending, asks ascending.
- **The sniper** (`Sniper`, `Exposure`, `Backoff`). Near the end of an
  interval it buys the side whose best ask has reached a time-tiered target
  price. This happens only after the feed has warmed up with a delta and
  while the two asks still sum to at most 1.15. Orders are fill-or-kill,
  sized to $50, and capped by the available liquidity and by a $200
  exposure ledger.
- **The arbitrage scanner** (`Arb`). It buys both outcomes when their
  asks add to less than $1 minus a one-cent edge. If only one leg fills, it
  unwinds that leg with up to three fill-or-kill sells at $0.01. After
  that it rests a sell at the bid.
- **The extreme-fade watcher** (`Fade`). When one side's ask reaches 0.93
  with five or more minutes left, it logs a simulated $50 buy of the other
  side. The buy exits at +10%, or settles when the interval resolves.
- **The two-sided liquidity provider** (`Quoter`). It checks depth,
  spread and market liquidity. It then quotes a bid on each side just
  below mid, and gates new quotes on edge and on the position.
- **The order-book recorder** (`Recorder`). It writes one row per level
  of each snapshot and one row per applied change. Each row carries the
  best asks, their sum and the seconds left.
- **Shared modules.** Interval arithmetic (`Intervals`), market slugs
  (`Slugs`, `Text`) and outcome labels (`Market`) are shared by all the
  scripts.

**Conventions.**

- Prices and sizes are exact reals.
- Python's `int(x)` is `Numeric.Trunc` (truncation toward zero).
- Clock readings, fetched books and the outcomes of orders are
  parameters.
- Orders are values the model returns rather than calls it makes.

## Model

| member | source | states |
|---|---|---|
| Numeric.Trunc | sniper.py:693-698 | `int(x)` truncates toward zero: for x ≥ 0 the result is the largest integer ≤ x, for x < 0 the smallest ≥ x |
| Numeric.MinimumSharesWorthOverOne | sniper.py:697-700 | raising a share count to `int(1/p) + 1` makes the order worth more than $1 at any positive price |
| Ladder.Insert | sniper.py:401-404 | inserting keeps the multiset of levels plus the new one, and places it before equal prices (stable) |
| Ladder.InsertSorted | sniper.py:401-404 | inserting into a sorted side keeps it sorted |
| Ladder.Sort | sniper.py:401-404 | the stable sort is a permutation of its input and is sorted: bids descending, asks ascending |
| Ladder.SortSortedIsIdentity | sniper.py:401-404 | Python's stable sort leaves an already-sorted side unchanged |
| Ladder.Select | sniper.py:396 | the list comprehension keeps exactly the levels at (or away from) a price, from the input |
| Ladder.SelectAppend | sniper.py:396 | filtering distributes over concatenation |
| Ladder.SelectPermutation | sniper.py:396 | filtering depends only on the multiset of levels |
| Ladder.SelectOwn | sniper.py:396 | filtering by a price is idempotent, and selecting the complement of a selection is empty |
| Ladder.UpdateSide | sniper.py:391-407 | the updated side is always sorted |
| Ladder.DeltaAtPrice | sniper.py:396-399 | after a delta, the only level at its price is (price, size) when size > 0, and there is none when size ≤ 0 |
| Ladder.DeltaKeepsOthers | sniper.py:396-404 | every level at another price survives with its multiplicity |
| Ladder.DeltaContents | sniper.py:396-404 | the updated side is, as a multiset, the levels away from the price plus the new level when its size is positive (an upsert) |
| Ladder.DeltaAbsentRemovalIsNoOp | sniper.py:396-404 | removing a price that is not present leaves a sorted side unchanged |
| Ladder.ApplyDelta | sniper.py:347-351 | a delta creates the book if missing, changes only the named side of one token, and leaves every other token untouched |
| Ladder.ApplySnapshot | sniper.py:366-370 | a snapshot replaces both sides of one token verbatim, unsorted, and nothing else |
| Ladder.DeltaPreservesWellFormed | sniper.py:391-407 | sorted, positive-size, distinct-price ladders stay so under any delta |
| Ladder.AwayCountPreserved | sniper.py:396 | the number of levels at any other price is unchanged by a delta |
| Ladder.SortedHeadIsBest | sniper.py:426-429 | the head of a sorted side is the highest bid or the lowest ask |
| Ladder.SortHeadIsBest | lp.py:58-68 | after sorting any levels, the head is a level of best price taken from the input |
| Ladder.SortedHead | lp.py:58-68 | the first level once sorted is an input level that precedes every other |
| Market.Opposite | fade_extreme.py:319-331 | the other outcome differs from the first |
| Market.IndicesPartition | sniper.py:303-305 | the UP and DOWN indices are 0 and 1 in some order |
| Market.PositiveLabelExamples | recorder.py:119-121 | "Up"/"YES" first gives index 0, "Down" first gives 1, an empty list gives 1 |
| Text.ParseNatToString | recorder.py:290-291 | parsing the decimal rendering of a natural number returns it |
| Text.NatToStringInjective | recorder.py:50-54 | distinct timestamps render to distinct digit strings |
| Text.LastComponent | recorder.py:290 | `split("-")[-1]` is the suffix after the last separator (all of the text when there is none), and contains no separator |
| Intervals.IntervalStart | recorder.py:42-47 | the start is a boundary (minute a multiple of m, second 0) with start ≤ now < start + m·60 |
| Intervals.StartIsLatestBoundary | recorder.py:42-47 | no boundary lies between the start and now: the start is the latest boundary ≤ now |
| Intervals.IntervalEnd | recorder.py:291-292 | the end lies after now and at most one interval ahead |
| Intervals.RolloverAtBoundary | sniper.py:203-208 | one second after a boundary the interval starts there; one second before it, it starts earlier |
| Intervals.SecondsRemaining | sniper.py:432 | `max(0, end - now)` is 0 exactly when the end has passed, and otherwise reaches the end from now |
| Intervals.Countdown | sniper.py:433-434 | minutes and seconds recompose the total, with seconds below 60 |
| Intervals.MinutesRemaining | fade_extreme.py:80-84 | the result is the seconds to the end of the current 15-minute interval divided by 60, and lies in (0, 15] |
| Intervals.CurrentIntervalEnd | arb.py:69-85 | with m = 15 for "15m" and 60 otherwise, the end is an m-minute boundary, after now and at most m minutes after it |
| Intervals.EndIsBoundary | arb.py:69-85 | for 15- and 60-minute intervals, the end of the current interval is itself a boundary, including at the top of the hour |
| Intervals.ShouldSwitch | arb.py:88-94 | because the end is computed from a later clock reading, the switch never fires |
| Slugs.ShortNameTablesAgree | arb.py:110 | the arbitrage table without xrp yields the same short name as the full table for every asset |
| Slugs.MarketSlug | recorder.py:50-54 | a slug with a non-negative timestamp is non-empty and does not end in '-' |
| Slugs.SlugTimestamp | recorder.py:290-291 | the timestamp is read exactly when the text after the last '-' is a non-empty run of digits, and is then their decimal value |
| Slugs.SlugRoundTrip | recorder.py:50-54 | the last '-' component of a generated slug parses back to its timestamp |
| Slugs.SlugIntervalEnd | recorder.py:290-292 | the end is defined exactly when the timestamp parses, and is then the timestamp plus one interval in seconds |
| Slugs.SlugEndIsIntervalEnd | recorder.py:290-292 | the end read back from the current slug is the clock's interval end |
| Slugs.SlugInjective | recorder.py:50-54 | two timestamps giving the same slug are equal |
| Slugs.SlugChangesAtBoundary | sniper.py:752-755 | the slug a second before a boundary differs from the slug a second after |
| Slugs.HourRoundTrip | arb.py:48-57 | every hour 0-23 formats to a 12-hour label that parses back to it |
| Slugs.HourLabelsDistinct | arb.py:48-57 | distinct hours have distinct labels |
| Slugs.HourExamples | arb.py:48-57 | 0 → "12am", 9 → "9am", 12 → "12pm", 13 → "1pm", 23 → "11pm" |
| Feed.SideOf | sniper.py:350 | "BUY" updates the bids, every other side string the asks |
| Feed.ApplyChange | sniper.py:347-351 | a change without a side or a price leaves the books unchanged; otherwise it is the ladder delta |
| Feed.ApplyFlatChanges | sniper.py:341-351 | tokens that no change names keep their books |
| Feed.ApplyEventChanges | sniper.py:373-386 | an event's changes touch only its own token's book |
| Feed.ProcessEvents | sniper.py:362-389 | the feed is warm after a list message iff it was warm or some event was a delta; one check runs per snapshot or delta event; no check sees warmth before a delta |
| Feed.Process | sniper.py:336-389 | warm iff already warm or the message carries changes; non-dict, non-list values change nothing |
| Feed.OnOpen | sniper.py:550-555 | a new connection clears the warm-up flag and keeps the books |
| Feed.SnapshotsDoNotWarm | sniper.py:366-372 | a message of snapshots alone leaves the warm-up flag, in every check and at the end, as it found it |
| Feed.StaysWarm | sniper.py:388 | once warm, a feed stays warm through any list message |
| Feed.WarmOnlyAfterDelta | sniper.py:550-555 | after a reconnect, the feed is warm iff some later message carried a delta |
| Feed.RunWarmUp | sniper.py:336-389 | over a run of messages, warmth is the initial flag or some warming message |
| Feed.ProcessKeepsWellFormed | sniper.py:336-389 | well-formed books stay well-formed under any message whose snapshots are well-formed |
| Feed.SingleChange | sniper.py:339-356 | one applicable flat change applies exactly its ladder delta and warms the feed |
| Feed.SingleSnapshot | sniper.py:366-370 | one snapshot event replaces that token's book and keeps the flag |
| Exposure.Record | sniper.py:122-128 | recording replaces the asset's entry and adds the fill's notional to the total, leaving other assets untouched |
| Exposure.Step | sniper.py:116-128 | a fill is recorded only after the cap check, and the total then stays within $200 |
| Exposure.TotalStaysCapped | sniper.py:116-128 | when each check is followed by its record before the next check, the total exposure never passes $200 |
| Exposure.Interleaved | sniper.py:712-735 | two threads' checks both read the ledger before either records, and the total grows by both recorded costs |
| Exposure.InterleavedChecksCanOverrun | sniper.py:712-735 | at a $150 total, two $47.50 fills on different assets both pass the check and reach $245, where in order the second is refused |
| Exposure.TotalIsSumOfRecorded | sniper.py:122-128 | the total is the start plus the sum of every recorded fill's cost, even when an entry is overwritten |
| Exposure.OverwriteKeepsTotal | sniper.py:122-128 | two fills on one asset leave one entry but count both costs |
| Sniper.TierPrice | sniper.py:50-55 | the price is that of the first covering tier, or the 0.98 fallback when none covers |
| Sniper.TargetBands | sniper.py:43-55 | 0.85 up to 30 s, 0.92 up to 60 s, 0.96 beyond |
| Sniper.FallbackUnreachable | sniper.py:50-55 | the last tier covers every input, so the fallback is never returned |
| Sniper.TargetMonotone | sniper.py:43-55 | more time remaining never lowers the target |
| Sniper.MaxByPrice | sniper.py:536-539 | `max` returns an element of greatest price, the first such |
| Sniper.BestOpportunity | sniper.py:508-539 | a side is offered iff its ask qualifies against the target; the choice has the highest price |
| Sniper.UpWinsTies | sniper.py:536-539 | with equal qualifying prices UP is chosen |
| Sniper.CheckSnipe | sniper.py:409-506 | fires iff tokens are known, both asks exist, the side is not yet sniped, the feed is warm, the sum is ≤ 1.15, some side qualifies and no attempt is in flight; the fired opportunity is the best qualifying side of the two head asks against the time target |
| Sniper.NoFireOnSnapshots | sniper.py:366-372 | after a reconnect, no check during a message of snapshots fires |
| Sniper.BudgetShares | sniper.py:693-700 | the budget share count is at least the $1 minimum `int(1/p) + 1` |
| Sniper.SnipeSize | sniper.py:693-705 | the size never exceeds the available whole shares; when the cap does not bind it is the budget size and worth over $1 |
| Sniper.ExecuteSnipe | sniper.py:659-740 | an order is refused iff there is no trading client, no book, no liquidity, a price below the target less 0.005 or of zero, a size under one share or no room under the exposure cap; otherwise it is sent at the ask for the capped size, and a fill is recorded in the ledger |
| Sniper.CapUndoesMinimum | sniper.py:697-705 | one available share at 0.90 gives an order worth under $1 |
| Backoff.WaitFor | sniper.py:646-648 | the wait is `min(2^retry, 30)`: doubling below 5 retries, 30 from then on |
| Backoff.Next | sniper.py:633-649 | the loop halts iff stopped, gives up iff a counted connection finds the count exhausted, and otherwise waits |
| Backoff.Supervise | sniper.py:615-649 | the loop takes at most one step per connection, and only its last step is not a wait |
| Backoff.WaitsBounded | sniper.py:646-649 | every wait lies between 1 and 30 seconds |
| Backoff.GiveUpAfterCountedRun | sniper.py:636-649 | giving up comes only after a run of counted connections long enough to exhaust the retries |
| Backoff.CountEveryDropIsBounded | fade_extreme.py:480-504 | without resets the loop makes at most eleven connections |
| Backoff.LongSessionsExhaustSniperRetries | sniper.py:636-641 | as written, eleven connections that opened and then closed end the loop after waits 2, 4, 8, 16, 30×6 |
| Backoff.GiveUpOnlyAfterElevenFailedOpens | sniper.py:636-637 | resetting on open, the loop gives up only after eleven consecutive connections that never opened |
| Backoff.LongSessionsKeepReconnecting | sniper.py:636-637 | resetting on open, any number of opened connections keeps waiting one second |
| Arb.Analyze | arb.py:228-304 | an analysis exists iff both tokens have bids and asks; it uses the best bid and best ask, the edge is 1 minus the ask sum, and arbitrage means a positive edge |
| Arb.EdgeExamples | arb.py:228-304 | asks 0.40 + 0.55 give an edge of 0.05; 0.52 + 0.55 give none |
| Arb.MinSharesFor | arb.py:345-348 | the minimum share count is at least one and worth over $1 at any positive price |
| Arb.PlanArbitrage | arb.py:319-368 | a buy is planned iff there are credentials, an arbitrage, a non-zero cost, a size meeting one share and each leg's $1 minimum, and an edge ≥ 0.01; it is at the asks for min(budget sets, top-level shares) |
| Arb.PositionSize | arb.py:350-355 | the size is the smaller of the whole sets the budget buys and the whole shares offered |
| Arb.LegsWorthOverOne | arb.py:345-348 | a size meeting both minimums buys more than $1 of each leg |
| Arb.Unwind | arb.py:420-475 | the unwind sends one to three FOK sells until one fills, then a resting sell at the bid, and reports manual action when that is refused |
| Arb.ExecuteArbitrage | arb.py:307-481 | success iff a buy is planned and both legs fill; a refusal sends nothing; one filled leg is unwound with one to three FOK sells and then a resting sell at its bid, as `Arb.Unwind` states |
| Fade.TargetSellPrice | fade_extreme.py:384 | the exit price is 110% of the entry, above it for a positive entry |
| Fade.Survivors | fade_extreme.py:336-376 | exactly the positions whose fade side's bid is below target survive |
| Fade.SurvivorsInOrder | fade_extreme.py:336-376 | survivors keep their relative order |
| Fade.SweepStats | fade_extreme.py:352-371 | each exit adds one resolution, one win and one target hit, and at least $5 of PnL when entries are positive |
| Fade.TargetExitProfit | fade_extreme.py:351-355 | a $50 position sold at or above its target earns at least $5 |
| Fade.CheckProfitTargets | fade_extreme.py:334-376 | the exit sweep changes only positions and statistics, the counters grow by the number of exits, and the PnL grows by exactly 50/entry × bid − 50 summed over the exits |
| Fade.MaybeLog | fade_extreme.py:323-331 | a side is logged iff its ask is ≥ 0.93 and it was not logged this interval |
| Fade.CheckExtreme | fade_extreme.py:282-332 | nothing happens unless the feed is live; new positions need ≥ 5 minutes left, fade the other side at its ask, and are each a side not logged before |
| Fade.ExtremeSideIsLogged | fade_extreme.py:319-331 | with the feed live and ≥ 5 minutes left, a side whose ask is ≥ 0.93 and that is not logged yet is logged, with a fade of the other side at its ask |
| Fade.OneSidePerCheck | fade_extreme.py:299-331 | two asks of 0.93 sum past 1.15, so one check logs at most one position |
| Fade.ResolvePending | fade_extreme.py:423-457 | resolution settles every open position, counts a win for each that faded into the winner, and adds 50/entry for each winner less $50 per position to the PnL |
| Fade.SettlePnl | fade_extreme.py:433-442 | a loser costs $50; a winner earns 50/entry − 50, a profit when bought below $1 |
| Fade.SweepPnl | fade_extreme.py:352-367 | the sweep adds exactly the sum of 50/entry × bid − 50 over the positions whose bid reached the target |
| Fade.SettleTotalPnl | fade_extreme.py:433-445 | settling adds 50 × Σ 1/entry over the winners and loses $50 per position |
| Fade.NewMonitor | fade_extreme.py:149-186 | a new monitor takes UP from the first label and starts cold, empty and with every counter at zero |
| Fade.MonitorLogsAtMostTwo | fade_extreme.py:630 | a fresh monitor is a reset watcher with zero counters, so one monitor logs at most two fades |
| Fade.Reset | fade_extreme.py:459-476 | the reset takes UP from the first outcome label, empties the books, the dedupe set and the positions, cools the feed and leaves the statistics as they were |
| Fade.RunChecks | fade_extreme.py:282-332 | over any checks the logged count grows exactly as the dedupe set |
| Fade.AtMostTwoPerInterval | fade_extreme.py:319-331 | after a reset, any number of checks logs at most two positions |
| Fade.DetermineResolution | fade_extreme.py:526-565 | UP iff the up price exceeds 0.9; DOWN iff the up price does not and the down price does; none with fewer than two prices |
| Fade.UpTakesPrecedence | fade_extreme.py:550-560 | with both prices above 0.9, UP is reported |
| Fade.OnMessage | fade_extreme.py:226-266 | the feed ends in its processed state and the logged count grows with the dedupe set; the checks themselves are stated by the lemmas below |
| Fade.NoCheckPointOnlyFeed | fade_extreme.py:226-266 | a message with no check point only updates the feed |
| Fade.OneCheckPointRunsCheck | fade_extreme.py:247-266 | with one check point, the extreme check runs once on the books at that point |
| Fade.DictMessageChecksOnce | fade_extreme.py:227-241 | a non-empty dict of changes applies them, warms the feed and runs the extreme check once on the result |
| Fade.ColdSnapshotsLogNothing | fade_extreme.py:247-254 | on a cold feed a message of snapshots logs, exits and counts nothing |
| Quoter.MakeBook | lp.py:58-60 | the book holds the given levels, bids sorted descending and asks ascending, and an already-sorted book unchanged |
| Quoter.BestPricesAreExtremes | lp.py:62-68 | the best bid is the highest bid price, the best ask the lowest ask price, absent exactly on an empty side |
| Quoter.Spread | lp.py:79-83 | the spread exists iff both best prices are present and non-zero, and bid plus spread is the ask |
| Quoter.Mid | lp.py:85-88 | the mid exists under the same condition and is equidistant from bid and ask |
| Quoter.MidWithinSpread | lp.py:79-88 | on an uncrossed book the mid lies between bid and ask, and the spread is non-negative |
| Quoter.SliceEnd | lp.py:90-92 | `book[:k]` keeps min(k, n) levels for k ≥ 0 and max(0, n + k) for k < 0 |
| Quoter.CumulativeSizeFacts | lp.py:90-92 | on either side, one level gives the best size, enough levels give the whole side, zero gives 0, and more levels never give less |
| Quoter.BookFailures | lp.py:261-267 | one failure per shallow side and one for a spread over 0.10, each naming this outcome |
| Quoter.CheckLiquidity | lp.py:253-269 | passes iff liquidity ≥ 100 and both books pass; the failures are the liquidity failure if any, then the YES book's, then the NO book's |
| Quoter.FailureAttribution | lp.py:261-267 | each shallow side and each wide spread is reported against the outcome whose book has it, iff that book violates that requirement |
| Quoter.Quote | lp.py:283-292 | each bid is max(0.01, min(mid − 0.005, best bid + 0.01)): at least the floor and the smaller bound, and at most either bound unless the floor binds |
| Quoter.CalculateOpportunity | lp.py:271-320 | no opportunity iff either mid is missing or zero; otherwise both quotes are ≥ 0.01 and the edge is 1 minus their sum |
| Quoter.QuotesBelowMid | lp.py:283-292 | each quote lies below its mid once the floor does not bind |
| Quoter.MakerEdgeAtLeastTakerEdge | lp.py:298-306 | on books with at least a tick of spread, the quoted edge is at least the edge of taking both asks |
| Quoter.ShouldPlace | lp.py:322-340 | placing is refused iff edge < 0.01, a side holds ≥ 100, or the imbalance is ≥ 20, with the reason and amount of the first failed check |
| Quoter.CancelAll | lp.py:342-357 | both order lists end empty; a live run cancels every tracked order, a dry run none |
| Quoter.Paired | lp.py:413-415 | the paired count is the smaller holding |
| Quoter.UnhedgedOnOneSide | lp.py:413-415 | at most one side is unhedged, and neither is negative |
| Quoter.Iterate | lp.py:444-499 | a fetch failure, failed liquidity check, missing opportunity or refused gate yields that action, and the last two failures cancel; quotes are refreshed, with the computed opportunity, iff everything passes and 15 s have passed; otherwise the loop holds and reports the truncated seconds left |
| Quoter.FlatPositionGateOnEdge | lp.py:322-340 | from the flat position only the edge decides |
| Quoter.HoldCountdown | lp.py:494-496 | while quotes are fresh the loop reports 0 to 15 seconds to the refresh |
| Recorder.BestAsk | recorder.py:150-156 | the best ask is the head of the asks, or 0 for an unknown token or an empty side |
| Recorder.BestSize | recorder.py:158-164 | the size at the head of the asks, or 0 |
| Recorder.PriceSum | recorder.py:174 | the sum is positive iff both asks are, and is then their total; otherwise 0 |
| Recorder.WriteRow | recorder.py:166-189 | without a writer nothing changes; with one, exactly the row for the given event type, token, book side, price and size, read against the current books and interval end, is appended and the count grows by one; the row's columns are those of `RowOf`: the best UP and DOWN asks, their price sum and the seconds remaining |
| Recorder.WriteLevels | recorder.py:223-226 | the rows appended are exactly the "snapshot" rows of the levels in order, each with the given book side and read against the books as they stand |
| Recorder.LevelRowsAt | recorder.py:223-226 | the i-th row of a run carries the i-th level's price and size |
| Recorder.RecordEvents | recorder.py:215-226 | a list message writes one row per level of each book event, and no more; when the last event is a book event its book is stored verbatim and the output ends with its bid rows and then its ask rows, read against the replaced book |
| Recorder.RecordEvent | recorder.py:216-226 | a book event replaces that token's book verbatim, leaving the others, and appends its bid rows labelled "bid" and then its ask rows labelled "ask", all read against the replaced book; any other event changes nothing |
| Recorder.RecordChanges | recorder.py:229-238 | a dict message updates the books as the trading feed does and writes one row per applicable change; when the last change applies, the last row is its "update" row, side "bid" iff BUY, with its price and size and the best asks after all the changes |
| Recorder.OnMessage | recorder.py:205-238 | rows and counted events grow together, and other JSON values change nothing |
| Recorder.SnapshotBooksAsFeed | recorder.py:215-222 | on snapshot-only list messages the recorder's books equal the trading feed's |
| Recorder.SetupMarket | recorder.py:101-127 | setup succeeds iff there are two outcomes and two tokens, takes UP from the first label, and clears the books and the count |
| Recorder.BeginInterval | recorder.py:289-300 | the interval end is read from the slug; the writer opens iff the slug parses and the market is set up |
| Recorder.CurrentSlugEnd | recorder.py:289-292 | for the current slug the recorded end is the clock's interval end, and the countdown is at most one interval |
| Recorder.ClosedWriterRecordsNothing | recorder.py:143-148 | after the writer closes, no message adds a row or an event |

## Left out

- Network and process plumbing is left out: HTTP lookups, the WebSocket
  transport, ping/refresh/sync threads, locks, CSV files, logging and
  terminal output. Fetched data and clock readings are parameters.
- The sniper's REST resync loop (sniper.py:597-613) is left out. It
  replaces books in the same way a snapshot does.
- claim.py, dashboard.py, test.py and test2.py are not part of this
  model.
- `round(x, 2)` is not modelled. It is applied to quotes in lp.py:294-295
  and to order prices in the arbitrage and sniper paths, and is I/O-facing
  formatting. The model uses exact prices.
- Price keys are compared as numbers. The source compares the price
  strings sent on the wire, so the same price written differently ("0.5"
  and "0.50") would be two levels there.
- Python's `int()` also accepts signs, spaces and underscores; that is
  not modelled. `Slugs.SlugTimestamp` accepts digits only, which covers
  every slug the scripts generate.
- Fade.CheckProfitTargets: requires every open position's entry price to
  be non-zero. The source divides by it and would raise on a zero ask.
- Fade.ResolvePending: requires the same non-zero entries, for the same
  reason.
- Fade.OnMessage: requires non-zero asks at each check point, so that new
  entries keep the previous requirement.
- Feed.LevelChange: a change is taken to always carry a size. In the
  source a missing size makes `float(None)` raise (sniper.py:398,
  fade_extreme.py:271, recorder.py:196), which abandons the rest of that
  message with no warm-up and no check. That error path is not modelled.
- Fade: the unresolved-interval path of `monitor_btc`
  (fade_extreme.py:596-604) is left out. It writes "UNKNOWN" CSV rows and
  clears the positions.
- Recorder.WriteRow: one clock reading per message stands for the reading
  the source takes per row. The wall-clock timestamp column is left out,
  as is the flush every 50 rows.
- Quoter.Iterate: live order placement (lp.py:371-395) is left out, since
  it needs the exchange client. The position is never updated by the
  source, so it is a parameter.
- Arb: the hourly slug's month and day formatting (arb.py:97-122) is left
  out; only its hour label is modelled. Equal outcome labels are assumed
  distinct.
- Arb.Unwind: the pause after a balance or allowance error is left out. It
  changes timing, not which orders are sent.
- Exposure.TotalStaysCapped: the cap is proved for attempts taken one at
  a time. The source runs one thread per asset (sniper.py:39, 845-848),
  and a thread's check (sniper.py:712) and record (sniper.py:735) take
  the lock separately, so threads can interleave between them; that
  case is `Exposure.Interleaved` and is listed under Findings.
- Intervals.IntervalStart: the Eastern-time offset is taken as a whole
  number of hours, so minute and second boundaries match UTC.

## Notes on the source

- Nothing calls fade's `reset_for_new_interval`. `monitor_btc` builds a
  new monitor for each interval (fade_extreme.py:630), and its counters
  start at zero (fade_extreme.py:182-186), so the running program's
  statistics cover one interval each (`Fade.NewMonitor`).

- Fade never resets its retry count (fade_extreme.py:497), so it
  reconnects at most eleven times in its life; `Backoff.CountEveryDropIsBounded`
  states this.
- In `execute_snipe` the $1 minimum-share raise comes before the
  liquidity cap. The cap can undo it, giving an order worth under $1
  (`Sniper.CapUndoesMinimum`).
- The arbitrage script's short-name table lacks xrp. This changes no
  slug, because the fallback is the asset name itself.
- The arbitrage script treats a leg as filled when posting the order does
  not raise.
- The exposure cap is not atomic across the sniper's per-asset threads:
  a check and its record are separate critical sections with the order
  in between, so concurrent fills can pass $200
  (`Exposure.InterleavedChecksCanOverrun`).
- The arbitrage loop's proactive market switch (arb.py:88-94, called at
  arb.py:731) never fires: the interval end is computed from a clock
  reading taken after `et_now`, so it always lies after `et_now`
  (`Intervals.ShouldSwitch`). Only the check that the market reports as
  closed moves the loop to the next market.
- In lp.py the position is initialised to zero and never updated, so the
  position and imbalance checks never refuse (`Quoter.FlatPositionGateOnEdge`).

## Findings

| source | as written | input that shows it | evidently intended | confidence | as-written member | corrected member |
|---|---|---|---|---|---|---|
| sniper.py:636-641 with sniper.py:545-548 | the retry count resets only when `running` is still set after the socket returns, but `on_close` clears it, so a connection that opened and later closed counts as a failure | eleven connections that each open, stream, and are closed by the server | reset the count after any connection that opened, as the comment at sniper.py:636-637 says | not executed; medium (depends on the socket library calling `on_close` before `run_forever` returns) | Backoff.LongSessionsExhaustSniperRetries | Backoff.GiveUpOnlyAfterElevenFailedOpens |
| sniper.py:116-128 with sniper.py:712-735 and 845-848 | `can_open_position` and `record_position` each take the lock, but not together, and four asset threads run `execute_snipe` | total $150; the bitcoin and ethereum threads each check a 50-share order at 0.95 ($47.50) before either records | check and record under one lock hold, so the total never passes $200 | not executed; medium (needs two fills inside one order round trip) | Exposure.InterleavedChecksCanOverrun | Exposure.TotalStaysCapped |

=== FILE: arb.dfy ===
/**
  The two-leg arbitrage (arb.py): buying one share of each outcome of a
  binary market pays exactly 1 at resolution, so a combined ask below 1 is
  an edge. The analysis reads the best asks and bids, the plan sizes the
  pair of fill-or-kill buys, and when only one leg fills the unwind sells
  it back.
 */
module Arb {
  import opened Wrappers
  import opened Numeric
  import opened Ladder
  import opened Market

  /** The result of `analyze_orderbook_quick`. The yes leg is the
      instrument of the positive outcome. */
  datatype Analysis = Analysis(
    yesToken: TokenId, noToken: TokenId,
    positive: string, negative: string,
    yesBid: Level, yesAsk: Level, noBid: Level, noAsk: Level,
    cost: real, edge: real, hasArbitrage: bool)

  /** `analyze_orderbook_quick` (arb.py:228-304). `books` holds the order
      book the exchange returns for each instrument; an instrument missing
      from it stands for a request that raised. */
  function Analyze(tokenIds: seq<TokenId>, outcomes: seq<string>, books: map<TokenId, Book>): (r: Option<Analysis>)
    ensures r.Some? <==>
      && |tokenIds| == 2 && |outcomes| == 2
      && tokenIds[PositiveIndex(outcomes)] in books && tokenIds[NegativeIndex(outcomes)] in books
      && |books[tokenIds[PositiveIndex(outcomes)]].bids| > 0 && |books[tokenIds[PositiveIndex(outcomes)]].asks| > 0
      && |books[tokenIds[NegativeIndex(outcomes)]].bids| > 0 && |books[tokenIds[NegativeIndex(outcomes)]].asks| > 0
    ensures r.Some? ==>
      && r.value.yesToken == tokenIds[PositiveIndex(outcomes)]
      && r.value.noToken == tokenIds[NegativeIndex(outcomes)]
      && r.value.positive == outcomes[PositiveIndex(outcomes)]
      && r.value.negative == outcomes[NegativeIndex(outcomes)]
    ensures r.Some? ==> BestOfBook(r.value.yesBid, r.value.yesAsk, books[r.value.yesToken])
    ensures r.Some? ==> BestOfBook(r.value.noBid, r.value.noAsk, books[r.value.noToken])
    ensures r.Some? ==> r.value.edge == 1.0 - (r.value.yesAsk.price + r.value.noAsk.price)
    ensures r.Some? ==> (r.value.hasArbitrage <==> r.value.edge > 0.0)
  {
    if |tokenIds| != 2 || |outcomes| != 2 then None
    else
      var yesToken := tokenIds[PositiveIndex(outcomes)];
      var noToken := tokenIds[NegativeIndex(outcomes)];
      if yesToken !in books || noToken !in books then None
      else
        var yes := books[yesToken];
        var no := books[noToken];
        if |yes.asks| == 0 || |no.asks| == 0 || |yes.bids| == 0 || |no.bids| == 0 then None
        else
          var yesAsk := SortedHead(Asks, yes.asks);
          var noAsk := SortedHead(Asks, no.asks);
          var cost := yesAsk.price + noAsk.price;
          Some(Analysis(
            yesToken, noToken,
            outcomes[PositiveIndex(outcomes)], outcomes[NegativeIndex(outcomes)],
            SortedHead(Bids, yes.bids), yesAsk, SortedHead(Bids, no.bids), noAsk,
            cost, 1.0 - cost, cost < 1.0))
  }

  /** The bid is a level of the highest bid price and the ask a level of
      the lowest ask price in the book. */
  predicate BestOfBook(bid: Level, ask: Level, book: Book) {
    && bid in book.bids && (forall l | l in book.bids :: bid.price >= l.price)
    && ask in book.asks && (forall l | l in book.asks :: ask.price <= l.price)
  }

  /** 0.40 and 0.55 cost 0.95, an edge of 0.05: an arbitrage. 0.52 and 0.55
      cost 1.07, an edge of -0.07: none. */
  lemma EdgeExamples()
    ensures var a := Analyze(["y", "n"], ["Up", "Down"],
        map["y" := Book([Level(0.38, 5.0)], [Level(0.40, 10.0)]), "n" := Book([Level(0.50, 5.0)], [Level(0.55, 10.0)])]);
      a.Some? && a.value.edge == 0.05 && a.value.hasArbitrage
    ensures var a := Analyze(["y", "n"], ["Up", "Down"],
        map["y" := Book([Level(0.50, 5.0)], [Level(0.52, 10.0)]), "n" := Book([Level(0.50, 5.0)], [Level(0.55, 10.0)])]);
      a.Some? && a.value.edge == -0.07 && !a.value.hasArbitrage
  {
    PositiveLabelExamples();
  }

  /** Minimum edge for a trade (arb.py:30). */
  const MinEdge: real := 0.01

  /** Dollars per side at most (arb.py:29). */
  const MaxPositionSize: real := 60.0

  /** `int(1 / p) + 1 if p > 0 else 1`: shares needed for a $1 order. */
  function MinSharesFor(price: real): (r: int)
    ensures r >= 1
    ensures price > 0.0 ==> Notional(r, price) > 1.0
  {
    if price > 0.0 then
      MinimumSharesWorthOverOne(Trunc(1.0 / price) + 1, price);
      Trunc(1.0 / price) + 1
    else 1
  }

  /** Why execute_arbitrage placed no order. A total price of zero makes
      the source raise, which its handler turns into a refusal. */
  datatype Refusal = NoCredentials | NoArbitrage | ZeroCost | BelowMinimum | TooSmall | EdgeTooSmall

  datatype Plan = Refused(reason: Refusal) | Buy(size: int, yesPrice: real, noPrice: real)

  /** The sizing and gates of execute_arbitrage (arb.py:319-368), with
      prices taken unrounded. `hasCredentials` says that the key and funder
      are set and the cached trading client could be built. */
  function PlanArbitrage(a: Analysis, maxSize: real, hasCredentials: bool): (p: Plan)
    ensures p.Buy? <==>
      && hasCredentials && a.hasArbitrage
      && a.yesAsk.price + a.noAsk.price != 0.0
      && PositionSize(a, maxSize) >= MaxInt(1, RequiredShares(a))
      && a.edge >= MinEdge
    ensures p.Buy? ==> p.size == PositionSize(a, maxSize)
    ensures !hasCredentials ==> p == Refused(NoCredentials)
    ensures hasCredentials && !a.hasArbitrage ==> p == Refused(NoArbitrage)
    ensures p.Buy? ==> hasCredentials && a.hasArbitrage && a.edge >= MinEdge
    ensures p.Buy? ==> p.yesPrice == a.yesAsk.price && p.noPrice == a.noAsk.price
    ensures p.Buy? ==> 1 <= p.size <= Trunc(MinReal(a.yesAsk.size, a.noAsk.size))
    ensures p.Buy? ==> p.yesPrice + p.noPrice != 0.0 && p.size <= Trunc(maxSize / (p.yesPrice + p.noPrice))
    ensures p.Buy? ==> p.size >= MaxInt(MinSharesFor(p.yesPrice), MinSharesFor(p.noPrice))
    ensures p.Buy? && p.yesPrice > 0.0 ==> Notional(p.size, p.yesPrice) > 1.0
    ensures p.Buy? && p.noPrice > 0.0 ==> Notional(p.size, p.noPrice) > 1.0
  {
    if !hasCredentials then Refused(NoCredentials)
    else if !a.hasArbitrage then Refused(NoArbitrage)
    else
      var yesPrice := a.yesAsk.price;
      var noPrice := a.noAsk.price;
      var required := RequiredShares(a);
      if yesPrice + noPrice == 0.0 then Refused(ZeroCost)
      else
        var size := PositionSize(a, maxSize);
        if size < required then Refused(BelowMinimum)
        else if size < 1 then Refused(TooSmall)
        else if a.edge < MinEdge then Refused(EdgeTooSmall)
        else
          LegsWorthOverOne(size, yesPrice, noPrice);
          Buy(size, yesPrice, noPrice)
  }

  /** Shares needed for each leg to be worth more than $1. */
  function RequiredShares(a: Analysis): (n: int)
    ensures n >= MinSharesFor(a.yesAsk.price) && n >= MinSharesFor(a.noAsk.price)
  {
    MaxInt(MinSharesFor(a.yesAsk.price), MinSharesFor(a.noAsk.price))
  }

  /** The whole sets the budget buys at the two asks, capped by the whole
      shares offered at the top of both books. */
  function PositionSize(a: Analysis, maxSize: real): (n: int)
    requires a.yesAsk.price + a.noAsk.price != 0.0
    ensures n <= Trunc(maxSize / (a.yesAsk.price + a.noAsk.price))
    ensures n <= Trunc(MinReal(a.yesAsk.size, a.noAsk.size))
    ensures n == Trunc(maxSize / (a.yesAsk.price + a.noAsk.price)) || n == Trunc(MinReal(a.yesAsk.size, a.noAsk.size))
  {
    MinInt(Trunc(maxSize / (a.yesAsk.price + a.noAsk.price)), Trunc(MinReal(a.yesAsk.size, a.noAsk.size)))
  }

  /** A size meeting both minimums buys more than $1 of each leg. */
  lemma LegsWorthOverOne(size: int, yesPrice: real, noPrice: real)
    requires size >= MaxInt(MinSharesFor(yesPrice), MinSharesFor(noPrice))
    ensures yesPrice > 0.0 ==> Notional(size, yesPrice) > 1.0
    ensures noPrice > 0.0 ==> Notional(size, noPrice) > 1.0
  {
    if yesPrice > 0.0 {
      MoreSharesWorthMore(MinSharesFor(yesPrice), size, yesPrice);
    }
    if noPrice > 0.0 {
      MoreSharesWorthMore(MinSharesFor(noPrice), size, noPrice);
    }
  }

  lemma MoreSharesWorthMore(a: int, b: int, p: real)
    requires a <= b && p > 0.0
    ensures Notional(a, p) <= Notional(b, p)
  {
    var d := (b - a) as real;
    assert Notional(b, p) - Notional(a, p) == d * p;
  }

  /** The two legs of the plan. */
  datatype Leg = YesLeg | NoLeg

  datatype Tif = FillOrKill | GoodTillCancelled

  datatype Direction = BuyOrder | SellOrder

  datatype Order = Order(direction: Direction, tif: Tif, token: TokenId, price: real, size: int)

  /** The price of the aggressive closing sell. */
  const FloorPrice: real := 0.01

  /** Number of fill-or-kill closing attempts. */
  const UnwindAttempts: nat := 3

  function FokSell(token: TokenId, size: int): Order {
    Order(SellOrder, FillOrKill, token, FloorPrice, size)
  }

  /** How a one-legged position ended. */
  datatype Close = ClosedByFok(attempt: nat) | RestingSell(price: real) | ManualAction

  /** The partial-fill unwind (arb.py:420-475). `fok(i)` is whether the i-th
      fill-or-kill sell went through, `gtcAccepted` whether the resting sell
      at the bid was accepted. Whatever the error of a failed attempt, the
      next attempt follows; the error kind changes only the pause, which is
      not modelled. */
  method Unwind(token: TokenId, bid: real, size: int, fok: nat -> bool, gtcAccepted: bool)
    returns (orders: seq<Order>, close: Close)
    ensures forall i | 0 <= i < |orders| :: orders[i].direction == SellOrder && orders[i].token == token && orders[i].size == size
    ensures close.ClosedByFok? <==> fok(0) || fok(1) || fok(2)
    ensures close.ClosedByFok? ==>
      && close.attempt < UnwindAttempts && fok(close.attempt)
      && (forall j | 0 <= j < close.attempt :: !fok(j))
      && orders == seq(close.attempt + 1, _ => FokSell(token, size))
    ensures !close.ClosedByFok? ==>
      orders == seq(UnwindAttempts, _ => FokSell(token, size)) + [Order(SellOrder, GoodTillCancelled, token, bid, size)]
    ensures close.RestingSell? <==> !fok(0) && !fok(1) && !fok(2) && gtcAccepted
    ensures close.RestingSell? ==> close.price == bid
    ensures close.ManualAction? <==> !fok(0) && !fok(1) && !fok(2) && !gtcAccepted
  {
    orders := [];
    var attempt := 0;
    while attempt < UnwindAttempts
      invariant 0 <= attempt <= UnwindAttempts
      invariant orders == seq(attempt, _ => FokSell(token, size))
      invariant forall j | 0 <= j < attempt :: !fok(j)
    {
      orders := orders + [FokSell(token, size)];
      if fok(attempt) {
        close := ClosedByFok(attempt);
        return;
      }
      attempt := attempt + 1;
    }
    orders := orders + [Order(SellOrder, GoodTillCancelled, token, bid, size)];
    close := if gtcAccepted then RestingSell(bid) else ManualAction;
  }

  datatype ArbOutcome =
    | NotPlaced(reason: Refusal)
    | BothFilled
    | NeitherFilled
    | OneFilled(leg: Leg, close: Close)

  /** `execute_arbitrage` (arb.py:307-481). `yesFills` and `noFills` say
      whether each fill-or-kill buy returned without raising, which the
      source takes as filled. The outcome labels are taken as distinct. */
  method ExecuteArbitrage(a: Analysis, maxSize: real, hasCredentials: bool,
                          yesFills: bool, noFills: bool, fok: nat -> bool, gtcAccepted: bool)
    returns (success: bool, orders: seq<Order>, outcome: ArbOutcome)
    ensures success <==> PlanArbitrage(a, maxSize, hasCredentials).Buy? && yesFills && noFills
    ensures success <==> outcome.BothFilled?
    ensures PlanArbitrage(a, maxSize, hasCredentials).Refused? ==>
      orders == [] && outcome == NotPlaced(PlanArbitrage(a, maxSize, hasCredentials).reason)
    ensures PlanArbitrage(a, maxSize, hasCredentials).Buy? ==>
      var p := PlanArbitrage(a, maxSize, hasCredentials);
      && |orders| >= 2
      && orders[0] == Order(BuyOrder, FillOrKill, a.yesToken, p.yesPrice, p.size)
      && orders[1] == Order(BuyOrder, FillOrKill, a.noToken, p.noPrice, p.size)
      && (outcome.OneFilled? <==> yesFills != noFills)
      && (!outcome.OneFilled? ==> |orders| == 2)
      && (outcome.OneFilled? ==>
            var token := if yesFills then a.yesToken else a.noToken;
            forall i | 2 <= i < |orders| :: orders[i].direction == SellOrder && orders[i].token == token && orders[i].size == p.size)
    ensures outcome.OneFilled? ==>
      var p := PlanArbitrage(a, maxSize, hasCredentials);
      var token := if yesFills then a.yesToken else a.noToken;
      var bid := if yesFills then a.yesBid.price else a.noBid.price;
      && outcome.leg == (if yesFills then YesLeg else NoLeg)
      && |orders| >= 3 && orders[2] == FokSell(token, p.size)
      && (outcome.close.ClosedByFok? <==> fok(0) || fok(1) || fok(2))
      && (outcome.close.ClosedByFok? ==> orders[2..] == seq(outcome.close.attempt + 1, _ => FokSell(token, p.size)))
      && (!outcome.close.ClosedByFok? ==>
            orders[2..] == seq(UnwindAttempts, _ => FokSell(token, p.size)) + [Order(SellOrder, GoodTillCancelled, token, bid, p.size)])
      && (outcome.close.RestingSell? <==> !fok(0) && !fok(1) && !fok(2) && gtcAccepted)
      && (outcome.close.RestingSell? ==> outcome.close.price == bid)
  {
    var p := PlanArbitrage(a, maxSize, hasCredentials);
    if p.Refused? {
      return false, [], NotPlaced(p.reason);
    }
    orders := [Order(BuyOrder, FillOrKill, a.yesToken, p.yesPrice, p.size),
               Order(BuyOrder, FillOrKill, a.noToken, p.noPrice, p.size)];
    if yesFills && noFills {
      return true, orders, BothFilled;
    }
    if yesFills != noFills {
      var leg := if yesFills then YesLeg else NoLeg;
      var token := if yesFills then a.yesToken else a.noToken;
      var bid := if yesFills then a.yesBid.price else a.noBid.price;
      var sells, close := Unwind(token, bid, p.size, fok, gtcAccepted);
      assert (orders + sells)[2..] == sells;
      assert |sells| >= 1 && sells[0] == FokSell(token, p.size);
      return false, orders + sells, OneFilled(leg, close);
    }
    return false, orders, NeitherFilled;
  }
}

=== FILE: backoff.dfy ===
/**
  The reconnect loop around the market-data socket (sniper.py:615-649,
  fade_extreme.py:480-504). After each connection returns, the loop either
  stops (the monitor was stopped), gives up (too many retries), or sleeps
  min(2^retry, 30) seconds and connects again. The two processes differ
  only in when the retry count resets.
 */
module Backoff {
  import opened Numeric

  const MaxRetries: nat := 10
  const MaxWait: nat := 30

  /** What one connection did, as the loop can observe it afterwards:
      whether the open callback ran, whether the close callback ran after
      it, and whether the monitor was stopped. The `running` flag is set by
      the open callback and cleared by the close callback (sniper.py:548,
      582), so it is still set only when the connection opened and no close
      was reported. */
  datatype Session = Session(didOpen: bool, closeReported: bool, stopped: bool)

  predicate RunningAfter(s: Session) {
    s.didOpen && !s.closeReported
  }

  /** When the retry count resets to zero.
      - ResetWhenRunning: after a connection whose `running` flag is still
        set (sniper.py:638-641, as written);
      - CountEveryDrop: never (fade_extreme.py:497);
      - ResetWhenOpened: after any connection that opened, the rule the
        comment at sniper.py:636-637 describes. */
  datatype Policy = ResetWhenRunning | CountEveryDrop | ResetWhenOpened

  predicate Resets(policy: Policy, s: Session) {
    match policy
    case ResetWhenRunning => RunningAfter(s)
    case CountEveryDrop => false
    case ResetWhenOpened => s.didOpen
  }

  /** A connection that moves the loop towards giving up. */
  predicate Counted(policy: Policy, s: Session) {
    !s.stopped && !Resets(policy, s)
  }

  datatype Step = Wait(seconds: nat) | GiveUp | Halt

  function Pow2(n: nat): (r: nat)
    ensures r >= 1
  {
    if n == 0 then 1 else 2 * Pow2(n - 1)
  }

  /** `min(2 ** retry, 30)` */
  function WaitFor(retry: nat): (w: nat)
    ensures 1 <= w <= MaxWait
    ensures retry >= 5 ==> w == MaxWait
    ensures retry < 5 ==> w == Pow2(retry)
  {
    PowAbove(retry);
    if Pow2(retry) < MaxWait then Pow2(retry) else MaxWait
  }

  lemma {:induction false} PowAbove(n: nat)
    ensures n >= 5 ==> Pow2(n) >= 32
    ensures n < 5 ==> Pow2(n) <= 16
  {
    if n > 0 {
      PowAbove(n - 1);
    }
  }

  /** One turn of the loop after a connection returns: the step taken and
      the retry count it leaves. */
  function Next(policy: Policy, retry: nat, s: Session): (r: (Step, nat))
    ensures s.stopped <==> r.0 == Halt
    ensures r.0 == GiveUp <==> Counted(policy, s) && retry >= MaxRetries
    ensures r.0.Wait? ==> r.1 <= MaxRetries && r.0.seconds == WaitFor(r.1)
    ensures !s.stopped ==> r.1 == if Counted(policy, s) then retry + 1 else 0
  {
    if s.stopped then (Halt, retry)
    else
      var retry' := if Resets(policy, s) then 0 else retry + 1;
      if retry' > MaxRetries then (GiveUp, retry') else (Wait(WaitFor(retry')), retry')
  }

  /** The steps the loop takes over a sequence of connections, starting
      from a retry count; it ends at the first GiveUp or Halt. */
  function Supervise(policy: Policy, retry: nat, sessions: seq<Session>): (t: seq<Step>)
    ensures |t| <= |sessions|
    ensures forall i :: 0 <= i < |t| - 1 ==> t[i].Wait?
    decreases |sessions|
  {
    if |sessions| == 0 then []
    else
      var (step, retry') := Next(policy, retry, sessions[0]);
      if step.Wait? then [step] + Supervise(policy, retry', sessions[1..]) else [step]
  }

  /** Every wait lies between one and thirty seconds. */
  lemma {:induction false} WaitsBounded(policy: Policy, retry: nat, sessions: seq<Session>)
    ensures forall i :: 0 <= i < |Supervise(policy, retry, sessions)| && Supervise(policy, retry, sessions)[i].Wait? ==>
      1 <= Supervise(policy, retry, sessions)[i].seconds <= MaxWait
    decreases |sessions|
  {
    if |sessions| > 0 {
      var (step, retry') := Next(policy, retry, sessions[0]);
      if step.Wait? {
        WaitsBounded(policy, retry', sessions[1..]);
      }
    }
  }

  /** The loop gives up only after a run of counted connections: the last
      min(n, 11) of the n connections it saw were all counted, and from a
      fresh start it saw at least 11. */
  lemma {:induction false} GiveUpAfterCountedRun(policy: Policy, retry: nat, sessions: seq<Session>)
    requires retry <= MaxRetries
    ensures var t := Supervise(policy, retry, sessions);
      |t| > 0 && t[|t| - 1] == GiveUp ==>
        && |t| + retry >= MaxRetries + 1
        && forall j :: |t| - MinInt(|t|, MaxRetries + 1) <= j < |t| ==> Counted(policy, sessions[j])
    decreases |sessions|
  {
    var t := Supervise(policy, retry, sessions);
    if |sessions| > 0 && |t| > 0 && t[|t| - 1] == GiveUp {
      var (step, retry') := Next(policy, retry, sessions[0]);
      if step.Wait? {
        var rest := Supervise(policy, retry', sessions[1..]);
        GiveUpAfterCountedRun(policy, retry', sessions[1..]);
        assert t == [step] + rest;
        assert t[|t| - 1] == rest[|rest| - 1];
        forall j | |t| - MinInt(|t|, MaxRetries + 1) <= j < |t|
          ensures Counted(policy, sessions[j])
        {
          if j > 0 {
            assert sessions[j] == sessions[1..][j - 1];
          }
        }
      }
    }
  }

  /** Without resets the loop connects at most eleven times in its life and
      sleeps at most ten times. */
  lemma {:induction false} CountEveryDropIsBounded(retry: nat, sessions: seq<Session>)
    requires retry <= MaxRetries
    ensures |Supervise(CountEveryDrop, retry, sessions)| <= MaxRetries + 1 - retry
    decreases |sessions|
  {
    if |sessions| > 0 {
      var (step, retry') := Next(CountEveryDrop, retry, sessions[0]);
      if step.Wait? {
        CountEveryDropIsBounded(retry', sessions[1..]);
      }
    }
  }

  /** The sniper as written: a connection that opened and then reported its
      close leaves `running` cleared, so it counts as a failure; eleven
      such connections, however long each lasted, end the loop. */
  lemma LongSessionsExhaustSniperRetries()
    ensures var s := Session(true, true, false);
      Supervise(ResetWhenRunning, 0, [s, s, s, s, s, s, s, s, s, s, s])
        == [Wait(2), Wait(4), Wait(8), Wait(16), Wait(30), Wait(30), Wait(30), Wait(30), Wait(30), Wait(30), GiveUp]
  {
    var s := Session(true, true, false);
    var ss := [s, s, s, s, s, s, s, s, s, s, s];
    var P := ResetWhenRunning;
    assert Pow2(1) == 2 && Pow2(2) == 4 && Pow2(3) == 8 && Pow2(4) == 16;
    assert Supervise(P, 10, ss[10..]) == [GiveUp];
    assert Supervise(P, 9, ss[9..]) == [Wait(30), GiveUp];
    assert Supervise(P, 8, ss[8..]) == [Wait(30), Wait(30), GiveUp];
    assert Supervise(P, 7, ss[7..]) == [Wait(30), Wait(30), Wait(30), GiveUp];
    assert Supervise(P, 6, ss[6..]) == [Wait(30), Wait(30), Wait(30), Wait(30), GiveUp];
    assert Supervise(P, 5, ss[5..]) == [Wait(30), Wait(30), Wait(30), Wait(30), Wait(30), GiveUp];
    assert Supervise(P, 4, ss[4..]) == [Wait(30), Wait(30), Wait(30), Wait(30), Wait(30), Wait(30), GiveUp];
    assert Supervise(P, 3, ss[3..]) == [Wait(16), Wait(30), Wait(30), Wait(30), Wait(30), Wait(30), Wait(30), GiveUp];
    assert Supervise(P, 2, ss[2..]) == [Wait(8), Wait(16), Wait(30), Wait(30), Wait(30), Wait(30), Wait(30), Wait(30), GiveUp];
    assert Supervise(P, 1, ss[1..]) == [Wait(4), Wait(8), Wait(16), Wait(30), Wait(30), Wait(30), Wait(30), Wait(30), Wait(30), GiveUp];
  }

  /** With the reset tied to the connection having opened, any connection
      that opened restarts the count, so the loop gives up only after
      eleven consecutive connections that never opened. */
  lemma GiveUpOnlyAfterElevenFailedOpens(sessions: seq<Session>)
    ensures var t := Supervise(ResetWhenOpened, 0, sessions);
      |t| > 0 && t[|t| - 1] == GiveUp ==>
        |t| >= MaxRetries + 1 && forall j :: |t| - (MaxRetries + 1) <= j < |t| ==> !sessions[j].didOpen
  {
    GiveUpAfterCountedRun(ResetWhenOpened, 0, sessions);
  }

  /** Under the corrected rule, connections that open never exhaust the
      retries, however many there are: each one restarts the count. */
  lemma {:induction false} LongSessionsKeepReconnecting(n: nat)
    ensures Supervise(ResetWhenOpened, 0, seq(n, _ => Session(true, true, false))) == seq(n, _ => Wait(1))
  {
    if n > 0 {
      var ss := seq(n, _ => Session(true, true, false));
      assert ss[1..] == seq(n - 1, _ => Session(true, true, false));
      LongSessionsKeepReconnecting(n - 1);
      assert [Wait(1)] + seq(n - 1, _ => Wait(1)) == seq(n, _ => Wait(1));
    }
  }
}

=== FILE: exposure.dfy ===
/**
  The sniper's exposure ledger (sniper.py:74-80, 116-128): a map from
  asset label to its last recorded position and a running total of the
  cost of every fill, capped at MaxTotalExposure by the pre-trade check.
  `Step` takes a check and the record that follows it as one step with no
  other record in between; `Interleaved` is two threads' checks both
  taken before either record.
 */
module Exposure {
  import opened Market
  import opened Numeric

  const MaxTotalExposure: real := 200.0

  datatype Position = Position(side: Outcome, size: int, price: real, cost: real)

  datatype Ledger = Ledger(positions: map<string, Position>, total: real)

  const EmptyLedger: Ledger := Ledger(map[], 0.0)

  /** `can_open_position(cost)` */
  predicate CanOpen(l: Ledger, cost: real) {
    l.total + cost <= MaxTotalExposure
  }

  /** `record_position`: the asset's entry is replaced, and the total grows
      by size * price whatever the entry held before. */
  function Record(l: Ledger, asset: string, side: Outcome, size: int, price: real): (r: Ledger)
    ensures r.total - l.total == Notional(size, price)
    ensures r.positions.Keys == l.positions.Keys + {asset}
    ensures r.positions[asset].cost == Notional(size, price)
    ensures forall a | a in l.positions && a != asset :: r.positions[a] == l.positions[a]
  {
    var cost := Notional(size, price);
    Ledger(l.positions[asset := Position(side, size, price, cost)], l.total + cost)
  }

  /** One order attempt as the sniper makes it: the check, then the order,
      then the record when the order filled. */
  datatype Attempt = Attempt(asset: string, side: Outcome, size: int, price: real, fills: bool)

  function Cost(a: Attempt): real {
    Notional(a.size, a.price)
  }

  /** An attempt is recorded when the check passes and the order fills. */
  predicate Recorded(l: Ledger, a: Attempt) {
    CanOpen(l, Cost(a)) && a.fills
  }

  function Step(l: Ledger, a: Attempt): (r: Ledger)
    ensures Recorded(l, a) ==> r.total <= MaxTotalExposure
    ensures !Recorded(l, a) ==> r == l
  {
    if Recorded(l, a) then Record(l, a.asset, a.side, a.size, a.price) else l
  }

  /** Attempts taken in order. */
  function RunLedger(l: Ledger, attempts: seq<Attempt>): Ledger {
    if |attempts| == 0 then l else Step(RunLedger(l, attempts[..|attempts| - 1]), attempts[|attempts| - 1])
  }

  /** The costs of the attempts that were recorded, in order. */
  function RecordedCosts(l: Ledger, attempts: seq<Attempt>): seq<real> {
    if |attempts| == 0 then []
    else
      var before := RunLedger(l, attempts[..|attempts| - 1]);
      var a := attempts[|attempts| - 1];
      RecordedCosts(l, attempts[..|attempts| - 1]) + (if Recorded(before, a) then [Cost(a)] else [])
  }

  function Sum(s: seq<real>): real {
    if |s| == 0 then 0.0 else Sum(s[..|s| - 1]) + s[|s| - 1]
  }

  /** Sequentially, the total never passes the cap. */
  lemma {:induction false} TotalStaysCapped(l: Ledger, attempts: seq<Attempt>)
    requires l.total <= MaxTotalExposure
    ensures RunLedger(l, attempts).total <= MaxTotalExposure
    decreases |attempts|
  {
    if |attempts| > 0 {
      TotalStaysCapped(l, attempts[..|attempts| - 1]);
    }
  }

  /** The total is the starting total plus the cost of every recorded fill,
      including fills whose entry a later fill of the same asset replaced. */
  lemma {:induction false} TotalIsSumOfRecorded(l: Ledger, attempts: seq<Attempt>)
    ensures RunLedger(l, attempts).total == l.total + Sum(RecordedCosts(l, attempts))
    decreases |attempts|
  {
    if |attempts| > 0 {
      var init := attempts[..|attempts| - 1];
      var a := attempts[|attempts| - 1];
      var before := RunLedger(l, init);
      TotalIsSumOfRecorded(l, init);
      var extra := if Recorded(before, a) then [Cost(a)] else [];
      assert RecordedCosts(l, attempts) == RecordedCosts(l, init) + extra;
      SumAppend(RecordedCosts(l, init), extra);
      assert Sum(extra) == if Recorded(before, a) then Cost(a) else 0.0 by {
        if Recorded(before, a) {
          assert extra[..0] == [];
        }
      }
      assert RunLedger(l, attempts) == Step(before, a);
    }
  }

  lemma {:induction false} SumAppend(a: seq<real>, b: seq<real>)
    ensures Sum(a + b) == Sum(a) + Sum(b)
    decreases |b|
  {
    if |b| > 0 {
      var ab := a + b;
      assert ab[..|ab| - 1] == a + b[..|b| - 1];
      assert ab[|ab| - 1] == b[|b| - 1];
      SumAppend(a, b[..|b| - 1]);
      assert Sum(ab) == Sum(a + b[..|b| - 1]) + b[|b| - 1];
    } else {
      assert a + b == a;
    }
  }

  /** Two threads' attempts as the source can run them: each thread's check
      (sniper.py:712) reads the ledger before either record (sniper.py:735),
      since the lock is held for the check and for the record separately. */
  function Interleaved(l: Ledger, a: Attempt, b: Attempt): (r: Ledger)
    ensures r.total == l.total + (if Recorded(l, a) then Cost(a) else 0.0)
                                + (if Recorded(l, b) then Cost(b) else 0.0)
  {
    var afterA := if Recorded(l, a) then Record(l, a.asset, a.side, a.size, a.price) else l;
    if Recorded(l, b) then Record(afterA, b.asset, b.side, b.size, b.price) else afterA
  }

  /** Two assets' threads that both pass the check before either records
      take the total past the cap, where the same attempts in order do not. */
  lemma InterleavedChecksCanOverrun()
    ensures var l := Ledger(map[], 150.0);
      var a := Attempt("bitcoin", Up, 50, 0.95, true);
      var b := Attempt("ethereum", Up, 50, 0.95, true);
      && Recorded(l, a) && Recorded(l, b)
      && Interleaved(l, a, b).total > MaxTotalExposure
      && RunLedger(l, [a, b]).total <= MaxTotalExposure
  {
    var l := Ledger(map[], 150.0);
    var a := Attempt("bitcoin", Up, 50, 0.95, true);
    var b := Attempt("ethereum", Up, 50, 0.95, true);
    TotalStaysCapped(l, [a, b]);
  }

  /** Two fills on one asset leave one entry, holding the second fill, while
      the total counts both. */
  lemma OverwriteKeepsTotal()
    ensures var l := RunLedger(EmptyLedger, [Attempt("BTC", Up, 50, 0.95, true), Attempt("BTC", Down, 10, 0.9, true)]);
      l.positions.Keys == {"BTC"} && l.positions["BTC"].size == 10 && l.total == 56.5
  {
    var a := [Attempt("BTC", Up, 50, 0.95, true), Attempt("BTC", Down, 10, 0.9, true)];
    assert a[..1] == [a[0]];
    assert [a[0]][..0] == [];
  }
}

=== FILE: fade.dfy ===
/**
  The extreme-fade watcher (fade_extreme.py). When one side of the
  15-minute market trades at 0.93 or more with at least five minutes left,
  it logs a simulated $50 buy of the other side, exits it once that side's
  best bid reaches 110% of the entry, and settles what is left when the
  interval resolves. Nothing is traded; the state is the set of sides
  logged this interval, the open simulated positions and the running
  statistics.
 */
module Fade {
  import opened Wrappers
  import opened Ladder
  import opened Market
  import opened Intervals
  import opened Feed

  const ExtremeThreshold: real := 0.93
  const MinMinutesRemaining: real := 5.0
  const SimulatedSize: real := 50.0
  const ProfitTargetPct: real := 10.0
  const MaxLiveSum: real := 1.15

  /** One simulated fade: the side that looked extreme and its ask, the
      opposite side bought and its ask, and the exit price. */
  datatype FadePosition = FadePosition(extremeSide: Outcome, extremePrice: real, fadeSide: Outcome, buyPrice: real, targetPrice: real)

  datatype Stats = Stats(totalLogged: nat, totalResolved: nat, wins: nat, targetHits: nat, totalPnl: real)

  /** The watcher; a token of "" stands for one the market did not list. */
  datatype Watcher = Watcher(feed: FeedState, upToken: TokenId, downToken: TokenId,
                             logged: set<Outcome>, active: seq<FadePosition>, stats: Stats)

  /** `fade_buy_price * (1 + PROFIT_TARGET_PCT / 100)` (fade_extreme.py:384). */
  function TargetSellPrice(buy: real): (r: real)
    ensures r == buy * 1.1
    ensures buy > 0.0 ==> r > buy
  {
    buy * (1.0 + ProfitTargetPct / 100.0)
  }

  function TokenOf(w: Watcher, side: Outcome): TokenId {
    if side == Up then w.upToken else w.downToken
  }

  /** The best bid of a side, or 0 when it has none (fade_extreme.py:342-350). */
  function BestBid(w: Watcher, side: Outcome): (r: real)
    ensures |BookOf(w.feed.books, TokenOf(w, side)).bids| == 0 ==> r == 0.0
  {
    var bids := BookOf(w.feed.books, TokenOf(w, side)).bids;
    if |bids| > 0 then bids[0].price else 0.0
  }

  predicate HitsTarget(w: Watcher, p: FadePosition) {
    BestBid(w, p.fadeSide) >= p.targetPrice
  }

  /** Positions whose entry price can be divided by. */
  predicate EntriesNonZero(ps: seq<FadePosition>) {
    forall i :: 0 <= i < |ps| ==> ps[i].buyPrice != 0.0
  }

  /** `shares * price - SIMULATED_SIZE` for $50 bought at `buy`. */
  function Pnl(buy: real, exitPrice: real): real
    requires buy != 0.0
  {
    SimulatedSize / buy * exitPrice - SimulatedSize
  }

  /** The positions of ps that have not reached their target, in order. */
  function Survivors(w: Watcher, ps: seq<FadePosition>): (r: seq<FadePosition>)
    ensures |r| <= |ps|
    ensures forall p :: p in r <==> p in ps && !HitsTarget(w, p)
  {
    if |ps| == 0 then []
    else
      var rest := Survivors(w, ps[..|ps| - 1]);
      var p := ps[|ps| - 1];
      assert forall q :: q in ps <==> q in ps[..|ps| - 1] || q == p;
      if HitsTarget(w, p) then rest else rest + [p]
  }

  /** The statistics after exiting, in order, every position of ps at its
      target: one resolution, one win and one target hit per exit, and the
      exit's PnL at the current bid. */
  function SweepStats(w: Watcher, ps: seq<FadePosition>, s: Stats): (r: Stats)
    requires EntriesNonZero(ps)
    ensures r.totalLogged == s.totalLogged
    ensures r.totalResolved == s.totalResolved + (|ps| - |Survivors(w, ps)|)
    ensures r.wins == s.wins + (|ps| - |Survivors(w, ps)|)
    ensures r.targetHits == s.targetHits + (|ps| - |Survivors(w, ps)|)
    ensures (forall i :: 0 <= i < |ps| ==> ps[i].buyPrice > 0.0 && ps[i].targetPrice == TargetSellPrice(ps[i].buyPrice)) ==>
      r.totalPnl >= s.totalPnl + 5.0 * (|ps| - |Survivors(w, ps)|) as real
  {
    if |ps| == 0 then s
    else
      var init := ps[..|ps| - 1];
      var before := SweepStats(w, init, s);
      var p := ps[|ps| - 1];
      if HitsTarget(w, p) then
        TargetExitProfit(p.buyPrice, BestBid(w, p.fadeSide));
        Stats(before.totalLogged, before.totalResolved + 1, before.wins + 1, before.targetHits + 1,
              before.totalPnl + Pnl(p.buyPrice, BestBid(w, p.fadeSide)))
      else before
  }

  /** What exiting p now earns: shares bought for $50 sold at the best bid
      when the bid has reached the target, and nothing otherwise. */
  function ExitGain(w: Watcher, p: FadePosition): real {
    if HitsTarget(w, p) && p.buyPrice != 0.0 then Pnl(p.buyPrice, BestBid(w, p.fadeSide)) else 0.0
  }

  /** The exit gains of ps, summed front to back. */
  function ExitPnlSum(w: Watcher, ps: seq<FadePosition>): real {
    if |ps| == 0 then 0.0 else ExitGain(w, ps[0]) + ExitPnlSum(w, ps[1..])
  }

  /** The front-to-back sum can be split at its last element. */
  lemma {:induction false} ExitPnlSumSnoc(w: Watcher, ps: seq<FadePosition>)
    requires |ps| > 0
    ensures ExitPnlSum(w, ps) == ExitPnlSum(w, ps[..|ps| - 1]) + ExitGain(w, ps[|ps| - 1])
    decreases |ps|
  {
    var init := ps[..|ps| - 1];
    if |ps| == 1 {
      assert ps[1..] == [] && init == [];
    } else {
      ExitPnlSumSnoc(w, ps[1..]);
      assert ps[1..][..|ps| - 2] == init[1..];
      assert ps[1..][|ps| - 2] == ps[|ps| - 1];
      assert init[0] == ps[0];
    }
  }

  /** The sweep adds exactly the exit gains of the positions it closes. */
  lemma {:induction false} SweepPnl(w: Watcher, ps: seq<FadePosition>, s: Stats)
    requires EntriesNonZero(ps)
    ensures SweepStats(w, ps, s).totalPnl == s.totalPnl + ExitPnlSum(w, ps)
    decreases |ps|
  {
    if |ps| > 0 {
      SweepPnl(w, ps[..|ps| - 1], s);
      ExitPnlSumSnoc(w, ps);
    }
  }

  /** An exit at or above the target earns at least 10% of the $50 stake. */
  lemma TargetExitProfit(buy: real, bid: real)
    requires buy != 0.0
    ensures buy > 0.0 && bid >= TargetSellPrice(buy) ==> Pnl(buy, bid) >= 5.0
  {
    if buy > 0.0 && bid >= TargetSellPrice(buy) {
      var shares := SimulatedSize / buy;
      assert shares * buy == SimulatedSize;
      assert shares * bid >= shares * (buy * 1.1) by {
        assert shares > 0.0;
        assert shares * bid - shares * (buy * 1.1) == shares * (bid - buy * 1.1);
      }
      assert shares * (buy * 1.1) == (shares * buy) * 1.1;
    }
  }

  /** `_check_profit_targets` (fade_extreme.py:334-376). */
  function CheckProfitTargets(w: Watcher): (r: Watcher)
    requires EntriesNonZero(w.active)
    ensures r.feed == w.feed && r.logged == w.logged && r.upToken == w.upToken && r.downToken == w.downToken
    ensures forall p :: p in r.active <==> p in w.active && !HitsTarget(w, p)
    ensures r.stats.wins - w.stats.wins == r.stats.targetHits - w.stats.targetHits
         == r.stats.totalResolved - w.stats.totalResolved == |w.active| - |r.active|
    ensures r.stats.totalLogged == w.stats.totalLogged
    ensures r.stats.totalPnl == w.stats.totalPnl + ExitPnlSum(w, w.active)
  {
    SweepPnl(w, w.active, w.stats);
    w.(active := Survivors(w, w.active), stats := SweepStats(w, w.active, w.stats))
  }

  /** Survivors keep their relative order: they form a subsequence of the
      active list. */
  lemma {:induction false} SurvivorsInOrder(w: Watcher, ps: seq<FadePosition>, i: int, j: int)
    requires 0 <= i < j < |Survivors(w, ps)|
    ensures exists a, b :: 0 <= a < b < |ps| && ps[a] == Survivors(w, ps)[i] && ps[b] == Survivors(w, ps)[j]
    decreases |ps|
  {
    var init := ps[..|ps| - 1];
    var rest := Survivors(w, init);
    if j < |rest| {
      SurvivorsInOrder(w, init, i, j);
      var a, b :| 0 <= a < b < |init| && init[a] == rest[i] && init[b] == rest[j];
      assert ps[a] == init[a] && ps[b] == init[b];
    } else {
      assert Survivors(w, ps)[i] == rest[i];
      assert rest[i] in init;
      var a :| 0 <= a < |init| && init[a] == rest[i];
      assert ps[a] == init[a];
      assert ps[|ps| - 1] == Survivors(w, ps)[j];
    }
  }

  /** The position logged when `side` looks extreme: buy the other side at
      its ask (fade_extreme.py:378-421). */
  function Logged(side: Outcome, extremePrice: real, fadePrice: real): (p: FadePosition)
    ensures p.fadeSide == Opposite(side) && p.extremeSide == side
    ensures p.buyPrice == fadePrice && p.extremePrice == extremePrice
    ensures p.targetPrice == fadePrice * 1.1
  {
    FadePosition(side, extremePrice, Opposite(side), fadePrice, TargetSellPrice(fadePrice))
  }

  /** Logs `side` when its ask is extreme and it has not been logged this
      interval; otherwise nothing changes. */
  function MaybeLog(w: Watcher, side: Outcome, price: real, fadePrice: real): (r: Watcher)
    ensures r.feed == w.feed && r.upToken == w.upToken && r.downToken == w.downToken
    ensures price >= ExtremeThreshold && side !in w.logged ==>
      r == w.(logged := w.logged + {side}, active := w.active + [Logged(side, price, fadePrice)],
              stats := w.stats.(totalLogged := w.stats.totalLogged + 1))
    ensures !(price >= ExtremeThreshold && side !in w.logged) ==> r == w
  {
    if price >= ExtremeThreshold && side !in w.logged then
      w.(logged := w.logged + {side}, active := w.active + [Logged(side, price, fadePrice)],
         stats := w.stats.(totalLogged := w.stats.totalLogged + 1))
    else w
  }

  /** Tokens known, both ask ladders non-empty, warmed up, and a live sum:
      the conditions under which `_check_extreme` acts at all. */
  predicate Live(w: Watcher) {
    && w.upToken != "" && w.downToken != ""
    && |BookOf(w.feed.books, w.upToken).asks| > 0 && |BookOf(w.feed.books, w.downToken).asks| > 0
    && w.feed.warmedUp
    && BookOf(w.feed.books, w.upToken).asks[0].price + BookOf(w.feed.books, w.downToken).asks[0].price <= MaxLiveSum
  }

  function AskOf(w: Watcher, side: Outcome): real
    requires Live(w)
  {
    BookOf(w.feed.books, TokenOf(w, side)).asks[0].price
  }

  /** `_check_extreme` (fade_extreme.py:282-332) at clock reading `now`. */
  function CheckExtreme(w: Watcher, now: int): (r: Watcher)
    requires EntriesNonZero(w.active)
    ensures !Live(w) ==> r == w
    ensures Live(w) && MinutesRemaining(now) < MinMinutesRemaining ==> r == CheckProfitTargets(w)
    ensures r.feed == w.feed && r.upToken == w.upToken && r.downToken == w.downToken
    ensures w.logged <= r.logged
    ensures r.stats.totalLogged - w.stats.totalLogged == |r.logged| - |w.logged|
    ensures r.stats.totalLogged > w.stats.totalLogged ==> Live(w) && MinutesRemaining(now) >= MinMinutesRemaining
    ensures Live(w) ==> (|r.active| >= |CheckProfitTargets(w).active|
      && r.active[..|CheckProfitTargets(w).active|] == CheckProfitTargets(w).active)
    ensures Live(w) ==> forall i | |CheckProfitTargets(w).active| <= i < |r.active| ::
      && r.active[i].extremeSide !in w.logged
      && r.active[i].extremeSide in r.logged
      && r.active[i].extremePrice == AskOf(w, r.active[i].extremeSide) >= ExtremeThreshold
      && r.active[i] == Logged(r.active[i].extremeSide, AskOf(w, r.active[i].extremeSide), AskOf(w, Opposite(r.active[i].extremeSide)))
  {
    if !Live(w) then w
    else
      var up := AskOf(w, Up);
      var down := AskOf(w, Down);
      var swept := CheckProfitTargets(w);
      if MinutesRemaining(now) < MinMinutesRemaining then swept
      else
        var w1 := MaybeLog(swept, Up, up, down);
        var w2 := MaybeLog(w1, Down, down, up);
        assert w1.active[..|swept.active|] == swept.active;
        assert w2.active[..|w1.active|] == w1.active;
        w2
  }

  /** The other half of the check: with the feed live and at least five
      minutes left, a side whose ask is extreme and that was not logged yet
      is logged, with the fade of the other side at its ask. */
  lemma ExtremeSideIsLogged(w: Watcher, now: int, side: Outcome)
    requires EntriesNonZero(w.active)
    requires Live(w) && MinutesRemaining(now) >= MinMinutesRemaining
    requires AskOf(w, side) >= ExtremeThreshold && side !in w.logged
    ensures side in CheckExtreme(w, now).logged
    ensures Logged(side, AskOf(w, side), AskOf(w, Opposite(side))) in CheckExtreme(w, now).active
  {
  }

  /** Both sides cannot be extreme in one live check: two asks of 0.93 or
      more sum past the 1.15 staleness bound, so a check logs at most one
      side. */
  lemma OneSidePerCheck(w: Watcher, now: int)
    requires EntriesNonZero(w.active)
    ensures CheckExtreme(w, now).stats.totalLogged <= w.stats.totalLogged + 1
  {
    var r := CheckExtreme(w, now);
    if Live(w) && MinutesRemaining(now) >= MinMinutesRemaining {
      var swept := CheckProfitTargets(w);
      assert !(AskOf(w, Up) >= ExtremeThreshold && AskOf(w, Down) >= ExtremeThreshold);
    }
  }

  /** `resolve_pending(winner)` (fade_extreme.py:423-457): every open fade is
      settled at 1 if its side won and at 0 otherwise. */
  function ResolvePending(w: Watcher, winner: Outcome): (r: Watcher)
    requires EntriesNonZero(w.active)
    ensures r.active == []
    ensures r.stats.totalResolved == w.stats.totalResolved + |w.active|
    ensures r.stats.wins == w.stats.wins + Winners(w.active, winner)
    ensures r.stats.totalLogged == w.stats.totalLogged && r.stats.targetHits == w.stats.targetHits
    ensures r.stats.totalPnl == w.stats.totalPnl + SimulatedSize * InverseSum(w.active, winner) - SimulatedSize * |w.active| as real
    ensures r.logged == w.logged && r.feed == w.feed
  {
    SettleTotalPnl(w.active, winner, w.stats);
    w.(active := [], stats := Settle(w.active, winner, w.stats))
  }

  /** The number of positions that faded into the winning side. */
  function Winners(ps: seq<FadePosition>, winner: Outcome): (n: nat)
    ensures n <= |ps|
  {
    if |ps| == 0 then 0
    else Winners(ps[..|ps| - 1], winner) + (if ps[|ps| - 1].fadeSide == winner then 1 else 0)
  }

  /** Settlement PnL: a winner earns 50/entry - 50, a loser loses the $50. */
  function SettlePnl(p: FadePosition, winner: Outcome): (pnl: real)
    requires p.buyPrice != 0.0
    ensures p.fadeSide != winner ==> pnl == -SimulatedSize
    ensures p.fadeSide == winner ==> pnl == SimulatedSize / p.buyPrice - SimulatedSize
    ensures p.fadeSide == winner && 0.0 < p.buyPrice < 1.0 ==> pnl > 0.0
  {
    if p.fadeSide == winner then
      WinnerGains(p.buyPrice);
      Pnl(p.buyPrice, 1.0)
    else -SimulatedSize
  }

  lemma WinnerGains(buy: real)
    requires buy != 0.0
    ensures 0.0 < buy < 1.0 ==> Pnl(buy, 1.0) > 0.0
  {
    if 0.0 < buy < 1.0 {
      var shares := SimulatedSize / buy;
      assert shares * buy == SimulatedSize;
      assert shares > SimulatedSize by {
        assert shares * buy < shares;
      }
    }
  }

  function Settle(ps: seq<FadePosition>, winner: Outcome, s: Stats): (r: Stats)
    requires EntriesNonZero(ps)
    ensures r.totalResolved == s.totalResolved + |ps|
    ensures r.wins == s.wins + Winners(ps, winner)
    ensures r.totalLogged == s.totalLogged && r.targetHits == s.targetHits
    ensures Winners(ps, winner) == 0 ==> r.totalPnl == s.totalPnl - SimulatedSize * |ps| as real
  {
    if |ps| == 0 then s
    else
      var before := Settle(ps[..|ps| - 1], winner, s);
      var p := ps[|ps| - 1];
      Stats(before.totalLogged, before.totalResolved + 1,
            before.wins + (if p.fadeSide == winner then 1 else 0),
            before.targetHits, before.totalPnl + SettlePnl(p, winner))
  }

  /** 1/entry (the shares $1 buys) for a position that faded into the
      winner, and 0 for any other. */
  function WinnerShare(p: FadePosition, winner: Outcome): real {
    if p.fadeSide == winner && p.buyPrice != 0.0 then 1.0 / p.buyPrice else 0.0
  }

  /** The winner shares of ps, summed front to back. */
  function InverseSum(ps: seq<FadePosition>, winner: Outcome): real {
    if |ps| == 0 then 0.0 else WinnerShare(ps[0], winner) + InverseSum(ps[1..], winner)
  }

  /** The front-to-back sum can be split at its last element. */
  lemma {:induction false} InverseSumSnoc(ps: seq<FadePosition>, winner: Outcome)
    requires |ps| > 0
    ensures InverseSum(ps, winner) == InverseSum(ps[..|ps| - 1], winner) + WinnerShare(ps[|ps| - 1], winner)
    decreases |ps|
  {
    var init := ps[..|ps| - 1];
    if |ps| == 1 {
      assert ps[1..] == [] && init == [];
    } else {
      InverseSumSnoc(ps[1..], winner);
      assert ps[1..][..|ps| - 2] == init[1..];
      assert ps[1..][|ps| - 2] == ps[|ps| - 1];
      assert init[0] == ps[0];
    }
  }

  /** Settling adds $50 per share-of-a-dollar bought on the winning side
      and loses the $50 stake of every position. */
  lemma {:induction false} SettleTotalPnl(ps: seq<FadePosition>, winner: Outcome, s: Stats)
    requires EntriesNonZero(ps)
    ensures Settle(ps, winner, s).totalPnl == s.totalPnl + SimulatedSize * InverseSum(ps, winner) - SimulatedSize * |ps| as real
    decreases |ps|
  {
    if |ps| > 0 {
      var init := ps[..|ps| - 1];
      var p := ps[|ps| - 1];
      SettleTotalPnl(init, winner, s);
      InverseSumSnoc(ps, winner);
      var before := Settle(init, winner, s);
      assert Settle(ps, winner, s).totalPnl == before.totalPnl + SettlePnl(p, winner);
      var a := InverseSum(init, winner);
      var n := |init| as real;
      assert before.totalPnl == s.totalPnl + SimulatedSize * a - SimulatedSize * n;
      if p.fadeSide == winner {
        assert SettlePnl(p, winner) == SimulatedSize * (1.0 / p.buyPrice) - SimulatedSize;
      } else {
        assert SettlePnl(p, winner) == -SimulatedSize;
      }
    }
  }

  /** `reset_for_new_interval` (fade_extreme.py:459-476): new tokens from the
      market's lists, and empty books, dedupe set and positions, cold feed.
      The statistics carry over. */
  function Reset(w: Watcher, tokenIds: seq<TokenId>, outcomes: seq<string>): (r: Watcher)
    ensures r.feed.books == map[] && !r.feed.warmedUp
    ensures r.logged == {} && r.active == []
    ensures r.stats == w.stats
    ensures |tokenIds| == 2 ==> {r.upToken, r.downToken} == {tokenIds[0], tokenIds[1]}
    ensures r.upToken == (if |tokenIds| > PositiveIndex(outcomes) then tokenIds[PositiveIndex(outcomes)] else "")
    ensures r.downToken == (if |tokenIds| > NegativeIndex(outcomes) then tokenIds[NegativeIndex(outcomes)] else "")
  {
    IndicesPartition(outcomes);
    var upIdx := PositiveIndex(outcomes);
    var downIdx := NegativeIndex(outcomes);
    Watcher(FeedState(map[], false),
            if |tokenIds| > upIdx then tokenIds[upIdx] else "",
            if |tokenIds| > downIdx then tokenIds[downIdx] else "",
            {}, [], w.stats)
  }

  /** `FadeExtremeMonitor(market, slug)` (fade_extreme.py:149-186): the
      tokens chosen as by the reset, empty books, nothing logged and every
      counter at zero. `monitor_btc` builds a new monitor for every interval
      (fade_extreme.py:630), so the statistics start over each interval. */
  function NewMonitor(tokenIds: seq<TokenId>, outcomes: seq<string>): (r: Watcher)
    ensures r.stats == Stats(0, 0, 0, 0, 0.0)
    ensures r.logged == {} && r.active == [] && r.feed == FeedState(map[], false)
    ensures r.upToken == (if |tokenIds| > PositiveIndex(outcomes) then tokenIds[PositiveIndex(outcomes)] else "")
    ensures r.downToken == (if |tokenIds| > NegativeIndex(outcomes) then tokenIds[NegativeIndex(outcomes)] else "")
  {
    Watcher(FeedState(map[], false),
            if |tokenIds| > PositiveIndex(outcomes) then tokenIds[PositiveIndex(outcomes)] else "",
            if |tokenIds| > NegativeIndex(outcomes) then tokenIds[NegativeIndex(outcomes)] else "",
            {}, [], Stats(0, 0, 0, 0, 0.0))
  }

  /** A fresh monitor is a reset watcher whose counters are zero, so one
      monitor logs at most two fades over its whole life. */
  lemma MonitorLogsAtMostTwo(w: Watcher, tokenIds: seq<TokenId>, outcomes: seq<string>, times: seq<int>)
    requires w.stats == Stats(0, 0, 0, 0, 0.0)
    ensures NewMonitor(tokenIds, outcomes) == Reset(w, tokenIds, outcomes)
    ensures NonZeroAsks(NewMonitor(tokenIds, outcomes).feed)
    ensures RunChecks(NewMonitor(tokenIds, outcomes), times).stats.totalLogged <= 2
  {
    AtMostTwoPerInterval(w, tokenIds, outcomes, times);
  }

  /** Checks run in order within one interval. */
  function RunChecks(w: Watcher, times: seq<int>): (r: Watcher)
    requires EntriesNonZero(w.active)
    requires NonZeroAsks(w.feed)
    ensures EntriesNonZero(r.active)
    ensures r.stats.totalLogged - w.stats.totalLogged == |r.logged| - |w.logged|
    ensures w.logged <= r.logged && r.feed == w.feed && r.upToken == w.upToken && r.downToken == w.downToken
  {
    if |times| == 0 then w
    else
      var before := RunChecks(w, times[..|times| - 1]);
      CheckKeepsEntriesNonZero(before, times[|times| - 1]);
      CheckExtreme(before, times[|times| - 1])
  }

  /** Asks of both sides are non-zero, so an entry price is never zero. */
  predicate NonZeroAsks(f: FeedState) {
    forall t | t in f.books :: forall i :: 0 <= i < |f.books[t].asks| ==> f.books[t].asks[i].price != 0.0
  }

  lemma CheckKeepsEntriesNonZero(w: Watcher, now: int)
    requires EntriesNonZero(w.active) && NonZeroAsks(w.feed)
    ensures EntriesNonZero(CheckExtreme(w, now).active)
  {
    var r := CheckExtreme(w, now);
    if Live(w) {
      var swept := CheckProfitTargets(w);
      forall i | 0 <= i < |r.active|
        ensures r.active[i].buyPrice != 0.0
      {
        if i < |swept.active| {
          assert r.active[i] == swept.active[i];
          assert swept.active[i] in w.active;
        } else {
          var side := Opposite(r.active[i].extremeSide);
          assert r.active[i].buyPrice == AskOf(w, side);
          assert TokenOf(w, side) in w.feed.books;
        }
      }
    }
  }

  /** Each side is logged at most once per interval: after a reset, any
      number of checks logs at most two positions. */
  lemma AtMostTwoPerInterval(w: Watcher, tokenIds: seq<TokenId>, outcomes: seq<string>, times: seq<int>)
    ensures NonZeroAsks(Reset(w, tokenIds, outcomes).feed)
    ensures RunChecks(Reset(w, tokenIds, outcomes), times).stats.totalLogged <= w.stats.totalLogged + 2
  {
    var r := RunChecks(Reset(w, tokenIds, outcomes), times);
    assert r.logged <= {Up, Down} by {
      forall o | o in r.logged ensures o in {Up, Down} {
        match o
        case Up =>
        case Down =>
      }
    }
    SubsetCard(r.logged, {Up, Down});
  }

  lemma SubsetCard(a: set<Outcome>, b: set<Outcome>)
    requires a <= b
    ensures |a| <= |b|
  {
    assert b == a + (b - a);
  }

  /** `determine_resolution` (fade_extreme.py:526-565) given the outcome
      labels and final outcome prices the market reports; a price that is
      missing or empty reads as 0. */
  function DetermineResolution(outcomes: seq<string>, prices: seq<Option<real>>): (r: Option<Outcome>)
    ensures r == Some(Up) <==> |prices| >= 2 && prices[PositiveIndex(outcomes)].GetOr(0.0) > 0.9
    ensures r == Some(Down) <==>
      |prices| >= 2 && !(prices[PositiveIndex(outcomes)].GetOr(0.0) > 0.9) && prices[NegativeIndex(outcomes)].GetOr(0.0) > 0.9
  {
    if |prices| < 2 then None
    else
      IndicesPartition(outcomes);
      var up := prices[PositiveIndex(outcomes)].GetOr(0.0);
      var down := prices[NegativeIndex(outcomes)].GetOr(0.0);
      if up > 0.9 then Some(Up) else if down > 0.9 then Some(Down) else None
  }

  /** When both prices read above 0.9, UP is reported. */
  lemma UpTakesPrecedence(prices: seq<Option<real>>)
    requires |prices| >= 2 && prices[0].GetOr(0.0) > 0.9 && prices[1].GetOr(0.0) > 0.9
    ensures DetermineResolution(["Up", "Down"], prices) == Some(Up)
    ensures DetermineResolution(["Down", "Up"], prices) == Some(Up)
  {
    PositiveLabelExamples();
  }

  /** The watcher's checks, one per check point the feed reports, each seeing
      the books as they stood at that point. */
  function ApplyChecks(w: Watcher, states: seq<FeedState>, now: int): (r: Watcher)
    requires EntriesNonZero(w.active)
    requires forall k :: 0 <= k < |states| ==> NonZeroAsks(states[k])
    ensures EntriesNonZero(r.active)
    ensures w.logged <= r.logged && r.stats.totalLogged - w.stats.totalLogged == |r.logged| - |w.logged|
    ensures r.upToken == w.upToken && r.downToken == w.downToken
    ensures (forall k :: 0 <= k < |states| ==> !states[k].warmedUp) ==>
      r.active == w.active && r.stats == w.stats && r.logged == w.logged
  {
    if |states| == 0 then w
    else
      var before := ApplyChecks(w, states[..|states| - 1], now);
      var at := before.(feed := states[|states| - 1]);
      CheckKeepsEntriesNonZero(at, now);
      CheckExtreme(at, now)
  }

  /** `_process_message` (fade_extreme.py:226-266) at clock reading `now`:
      the feed update with `_check_extreme` run at each of its check points. */
  function OnMessage(w: Watcher, msg: Message, now: int): (r: Watcher)
    requires EntriesNonZero(w.active)
    requires forall k :: 0 <= k < |Process(w.feed, msg).checks| ==> NonZeroAsks(Process(w.feed, msg).checks[k])
    ensures r.feed == Process(w.feed, msg).final
    ensures EntriesNonZero(r.active)
    ensures w.logged <= r.logged && r.stats.totalLogged - w.stats.totalLogged == |r.logged| - |w.logged|
  {
    var p := Process(w.feed, msg);
    ApplyChecks(w, p.checks, now).(feed := p.final)
  }

  /** A message with no check point (an empty dict, a list of other events,
      any other value) only updates the feed. */
  lemma NoCheckPointOnlyFeed(w: Watcher, msg: Message, now: int)
    requires EntriesNonZero(w.active)
    requires |Process(w.feed, msg).checks| == 0
    ensures OnMessage(w, msg, now) == w.(feed := Process(w.feed, msg).final)
  {
  }

  /** With one check point, the message runs `_check_extreme` once on the
      books as they stood there, and leaves the feed in its final state. */
  lemma OneCheckPointRunsCheck(w: Watcher, msg: Message, now: int)
    requires EntriesNonZero(w.active)
    requires |Process(w.feed, msg).checks| == 1 && NonZeroAsks(Process(w.feed, msg).checks[0])
    ensures OnMessage(w, msg, now)
      == CheckExtreme(w.(feed := Process(w.feed, msg).checks[0]), now).(feed := Process(w.feed, msg).final)
  {
    var cs := Process(w.feed, msg).checks;
    assert cs[..0] == [];
  }

  /** A non-empty dict of price changes applies them all, warms the feed and
      then runs `_check_extreme` once on the updated books
      (fade_extreme.py:227-241). */
  lemma {:induction false} DictMessageChecksOnce(w: Watcher, cs: seq<FlatChange>, now: int)
    requires EntriesNonZero(w.active) && |cs| > 0
    requires NonZeroAsks(Process(w.feed, PriceChanges(cs)).final)
    ensures Process(w.feed, PriceChanges(cs)).final == FeedState(ApplyFlatChanges(w.feed.books, cs), true)
    ensures OnMessage(w, PriceChanges(cs), now) == CheckExtreme(w.(feed := Process(w.feed, PriceChanges(cs)).final), now)
  {
    var next := FeedState(ApplyFlatChanges(w.feed.books, cs), true);
    assert [next][..0] == [];
  }

  /** On a cold feed, a message of book snapshots changes the books only:
      nothing is logged, exited or counted, and the feed stays cold. */
  lemma ColdSnapshotsLogNothing(w: Watcher, es: seq<Event>, now: int)
    requires EntriesNonZero(w.active) && !w.feed.warmedUp
    requires forall i :: 0 <= i < |es| ==> !IsDelta(es[i])
    requires forall k :: 0 <= k < |Process(w.feed, EventList(es)).checks| ==>
      NonZeroAsks(Process(w.feed, EventList(es)).checks[k])
    ensures var r := OnMessage(w, EventList(es), now);
      r.active == w.active && r.stats == w.stats && r.logged == w.logged && !r.feed.warmedUp
  {
    SnapshotsDoNotWarm(w.feed, es);
  }
}

=== FILE: feed.dfy ===
/**
  The market-data feed as the sniper and the fade watcher consume it
  (sniper.py:336-389, fade_extreme.py:226-266; the two are the same rule
  under different names). A message is either a dict of flat price
  changes or a list of events; each event is a book snapshot or a batch of
  changes for one instrument. The books change by the ladder rules, and
  `warmedUp` records that at least one delta has arrived since the socket
  was opened: the strategies do not trade on snapshots alone.
 */
module Feed {
  import opened Wrappers
  import opened Ladder

  /** One change inside a `price_change` event: the book side as sent
      ("BUY" or otherwise), the price if present, and the new size. */
  datatype LevelChange = LevelChange(side: string, price: Option<real>, size: real)

  /** One entry of a dict message's `price_changes`, carrying its own
      instrument id ("" when absent). */
  datatype FlatChange = FlatChange(assetId: string, change: LevelChange)

  /** One entry of a list message. */
  datatype Event = Event(eventType: string, assetId: string, bids: seq<Level>, asks: seq<Level>, changes: seq<LevelChange>)

  /** A decoded message: a dict (a missing `price_changes` key reads as an
      empty list), a list of events, or any other JSON value. */
  datatype Message = PriceChanges(changes: seq<FlatChange>) | EventList(events: seq<Event>) | OtherValue

  datatype FeedState = FeedState(books: Books, warmedUp: bool)

  /** The state after a message, and the state at each moment the strategy
      check ran while the message was handled, in order. */
  datatype Processed = Processed(final: FeedState, checks: seq<FeedState>)

  /** "BUY" updates the bids; any other side string updates the asks. */
  function SideOf(side: string): (r: Side)
    ensures r == Bids <==> side == "BUY"
  {
    if side == "BUY" then Bids else Asks
  }

  /** `side and price is not None`: a change with an empty side or no price
      is skipped. */
  predicate Applicable(c: LevelChange) {
    c.side != "" && c.price.Some?
  }

  function ApplyChange(books: Books, asset: TokenId, c: LevelChange): (r: Books)
    ensures !Applicable(c) ==> r == books
    ensures Applicable(c) ==> r == ApplyDelta(books, asset, SideOf(c.side), c.price.value, c.size)
  {
    if Applicable(c) then ApplyDelta(books, asset, SideOf(c.side), c.price.value, c.size) else books
  }

  /** The changes of a dict message, applied in order; a change with no
      instrument id is skipped. */
  function ApplyFlatChanges(books: Books, cs: seq<FlatChange>): (r: Books)
    ensures books.Keys <= r.Keys
    ensures forall t | t in books && (forall i | 0 <= i < |cs| :: cs[i].assetId != t) :: r[t] == books[t]
  {
    if |cs| == 0 then books
    else
      var before := ApplyFlatChanges(books, cs[..|cs| - 1]);
      var c := cs[|cs| - 1];
      if c.assetId != "" then ApplyChange(before, c.assetId, c.change) else before
  }

  /** The changes of one `price_change` event, applied in order to its
      instrument. */
  function ApplyEventChanges(books: Books, asset: TokenId, cs: seq<LevelChange>): (r: Books)
    ensures books.Keys <= r.Keys <= books.Keys + {asset}
    ensures forall t | t in books && t != asset :: r[t] == books[t]
  {
    if |cs| == 0 then books
    else ApplyChange(ApplyEventChanges(books, asset, cs[..|cs| - 1]), asset, cs[|cs| - 1])
  }

  predicate IsSnapshot(e: Event) {
    e.eventType == "book" && e.assetId != ""
  }

  predicate IsDelta(e: Event) {
    e.eventType == "price_change" && e.assetId != ""
  }

  /** Handles one list event; the flag says whether the strategy check ran. */
  function ProcessEvent(st: FeedState, e: Event): (FeedState, bool) {
    if IsSnapshot(e) then
      (FeedState(ApplySnapshot(st.books, e.assetId, e.bids, e.asks), st.warmedUp), true)
    else if IsDelta(e) then
      var books := if e.assetId in st.books then st.books else st.books[e.assetId := EmptyBook];
      (FeedState(ApplyEventChanges(books, e.assetId, e.changes), true), true)
    else
      (st, false)
  }

  /** Handles the events of a list message in order. Warm-up is reached
      exactly when some event carries deltas; one check runs per snapshot or
      delta event, and no check sees a warm state unless the state was warm
      already or a delta event had arrived. */
  function ProcessEvents(st: FeedState, es: seq<Event>): (r: Processed)
    ensures r.final.warmedUp <==> st.warmedUp || exists i :: 0 <= i < |es| && IsDelta(es[i])
    ensures |r.checks| == CheckedCount(es)
    ensures forall k :: 0 <= k < |r.checks| && r.checks[k].warmedUp ==>
      st.warmedUp || exists i :: 0 <= i < |es| && IsDelta(es[i])
  {
    if |es| == 0 then Processed(st, [])
    else
      var p := ProcessEvents(st, es[..|es| - 1]);
      var e := es[|es| - 1];
      assert forall i :: 0 <= i < |es| - 1 ==> es[..|es| - 1][i] == es[i];
      var (next, checked) := ProcessEvent(p.final, e);
      Processed(next, if checked then p.checks + [next] else p.checks)
  }

  /** The number of events that make the strategy check run. */
  function CheckedCount(es: seq<Event>): nat {
    if |es| == 0 then 0
    else CheckedCount(es[..|es| - 1]) + (if IsSnapshot(es[|es| - 1]) || IsDelta(es[|es| - 1]) then 1 else 0)
  }

  /** A message warms the feed up when it is a dict with at least one
      price change, or a list with at least one delta event. */
  predicate WarmsUp(msg: Message) {
    match msg
    case PriceChanges(cs) => |cs| > 0
    case EventList(es) => exists i :: 0 <= i < |es| && IsDelta(es[i])
    case OtherValue => false
  }

  /** `process_message` (sniper.py:336-389, fade_extreme.py:226-266). */
  function Process(st: FeedState, msg: Message): (r: Processed)
    ensures r.final.warmedUp <==> st.warmedUp || WarmsUp(msg)
    ensures forall k :: 0 <= k < |r.checks| && r.checks[k].warmedUp ==> st.warmedUp || WarmsUp(msg)
    ensures msg.OtherValue? ==> r == Processed(st, [])
  {
    match msg
    case PriceChanges(cs) =>
      var books := ApplyFlatChanges(st.books, cs);
      if |cs| > 0 then
        var next := FeedState(books, true);
        Processed(next, [next])
      else
        Processed(FeedState(books, st.warmedUp), [])
    case EventList(es) => ProcessEvents(st, es)
    case OtherValue => Processed(st, [])
  }

  /** `on_open` (sniper.py:554-555): a new connection is cold again; the
      books are kept. */
  function OnOpen(st: FeedState): (r: FeedState)
    ensures !r.warmedUp && r.books == st.books
  {
    FeedState(st.books, false)
  }

  /** A message of snapshots alone never warms the feed: every check it
      runs, and the state it leaves, have the warm-up flag it found. */
  lemma SnapshotsDoNotWarm(st: FeedState, es: seq<Event>)
    requires forall i :: 0 <= i < |es| ==> !IsDelta(es[i])
    ensures ProcessEvents(st, es).final.warmedUp == st.warmedUp
    ensures forall k :: 0 <= k < |ProcessEvents(st, es).checks| ==> ProcessEvents(st, es).checks[k].warmedUp == st.warmedUp
  {
    var r := ProcessEvents(st, es);
    forall k | 0 <= k < |r.checks|
      ensures r.checks[k].warmedUp == st.warmedUp
    {
      if st.warmedUp {
        ChecksAfterWarm(st, es, k);
      }
    }
  }

  /** Once warm, every later check is warm. */
  lemma {:induction false} ChecksAfterWarm(st: FeedState, es: seq<Event>, k: int)
    requires st.warmedUp
    requires 0 <= k < |ProcessEvents(st, es).checks|
    ensures ProcessEvents(st, es).checks[k].warmedUp
    decreases |es|
  {
    var p := ProcessEvents(st, es[..|es| - 1]);
    if k < |p.checks| {
      ChecksAfterWarm(st, es[..|es| - 1], k);
    } else {
      StaysWarm(st, es[..|es| - 1]);
    }
  }

  lemma StaysWarm(st: FeedState, es: seq<Event>)
    requires st.warmedUp
    ensures ProcessEvents(st, es).final.warmedUp
  {
  }

  /** After a reconnect, the feed is warm exactly when a message since the
      reconnect warmed it up. */
  lemma WarmOnlyAfterDelta(st: FeedState, msgs: seq<Message>)
    ensures Run(OnOpen(st), msgs).warmedUp <==> exists i :: 0 <= i < |msgs| && WarmsUp(msgs[i])
  {
    RunWarmUp(OnOpen(st), msgs);
  }

  /** A sequence of messages handled in order. */
  function Run(st: FeedState, msgs: seq<Message>): FeedState {
    if |msgs| == 0 then st else Process(Run(st, msgs[..|msgs| - 1]), msgs[|msgs| - 1]).final
  }

  lemma {:induction false} RunWarmUp(st: FeedState, msgs: seq<Message>)
    ensures Run(st, msgs).warmedUp <==> st.warmedUp || exists i :: 0 <= i < |msgs| && WarmsUp(msgs[i])
    decreases |msgs|
  {
    if |msgs| > 0 {
      var init := msgs[..|msgs| - 1];
      RunWarmUp(st, init);
      assert forall i :: 0 <= i < |init| ==> init[i] == msgs[i];
      if Run(st, msgs).warmedUp && !st.warmedUp && !WarmsUp(msgs[|msgs| - 1]) {
        var i :| 0 <= i < |init| && WarmsUp(init[i]);
        assert WarmsUp(msgs[i]);
      }
    }
  }

  /** Every book of every instrument is a well-formed ladder. */
  predicate BooksWellFormed(books: Books) {
    forall t | t in books :: WellFormed(Bids, books[t].bids) && WellFormed(Asks, books[t].asks)
  }

  lemma ApplyDeltaWellFormed(books: Books, asset: TokenId, side: Side, price: real, size: real)
    requires BooksWellFormed(books)
    ensures BooksWellFormed(ApplyDelta(books, asset, side, price, size))
  {
    var book := BookOf(books, asset);
    DeltaPreservesWellFormed(side, LadderOf(book, side), price, size);
  }

  lemma {:induction false} FlatChangesWellFormed(books: Books, cs: seq<FlatChange>)
    requires BooksWellFormed(books)
    ensures BooksWellFormed(ApplyFlatChanges(books, cs))
    decreases |cs|
  {
    if |cs| > 0 {
      FlatChangesWellFormed(books, cs[..|cs| - 1]);
      var before := ApplyFlatChanges(books, cs[..|cs| - 1]);
      var c := cs[|cs| - 1];
      if c.assetId != "" && Applicable(c.change) {
        ApplyDeltaWellFormed(before, c.assetId, SideOf(c.change.side), c.change.price.value, c.change.size);
      }
    }
  }

  lemma {:induction false} EventChangesWellFormed(books: Books, asset: TokenId, cs: seq<LevelChange>)
    requires BooksWellFormed(books)
    ensures BooksWellFormed(ApplyEventChanges(books, asset, cs))
    decreases |cs|
  {
    if |cs| > 0 {
      EventChangesWellFormed(books, asset, cs[..|cs| - 1]);
      var before := ApplyEventChanges(books, asset, cs[..|cs| - 1]);
      var c := cs[|cs| - 1];
      if Applicable(c) {
        ApplyDeltaWellFormed(before, asset, SideOf(c.side), c.price.value, c.size);
      }
    }
  }

  /** Snapshots whose ladders are well formed. */
  predicate SnapshotsWellFormed(msg: Message) {
    msg.EventList? ==>
      forall i :: 0 <= i < |msg.events| && IsSnapshot(msg.events[i]) ==>
        WellFormed(Bids, msg.events[i].bids) && WellFormed(Asks, msg.events[i].asks)
  }

  /** Deltas keep every ladder well formed; only a snapshot that is itself
      out of order can break that, because snapshots are stored unsorted. */
  lemma ProcessKeepsWellFormed(st: FeedState, msg: Message)
    requires BooksWellFormed(st.books)
    requires SnapshotsWellFormed(msg)
    ensures BooksWellFormed(Process(st, msg).final.books)
  {
    match msg
    case PriceChanges(cs) => FlatChangesWellFormed(st.books, cs);
    case EventList(es) => EventsWellFormed(st, es);
    case OtherValue =>
  }

  lemma {:induction false} EventsWellFormed(st: FeedState, es: seq<Event>)
    requires BooksWellFormed(st.books)
    requires forall i :: 0 <= i < |es| && IsSnapshot(es[i]) ==> WellFormed(Bids, es[i].bids) && WellFormed(Asks, es[i].asks)
    ensures BooksWellFormed(ProcessEvents(st, es).final.books)
    decreases |es|
  {
    if |es| > 0 {
      var init := es[..|es| - 1];
      assert forall i :: 0 <= i < |init| ==> init[i] == es[i];
      EventsWellFormed(st, init);
      var p := ProcessEvents(st, init);
      var e := es[|es| - 1];
      if !IsSnapshot(e) && IsDelta(e) {
        var books := if e.assetId in p.final.books then p.final.books else p.final.books[e.assetId := EmptyBook];
        EventChangesWellFormed(books, e.assetId, e.changes);
      }
    }
  }

  /** A dict message applies its changes by the ladder rule: a single
      applicable change is exactly one delta, and a change without an
      instrument id does nothing. */
  lemma SingleChange(st: FeedState, c: FlatChange)
    ensures c.assetId != "" && Applicable(c.change) ==>
      Process(st, PriceChanges([c])).final.books
        == ApplyDelta(st.books, c.assetId, SideOf(c.change.side), c.change.price.value, c.change.size)
    ensures c.assetId == "" || !Applicable(c.change) ==> Process(st, PriceChanges([c])).final.books == st.books
    ensures Process(st, PriceChanges([c])).final.warmedUp
  {
    assert [c][..0] == [];
    assert ApplyFlatChanges(st.books, [c])
      == if c.assetId != "" then ApplyChange(st.books, c.assetId, c.change) else st.books;
  }

  /** A single snapshot event replaces that instrument's book verbatim and
      leaves the warm-up flag alone. */
  lemma SingleSnapshot(st: FeedState, e: Event)
    requires IsSnapshot(e)
    ensures Process(st, EventList([e])).final == FeedState(ApplySnapshot(st.books, e.assetId, e.bids, e.asks), st.warmedUp)
  {
    assert [e][..0] == [];
    assert ProcessEvents(st, []) == Processed(st, []);
    assert ProcessEvents(st, [e]).final == ProcessEvent(st, e).0;
  }
}

=== FILE: intervals.dfy ===
/**
  Interval arithmetic on integer Unix seconds.

  Markets run for fixed intervals of m minutes. The processes compute the
  current interval from the Eastern-time clock by flooring the minute of
  the hour to a multiple of m and zeroing the seconds. With a whole-hour
  offset from UTC, the minute and second of the hour are the same in local
  time and in Unix time, so the rule is stated on Unix seconds.
 */
module Intervals {

  const SecondsPerMinute: int := 60
  const SecondsPerHour: int := 3600

  /** Minute of the hour and second of the minute of a Unix time. */
  function MinuteOf(t: int): int {
    (t % SecondsPerHour) / SecondsPerMinute
  }

  function SecondOf(t: int): int {
    t % SecondsPerMinute
  }

  /** A time the interval clock can start at: second 0 of a minute that is a
      multiple of m within its hour. */
  predicate IsBoundary(t: int, minutes: int)
    requires minutes >= 1
  {
    SecondOf(t) == 0 && MinuteOf(t) % minutes == 0
  }

  /** `replace(minute=(minute // m) * m, second=0, microsecond=0)`
      (recorder.py:42-47, sniper.py:203-208). */
  function IntervalStart(now: int, minutes: int): (start: int)
    requires minutes >= 1
    ensures start <= now < start + minutes * SecondsPerMinute
    ensures IsBoundary(start, minutes)
  {
    var hourStart := now - now % SecondsPerHour;
    var minute := MinuteOf(now);
    var floored := minute / minutes * minutes;
    StartFacts(now, minutes, hourStart, minute, floored);
    hourStart + floored * SecondsPerMinute
  }

  lemma StartFacts(now: int, minutes: int, hourStart: int, minute: int, floored: int)
    requires minutes >= 1
    requires hourStart == now - now % SecondsPerHour
    requires minute == MinuteOf(now)
    requires floored == minute / minutes * minutes
    ensures hourStart + floored * 60 <= now < hourStart + floored * 60 + minutes * 60
    ensures IsBoundary(hourStart + floored * 60, minutes)
  {
    var w := now % 3600;
    assert 0 <= w < 3600;
    assert w == minute * 60 + w % 60;
    assert 0 <= minute < 60;
    DivFloor(minute, minutes);
    assert 0 <= floored <= minute;
    assert minute - floored < minutes;
    assert now - (hourStart + floored * 60) == (minute - floored) * 60 + w % 60;
    AlignedParts(now / 3600, floored);
    MultipleMod(minute / minutes, minutes);
  }

  /** An hour-aligned time plus f whole minutes has minute f and second 0. */
  lemma AlignedParts(h: int, f: int)
    requires 0 <= f < 60
    ensures SecondOf(h * 3600 + f * 60) == 0
    ensures MinuteOf(h * 3600 + f * 60) == f
  {
    var t := h * 3600 + f * 60;
    DivModUnique(t, 3600, h, f * 60);
    DivModUnique(t, 60, h * 60 + f, 0);
    DivModUnique(f * 60, 60, f, 0);
  }

  lemma DivFloor(a: int, b: int)
    requires a >= 0 && b >= 1
    ensures 0 <= a / b * b <= a
    ensures a - a / b * b == a % b
  {
  }

  lemma MulAtLeast(k: int, b: int)
    requires k >= 1 && b >= 1
    ensures k * b >= b
  {
    var j := k - 1;
    assert k * b == j * b + b;
    assert j * b >= 0;
  }

  /** Euclidean division is unique. */
  lemma DivModUnique(a: int, b: int, q: int, r: int)
    requires b >= 1 && a == q * b + r && 0 <= r < b
    ensures a / b == q && a % b == r
  {
    var q' := a / b;
    var r' := a % b;
    assert a == q' * b + r';
    if q > q' {
      assert (q - q') * b == q * b - q' * b;
      MulAtLeast(q - q', b);
    } else if q < q' {
      assert (q' - q) * b == q' * b - q * b;
      MulAtLeast(q' - q, b);
    }
  }

  lemma MultipleMod(q: int, b: int)
    requires b >= 1
    ensures (q * b) % b == 0 && (q * b) / b == q
  {
    DivModUnique(q * b, b, q, 0);
  }

  /** Adding an offset below an hour to an hour-aligned time. */
  lemma ModuloOfAligned(h: int, r: int)
    requires h % 3600 == 0
    requires 0 <= r < 3600
    ensures (h + r) % 3600 == r
    ensures (h + r) % 60 == r % 60
  {
    var q := h / 3600;
    assert h == q * 3600;
    DivModUnique(h + r, 3600, q, r);
    DivModUnique(h + r, 60, q * 60 + r / 60, r % 60);
  }

  /** The interval start is the latest boundary at or before now. */
  lemma StartIsLatestBoundary(now: int, minutes: int, t: int)
    requires minutes >= 1
    requires t <= now && IsBoundary(t, minutes)
    ensures t <= IntervalStart(now, minutes)
  {
    var hourStart := now - now % 3600;
    var minute := MinuteOf(now);
    var floored := minute / minutes * minutes;
    assert IntervalStart(now, minutes) == hourStart + floored * 60;
    if t > hourStart + floored * 60 {
      var mt := MinuteOf(t);
      MinuteNoLater(now, t, hourStart);
      MultipleBelow(mt, minute, minutes);
    }
  }

  /** A boundary t in the hour of now, and not after now, starts at a minute
      no later than now's. */
  lemma MinuteNoLater(now: int, t: int, hourStart: int)
    requires hourStart == now - now % 3600
    requires hourStart <= t <= now
    ensures t == hourStart + MinuteOf(t) * 60 + SecondOf(t)
    ensures 0 <= MinuteOf(t) <= MinuteOf(now)
  {
    var w := now % 3600;
    assert w == MinuteOf(now) * 60 + w % 60;
    assert hourStart % 3600 == 0 by {
      DivModUnique(hourStart, 3600, now / 3600, 0);
    }
    SameHour(hourStart, t, t - t % 3600);
  }

  lemma SameHour(hourStart: int, t: int, th: int)
    requires hourStart % 3600 == 0
    requires hourStart <= t < hourStart + 3600
    requires th == t - t % 3600
    ensures th == hourStart
    ensures t == hourStart + MinuteOf(t) * 60 + SecondOf(t)
  {
    ModuloOfAligned(hourStart, t - hourStart);
  }

  /** A multiple of m no larger than a is no larger than a floored to m. */
  lemma MultipleBelow(x: int, a: int, m: int)
    requires m >= 1 && 0 <= x <= a && x % m == 0
    ensures x <= a / m * m
  {
    var q := x / m;
    var p := a / m;
    assert x == q * m;
    DivFloor(a, m);
    if q > p {
      assert q * m - p * m == (q - p) * m;
      MulAtLeast(q - p, m);
    }
  }

  /** `interval_end = start + m minutes` (recorder.py:292, sniper.py:763). */
  function IntervalEnd(now: int, minutes: int): (end: int)
    requires minutes >= 1
    ensures now < end <= now + minutes * SecondsPerMinute
  {
    IntervalStart(now, minutes) + minutes * SecondsPerMinute
  }

  /** Crossing a boundary T changes the interval: the second before T and
      the second after T lie in different intervals. */
  lemma RolloverAtBoundary(t: int, minutes: int)
    requires minutes >= 1
    requires IsBoundary(t, minutes)
    ensures IntervalStart(t + 1, minutes) == t
    ensures IntervalStart(t - 1, minutes) < t
  {
    StartIsLatestBoundary(t + 1, minutes, t);
    var s := IntervalStart(t + 1, minutes);
    assert t <= s <= t + 1;
    assert s % 60 == 0 && t % 60 == 0;
  }

  /** Seconds left until the interval ends, clamped at zero:
      `max(0, interval_end_unix - int(time.time()))` (sniper.py:432,
      recorder.py:175). */
  function SecondsRemaining(intervalEnd: int, now: int): (r: nat)
    ensures r == 0 <==> now >= intervalEnd
    ensures r > 0 ==> now + r == intervalEnd
  {
    if intervalEnd - now > 0 then intervalEnd - now else 0
  }

  /** The MM:SS countdown: minutes and seconds that recompose the total
      (sniper.py:433-434, recorder.py:273-274). */
  function Countdown(total: nat): (r: (nat, nat))
    ensures r.0 * 60 + r.1 == total
    ensures r.1 < 60
  {
    (total / 60, total % 60)
  }

  /** `get_minutes_remaining` (fade_extreme.py:80-84): minutes until the end
      of the current 15-minute interval. On whole seconds it lies in
      (0, 15]. */
  function MinutesRemaining(now: int): (r: real)
    ensures 0.0 < r <= 15.0
    ensures r * 60.0 == (IntervalEnd(now, 15) - now) as real
  {
    var end := IntervalEnd(now, 15);
    var left := (end - now) as real / 60.0;
    if left > 0.0 then left else 0.0
  }

  /** The end of the current interval for a timeframe: 15 minutes for "15m",
      one hour for anything else (arb.py:69-85). */
  function CurrentIntervalEnd(now: int, timeframe: string): (end: int)
    ensures var m := if timeframe == "15m" then 15 else 60;
      IsBoundary(end, m) && end - m * SecondsPerMinute <= now < end
  {
    var m := if timeframe == "15m" then 15 else 60;
    EndIsBoundary(now, m);
    IntervalEnd(now, m)
  }

  /** For interval lengths that divide the hour, the end of an interval is
      itself a boundary. */
  lemma EndIsBoundary(now: int, minutes: int)
    requires minutes == 15 || minutes == 60
    ensures IsBoundary(IntervalEnd(now, minutes), minutes)
  {
    var start := IntervalStart(now, minutes);
    var end := start + minutes * SecondsPerMinute;
    var k := start / 3600;
    var w := start % 3600;
    assert start == 3600 * k + w;
    var m := w / 60;
    assert w == 60 * m by {
      HourOffset(k, w);
      assert SecondOf(start) == 0;
    }
    assert m % minutes == 0 by {
      assert MinuteOf(start) == m;
    }
    if m + minutes < 60 {
      assert end == 3600 * k + 60 * (m + minutes);
      HourOffset(k, 60 * (m + minutes));
    } else {
      assert m + minutes == 60;
      assert end == 3600 * (k + 1);
      HourOffset(k + 1, 0);
    }
  }

  /** Second and minute of a time given as whole hours plus an offset
      within the hour. */
  lemma HourOffset(k: int, w: int)
    requires 0 <= w < 3600
    ensures (3600 * k + w) % 3600 == w
    ensures (3600 * k + w) % 60 == w % 60
  {
  }

  /** `should_switch_to_next_market` (arb.py:88-94) reads the clock twice:
      `now` for the comparison and `later` inside the end computation. The
      end is computed from the later reading, so for a clock that does not
      run backwards the switch never fires. */
  function ShouldSwitch(now: int, later: int, timeframe: string): (r: bool)
    requires now <= later
    ensures !r
  {
    now >= CurrentIntervalEnd(later, timeframe)
  }
}

=== FILE: ladder.dfy ===
/**
  The replicated order book: a bid ladder and an ask ladder of (price, size)
  levels per instrument, kept up to date from snapshot and delta messages.

  The three strategy processes keep one identical copy of the delta rule
  (`update_book_level`); this module is that rule, written once.
 */
module Ladder {
  import opened Wrappers

  /** One price level. A price is one canonical real value. */
  datatype Level = Level(price: real, size: real)

  /** Bids are kept best (highest) first, asks best (lowest) first. */
  datatype Side = Bids | Asks

  datatype Book = Book(bids: seq<Level>, asks: seq<Level>)

  /** Opaque instrument (token) identifier. */
  type TokenId = string

  /** The books of all instruments a process follows. */
  type Books = map<TokenId, Book>

  const EmptyBook: Book := Book([], [])

  function LadderOf(book: Book, side: Side): seq<Level> {
    match side
    case Bids => book.bids
    case Asks => book.asks
  }

  function WithLadder(book: Book, side: Side, levels: seq<Level>): (r: Book)
    ensures LadderOf(r, side) == levels
    ensures LadderOf(r, Other(side)) == LadderOf(book, Other(side))
  {
    match side
    case Bids => book.(bids := levels)
    case Asks => book.(asks := levels)
  }

  function Other(side: Side): Side {
    match side
    case Bids => Asks
    case Asks => Bids
  }

  /** The book of an instrument, or an empty one when none is held yet. */
  function BookOf(books: Books, asset: TokenId): Book {
    if asset in books then books[asset] else EmptyBook
  }

  // ---------------------------------------------------------------------------
  // Ordering
  // ---------------------------------------------------------------------------

  /** Level a may stand before level b on this side of the book. */
  predicate Precedes(side: Side, a: Level, b: Level) {
    match side
    case Bids => a.price >= b.price
    case Asks => a.price <= b.price
  }

  /** Bids non-increasing, asks non-decreasing by price. */
  predicate Sorted(side: Side, s: seq<Level>) {
    forall i, j :: 0 <= i < j < |s| ==> Precedes(side, s[i], s[j])
  }

  /** Inserts x before the first element it may precede. Because x goes
      before elements with an equal price, sorting with it is stable, as
      Python's `list.sort` is (also with `reverse=True`). */
  function Insert(side: Side, x: Level, s: seq<Level>): (r: seq<Level>)
    ensures multiset(r) == multiset{x} + multiset(s)
    ensures |r| == |s| + 1
  {
    if |s| == 0 || Precedes(side, x, s[0]) then [x] + s
    else
      assert s == [s[0]] + s[1..];
      [s[0]] + Insert(side, x, s[1..])
  }

  lemma {:induction false} InsertSorted(side: Side, x: Level, s: seq<Level>)
    requires Sorted(side, s)
    ensures Sorted(side, Insert(side, x, s))
    decreases |s|
  {
    if |s| == 0 || Precedes(side, x, s[0]) {
    } else {
      var t := Insert(side, x, s[1..]);
      InsertSorted(side, x, s[1..]);
      assert Precedes(side, s[0], x);
      forall k | 0 <= k < |t|
        ensures Precedes(side, s[0], t[k])
      {
        assert t[k] in multiset(t);
        assert t[k] == x || t[k] in multiset(s[1..]);
        if t[k] != x {
          var j :| 0 <= j < |s[1..]| && s[1..][j] == t[k];
          assert s[j + 1] == t[k];
        }
      }
    }
  }

  /** Stable sort of one side: bids descending, asks ascending. */
  function Sort(side: Side, s: seq<Level>): (r: seq<Level>)
    ensures multiset(r) == multiset(s)
    ensures |r| == |s|
    ensures Sorted(side, r)
  {
    if |s| == 0 then []
    else
      assert s == [s[0]] + s[1..];
      var t := Sort(side, s[1..]);
      InsertSorted(side, s[0], t);
      Insert(side, s[0], t)
  }

  /** Sorting a side that is already in order changes nothing (stability). */
  lemma {:induction false} SortSortedIsIdentity(side: Side, s: seq<Level>)
    requires Sorted(side, s)
    ensures Sort(side, s) == s
  {
    if |s| > 0 {
      SortSortedIsIdentity(side, s[1..]);
      assert s == [s[0]] + s[1..];
    }
  }

  // ---------------------------------------------------------------------------
  // Selecting the levels at, or away from, one price
  // ---------------------------------------------------------------------------

  /** The levels whose price equals p (atPrice) or differs from p (!atPrice),
      in their original order. With !atPrice this is the source's
      `[l for l in levels if l.price != price]`. */
  function Select(s: seq<Level>, p: real, atPrice: bool): (r: seq<Level>)
    ensures forall l | l in r :: l in s && (l.price == p) == atPrice
    ensures |r| <= |s|
  {
    if |s| == 0 then []
    else if (s[0].price == p) == atPrice then [s[0]] + Select(s[1..], p, atPrice)
    else Select(s[1..], p, atPrice)
  }

  lemma {:induction false} SelectAppend(a: seq<Level>, b: seq<Level>, p: real, atPrice: bool)
    ensures Select(a + b, p, atPrice) == Select(a, p, atPrice) + Select(b, p, atPrice)
  {
    if |a| > 0 {
      assert (a + b)[1..] == a[1..] + b;
      SelectAppend(a[1..], b, p, atPrice);
    } else {
      assert a + b == b;
    }
  }

  /** How often a level occurs in a selection: as often as in the input
      when it lies on the selected side of p, never otherwise. */
  lemma {:induction false} SelectCount(s: seq<Level>, p: real, atPrice: bool, x: Level)
    ensures multiset(Select(s, p, atPrice))[x]
         == (if (x.price == p) == atPrice then multiset(s)[x] else 0)
  {
    if |s| > 0 {
      assert s == [s[0]] + s[1..];
      SelectCount(s[1..], p, atPrice, x);
    }
  }

  /** Selection depends only on the multiset of levels, not on their order. */
  lemma SelectPermutation(a: seq<Level>, b: seq<Level>, p: real, atPrice: bool)
    requires multiset(a) == multiset(b)
    ensures multiset(Select(a, p, atPrice)) == multiset(Select(b, p, atPrice))
  {
    forall x: Level
      ensures multiset(Select(a, p, atPrice))[x] == multiset(Select(b, p, atPrice))[x]
    {
      SelectCount(a, p, atPrice, x);
      SelectCount(b, p, atPrice, x);
    }
  }

  lemma {:induction false} SelectOwn(s: seq<Level>, p: real, atPrice: bool)
    ensures Select(Select(s, p, atPrice), p, !atPrice) == []
    ensures Select(Select(s, p, atPrice), p, atPrice) == Select(s, p, atPrice)
  {
    if |s| > 0 {
      SelectOwn(s[1..], p, atPrice);
    }
  }

  // ---------------------------------------------------------------------------
  // The delta rule and the snapshot rule
  // ---------------------------------------------------------------------------

  /** sniper.py:391-407 (also fade_extreme.py:268-278, recorder.py:191-203):
      drop every level at the given price, re-insert it when the new size is
      positive, then re-sort the side. */
  function UpdateSide(side: Side, levels: seq<Level>, price: real, size: real): (r: seq<Level>)
    ensures Sorted(side, r)
  {
    var kept := Select(levels, price, false);
    Sort(side, if size > 0.0 then kept + [Level(price, size)] else kept)
  }

  /** After a delta at price p, exactly the level (p, size) sits at p when
      size > 0, and nothing does otherwise. */
  lemma DeltaAtPrice(side: Side, levels: seq<Level>, price: real, size: real)
    ensures Select(UpdateSide(side, levels, price, size), price, true)
         == (if size > 0.0 then [Level(price, size)] else [])
  {
    var kept := Select(levels, price, false);
    var input := if size > 0.0 then kept + [Level(price, size)] else kept;
    var r := UpdateSide(side, levels, price, size);
    SelectPermutation(r, input, price, true);
    SelectOwn(levels, price, false);
    if size > 0.0 {
      SelectAppend(kept, [Level(price, size)], price, true);
      assert Select(input, price, true) == [Level(price, size)];
      var sel := Select(r, price, true);
      assert multiset(sel) == multiset{Level(price, size)};
      assert |sel| == 1;
      assert sel[0] in multiset(sel);
    } else {
      assert multiset(Select(r, price, true)) == multiset{};
    }
  }

  /** A delta keeps every level at another price, as a multiset. */
  lemma DeltaKeepsOthers(side: Side, levels: seq<Level>, price: real, size: real)
    ensures multiset(Select(UpdateSide(side, levels, price, size), price, false))
         == multiset(Select(levels, price, false))
  {
    var kept := Select(levels, price, false);
    var input := if size > 0.0 then kept + [Level(price, size)] else kept;
    var r := UpdateSide(side, levels, price, size);
    SelectPermutation(r, input, price, false);
    SelectOwn(levels, price, false);
    if size > 0.0 {
      SelectAppend(kept, [Level(price, size)], price, false);
    }
  }

  /** The delta is a pure upsert: the result holds exactly the other levels
      plus the new one when its size is positive. */
  lemma DeltaContents(side: Side, levels: seq<Level>, price: real, size: real)
    ensures multiset(UpdateSide(side, levels, price, size))
         == multiset(Select(levels, price, false))
          + (if size > 0.0 then multiset{Level(price, size)} else multiset{})
  {
  }

  /** A removal (size <= 0) at a price that is not present leaves an
      already-sorted side exactly as it was: the re-sort is stable. */
  lemma DeltaAbsentRemovalIsNoOp(side: Side, levels: seq<Level>, price: real, size: real)
    requires Sorted(side, levels)
    requires size <= 0.0
    requires forall i :: 0 <= i < |levels| ==> levels[i].price != price
    ensures UpdateSide(side, levels, price, size) == levels
  {
    SelectAllAway(levels, price);
    SortSortedIsIdentity(side, levels);
  }

  lemma {:induction false} SelectAllAway(s: seq<Level>, p: real)
    requires forall i :: 0 <= i < |s| ==> s[i].price != p
    ensures Select(s, p, false) == s
  {
    if |s| > 0 {
      SelectAllAway(s[1..], p);
    }
  }

  /** Applies one delta to the books: the named side of one instrument
      changes by the delta rule; a missing instrument starts from an empty
      book (sniper.py:348-351, 393). */
  function ApplyDelta(books: Books, asset: TokenId, side: Side, price: real, size: real): (r: Books)
    ensures r.Keys == books.Keys + {asset}
    ensures forall t | t in books && t != asset :: r[t] == books[t]
    ensures LadderOf(r[asset], side) == UpdateSide(side, LadderOf(BookOf(books, asset), side), price, size)
    ensures LadderOf(r[asset], Other(side)) == LadderOf(BookOf(books, asset), Other(side))
  {
    var book := BookOf(books, asset);
    books[asset := WithLadder(book, side, UpdateSide(side, LadderOf(book, side), price, size))]
  }

  /** A book snapshot replaces both sides of one instrument verbatim; it
      does not sort them (sniper.py:366-370, recorder.py:219-222). */
  function ApplySnapshot(books: Books, asset: TokenId, bids: seq<Level>, asks: seq<Level>): (r: Books)
    ensures r.Keys == books.Keys + {asset}
    ensures r[asset].bids == bids && r[asset].asks == asks
    ensures forall t | t in books && t != asset :: r[t] == books[t]
  {
    books[asset := Book(bids, asks)]
  }

  /** Well-formed ladder as the design intends it: in order, every size
      positive, no price twice. */
  predicate WellFormed(side: Side, s: seq<Level>) {
    && Sorted(side, s)
    && (forall i :: 0 <= i < |s| ==> s[i].size > 0.0)
    && (forall i, j :: 0 <= i < j < |s| ==> s[i].price != s[j].price)
  }

  /** The delta rule preserves well-formedness. */
  lemma DeltaPreservesWellFormed(side: Side, levels: seq<Level>, price: real, size: real)
    requires WellFormed(side, levels)
    ensures WellFormed(side, UpdateSide(side, levels, price, size))
  {
    var r := UpdateSide(side, levels, price, size);
    DeltaContents(side, levels, price, size);
    forall i | 0 <= i < |r|
      ensures r[i].size > 0.0
    {
      assert r[i] in multiset(r);
    }
    forall i, j | 0 <= i < j < |r|
      ensures r[i].price != r[j].price
    {
      var q := r[i].price;
      CountAtIsSelect(r, q);
      if q == price {
        DeltaAtPrice(side, levels, price, size);
      } else {
        AwayCountPreserved(side, levels, price, size, q);
        CountAtIsSelect(levels, q);
        CountAtDistinct(levels, q);
      }
      CountAtOne(r, q, i, j);
    }
  }

  /** At a price other than the delta's, the updated side holds as many
      levels as before. */
  lemma AwayCountPreserved(side: Side, levels: seq<Level>, price: real, size: real, q: real)
    requires q != price
    ensures |Select(UpdateSide(side, levels, price, size), q, true)| == |Select(levels, q, true)|
  {
    var r := UpdateSide(side, levels, price, size);
    DeltaKeepsOthers(side, levels, price, size);
    SelectPermutation(Select(r, price, false), Select(levels, price, false), q, true);
    SelectAtAway(r, price, q);
    SelectAtAway(levels, price, q);
    assert |multiset(Select(r, q, true))| == |multiset(Select(levels, q, true))|;
  }

  /** Number of levels at price q. */
  function CountAt(s: seq<Level>, q: real): nat {
    if |s| == 0 then 0 else (if s[0].price == q then 1 else 0) + CountAt(s[1..], q)
  }

  lemma {:induction false} CountAtIsSelect(s: seq<Level>, q: real)
    ensures CountAt(s, q) == |Select(s, q, true)|
  {
    if |s| > 0 {
      CountAtIsSelect(s[1..], q);
    }
  }

  /** With at most one level at q, a level at q is the only one. */
  lemma {:induction false} CountAtOne(s: seq<Level>, q: real, i: int, j: int)
    requires CountAt(s, q) <= 1
    requires 0 <= i < j < |s| && s[i].price == q
    ensures s[j].price != q
  {
    if i > 0 {
      CountAtOne(s[1..], q, i - 1, j - 1);
    } else if s[j].price == q {
      CountAtGe1(s[1..], q, j - 1);
    }
  }

  lemma {:induction false} CountAtGe1(s: seq<Level>, q: real, j: int)
    requires 0 <= j < |s| && s[j].price == q
    ensures CountAt(s, q) >= 1
  {
    if j > 0 {
      CountAtGe1(s[1..], q, j - 1);
    }
  }

  lemma {:induction false} CountAtDistinct(s: seq<Level>, q: real)
    requires forall i, j :: 0 <= i < j < |s| ==> s[i].price != s[j].price
    ensures CountAt(s, q) <= 1
  {
    if |s| > 0 {
      CountAtDistinct(s[1..], q);
      if s[0].price == q {
        CountAtZero(s[1..], q);
      }
    }
  }

  lemma {:induction false} CountAtZero(s: seq<Level>, q: real)
    requires forall i :: 0 <= i < |s| ==> s[i].price != q
    ensures CountAt(s, q) == 0
  {
    if |s| > 0 {
      CountAtZero(s[1..], q);
    }
  }

  /** Selecting price q (q != p) after removing price p is selecting q. */
  lemma {:induction false} SelectAtAway(s: seq<Level>, p: real, q: real)
    requires p != q
    ensures Select(Select(s, p, false), q, true) == Select(s, q, true)
  {
    if |s| > 0 {
      SelectAtAway(s[1..], p, q);
    }
  }

  // ---------------------------------------------------------------------------
  // Best-level accessors
  // ---------------------------------------------------------------------------

  /** The head of a ladder, or None when it is empty. */
  function Best(s: seq<Level>): (r: Option<Level>)
    ensures r.None? <==> |s| == 0
    ensures r.Some? ==> r.value in s
  {
    if |s| == 0 then None else Some(s[0])
  }

  /** The head of a sorted ladder is its best price: the highest bid, the
      lowest ask. */
  lemma SortedHeadIsBest(side: Side, s: seq<Level>)
    requires Sorted(side, s) && |s| > 0
    ensures forall l | l in s :: Precedes(side, s[0], l)
  {
    forall l | l in s
      ensures Precedes(side, s[0], l)
    {
      var k :| 0 <= k < |s| && s[k] == l;
      if k > 0 {
        assert Precedes(side, s[0], s[k]);
      }
    }
  }

  /** The head of the stable sort of any ladder is a level with the best
      price found in it. */
  lemma SortHeadIsBest(side: Side, s: seq<Level>)
    requires |s| > 0
    ensures Sort(side, s)[0] in s
    ensures forall l | l in s :: Precedes(side, Sort(side, s)[0], l)
  {
    var r := Sort(side, s);
    SortedHeadIsBest(side, r);
    assert r[0] in multiset(r);
    forall l | l in s
      ensures l in r
    {
      assert l in multiset(s);
    }
  }

  /** The first level of a side once sorted: a level of the best price. */
  function SortedHead(side: Side, s: seq<Level>): (r: Level)
    requires |s| > 0
    ensures r in s
    ensures forall l | l in s :: Precedes(side, r, l)
  {
    SortHeadIsBest(side, s);
    Sort(side, s)[0]
  }
}

=== FILE: lp.dfy ===
/**
  The two-sided liquidity provider (lp.py). Each iteration it fetches both
  outcome books, checks the market's liquidity, prices a bid on each side
  just below its mid, and decides whether to (re)quote, pause or hold.
  Books arrive as inputs; orders are requests the model returns.
 */
module Quoter {
  import opened Wrappers
  import opened Numeric
  import opened Ladder

  const MinLiquidity: real := 100.0
  const MinDepth: nat := 2
  const MaxSpread: real := 0.10
  const BidBelowMidBps: real := 50.0
  const MinEdge: real := 0.01
  const OrderSize: nat := 10
  const MaxPositionPerSide: int := 100
  const MaxImbalance: int := 20
  const QuoteLifetime: real := 15.0
  const PriceFloor: real := 0.01
  const Tick: real := 0.01

  // ---------------------------------------------------------------------------
  // Order book (lp.py:55-92)
  // ---------------------------------------------------------------------------

  /** `OrderBook(bids, asks)`: bids sorted by price descending, asks
      ascending, both stably. */
  function MakeBook(bids: seq<Level>, asks: seq<Level>): (b: Book)
    ensures Sorted(Bids, b.bids) && Sorted(Asks, b.asks)
    ensures multiset(b.bids) == multiset(bids) && multiset(b.asks) == multiset(asks)
    ensures Sorted(Bids, bids) && Sorted(Asks, asks) ==> b == Book(bids, asks)
  {
    if Sorted(Bids, bids) && Sorted(Asks, asks) then
      SortSortedIsIdentity(Bids, bids);
      SortSortedIsIdentity(Asks, asks);
      Book(Sort(Bids, bids), Sort(Asks, asks))
    else Book(Sort(Bids, bids), Sort(Asks, asks))
  }

  function HeadPrice(s: seq<Level>): (r: Option<real>)
    ensures r.None? <==> |s| == 0
    ensures r.Some? ==> exists l :: l in s && l.price == r.value
  {
    if |s| == 0 then None else Some(s[0].price)
  }

  function HeadSize(s: seq<Level>): (r: Option<real>)
    ensures r.None? <==> |s| == 0
    ensures r.Some? ==> exists l :: l in s && l.size == r.value
  {
    if |s| == 0 then None else Some(s[0].size)
  }

  function BestBid(b: Book): Option<real> { HeadPrice(b.bids) }
  function BestAsk(b: Book): Option<real> { HeadPrice(b.asks) }
  function BestBidSize(b: Book): Option<real> { HeadSize(b.bids) }
  function BestAskSize(b: Book): Option<real> { HeadSize(b.asks) }

  /** On a book built from any levels, the best bid is the highest bid
      price and the best ask the lowest ask price; both are absent exactly
      when that side is empty. */
  lemma BestPricesAreExtremes(bids: seq<Level>, asks: seq<Level>)
    ensures BestBid(MakeBook(bids, asks)).None? <==> |bids| == 0
    ensures BestAsk(MakeBook(bids, asks)).None? <==> |asks| == 0
    ensures |bids| > 0 ==> ((exists l :: l in bids && l.price == BestBid(MakeBook(bids, asks)).value)
      && forall l | l in bids :: l.price <= BestBid(MakeBook(bids, asks)).value)
    ensures |asks| > 0 ==> ((exists l :: l in asks && l.price == BestAsk(MakeBook(bids, asks)).value)
      && forall l | l in asks :: l.price >= BestAsk(MakeBook(bids, asks)).value)
  {
    var b := MakeBook(bids, asks);
    if |bids| > 0 {
      SortHeadIsBest(Bids, bids);
      if Sorted(Bids, bids) && Sorted(Asks, asks) {
        SortSortedIsIdentity(Bids, bids);
      }
      assert b.bids[0] == Sort(Bids, bids)[0];
    }
    if |asks| > 0 {
      SortHeadIsBest(Asks, asks);
      if Sorted(Bids, bids) && Sorted(Asks, asks) {
        SortSortedIsIdentity(Asks, asks);
      }
      assert b.asks[0] == Sort(Asks, asks)[0];
    }
  }

  /** A Python float is truthy when present and non-zero. */
  predicate Truthy(x: Option<real>) {
    x.Some? && x.value != 0.0
  }

  /** `spread`: ask minus bid, only when both are present and non-zero. */
  function Spread(b: Book): (r: Option<real>)
    ensures r.Some? <==> Truthy(BestBid(b)) && Truthy(BestAsk(b))
    ensures r.Some? ==> BestBid(b).value + r.value == BestAsk(b).value
  {
    if Truthy(BestBid(b)) && Truthy(BestAsk(b)) then Some(BestAsk(b).value - BestBid(b).value) else None
  }

  /** `mid_price`: the midpoint, only when both are present and non-zero. */
  function Mid(b: Book): (r: Option<real>)
    ensures r.Some? <==> Truthy(BestBid(b)) && Truthy(BestAsk(b))
    ensures r.Some? ==> r.value - BestBid(b).value == BestAsk(b).value - r.value
  {
    if Truthy(BestBid(b)) && Truthy(BestAsk(b)) then Some((BestBid(b).value + BestAsk(b).value) / 2.0) else None
  }

  /** On a book that is not crossed the mid lies between bid and ask and the
      spread is non-negative. */
  lemma MidWithinSpread(b: Book)
    requires Mid(b).Some? && BestBid(b).value <= BestAsk(b).value
    ensures BestBid(b).value <= Mid(b).value <= BestAsk(b).value
    ensures Spread(b).value >= 0.0
  {
  }

  /** The sum of the sizes of a run of levels. */
  function SizeSum(s: seq<Level>): real {
    if |s| == 0 then 0.0 else SizeSum(s[..|s| - 1]) + s[|s| - 1].size
  }

  /** How many leading elements `s[:k]` keeps of a sequence of length n,
      Python slicing rules included (a negative k drops from the end). */
  function SliceEnd(n: nat, k: int): (e: nat)
    ensures e <= n
    ensures k >= 0 ==> e == MinInt(k, n)
    ensures k < 0 ==> e == MaxInt(0, n + k)
  {
    if k >= 0 then (if k <= n then k else n)
    else if n + k >= 0 then n + k else 0
  }

  /** `get_cumulative_size(side, levels)`: "bid" selects the bids, any
      other name the asks. */
  function CumulativeSize(b: Book, side: string, levels: int): real {
    var s := Levels(b, side);
    SizeSum(s[..SliceEnd(|s|, levels)])
  }

  /** The levels a side name selects: "bid" the bids, anything else the asks. */
  function Levels(b: Book, side: string): seq<Level> {
    if side == "bid" then b.bids else b.asks
  }

  predicate SizesNonNegative(s: seq<Level>) {
    forall i :: 0 <= i < |s| ==> s[i].size >= 0.0
  }

  /** With non-negative sizes, a longer prefix sums to at least as much. */
  lemma {:induction false} PrefixSumMonotone(s: seq<Level>, i: nat, j: nat)
    requires i <= j <= |s| && SizesNonNegative(s)
    ensures SizeSum(s[..i]) <= SizeSum(s[..j])
    decreases j - i
  {
    if i < j {
      PrefixSumMonotone(s, i, j - 1);
      assert s[..j][..j - 1] == s[..j - 1];
    }
  }

  /** Cumulative size: one level gives the best size, enough levels give
      the whole side, and more levels never give less. */
  lemma CumulativeSizeFacts(b: Book, side: string, levels: int, more: int)
    requires SizesNonNegative(Levels(b, side)) && 0 <= levels <= more
    ensures side == "bid" && |b.bids| > 0 ==> CumulativeSize(b, side, 1) == BestBidSize(b).value
    ensures side != "bid" && |b.asks| > 0 ==> CumulativeSize(b, side, 1) == BestAskSize(b).value
    ensures levels >= |Levels(b, side)| ==> CumulativeSize(b, side, levels) == SizeSum(Levels(b, side))
    ensures CumulativeSize(b, side, levels) <= CumulativeSize(b, side, more)
    ensures CumulativeSize(b, side, 0) == 0.0
  {
    var s := Levels(b, side);
    if |s| > 0 {
      assert s[..1][..0] == [];
      assert SizeSum(s[..1]) == s[0].size;
    }
    assert s[..0] == [];
    if levels >= |s| {
      assert s[..|s|] == s;
    }
    PrefixSumMonotone(s, SliceEnd(|s|, levels), SliceEnd(|s|, more));
  }

  // ---------------------------------------------------------------------------
  // Liquidity gate (lp.py:253-269)
  // ---------------------------------------------------------------------------

  datatype Outcome = Yes | No

  datatype Failure =
    | LowLiquidity(liquidity: real)
    | ShallowBids(outcome: Outcome, depth: nat)
    | ShallowAsks(outcome: Outcome, depth: nat)
    | WideSpread(outcome: Outcome, spread: real)

  predicate TooWide(b: Book) {
    Spread(b).Some? && Spread(b).value != 0.0 && Spread(b).value > MaxSpread
  }

  /** The failures of one outcome's book, in the order they are checked. */
  function BookFailures(o: Outcome, b: Book): (r: seq<Failure>)
    ensures ShallowBids(o, |b.bids|) in r <==> |b.bids| < MinDepth
    ensures ShallowAsks(o, |b.asks|) in r <==> |b.asks| < MinDepth
    ensures (exists f :: f in r && f.WideSpread?) <==> TooWide(b)
    ensures forall f | f in r :: !f.LowLiquidity? && f.outcome == o
    ensures |r| == (if |b.bids| < MinDepth then 1 else 0) + (if |b.asks| < MinDepth then 1 else 0) + (if TooWide(b) then 1 else 0)
  {
    var bidPart := if |b.bids| < MinDepth then [ShallowBids(o, |b.bids|)] else [];
    var askPart := if |b.asks| < MinDepth then [ShallowAsks(o, |b.asks|)] else [];
    var spreadPart := if TooWide(b) then [WideSpread(o, Spread(b).value)] else [];
    assert TooWide(b) ==> (bidPart + askPart + spreadPart)[|bidPart + askPart|].WideSpread?;
    bidPart + askPart + spreadPart
  }

  predicate BookPasses(b: Book) {
    |b.bids| >= MinDepth && |b.asks| >= MinDepth && !TooWide(b)
  }

  /** `check_liquidity`: passes exactly when every requirement holds, with
      one failure per violated requirement, market liquidity first, then
      the YES book, then the NO book. */
  function CheckLiquidity(liquidity: real, yes: Book, no: Book): (r: (bool, seq<Failure>))
    ensures r.0 <==> |r.1| == 0
    ensures r.0 <==> liquidity >= MinLiquidity && BookPasses(yes) && BookPasses(no)
    ensures |r.1| == (if liquidity < MinLiquidity then 1 else 0) + |BookFailures(Yes, yes)| + |BookFailures(No, no)|
    ensures liquidity < MinLiquidity ==> r.1[0] == LowLiquidity(liquidity)
    ensures LowLiquidity(liquidity) in r.1 <==> liquidity < MinLiquidity
    ensures var lead := if liquidity < MinLiquidity then 1 else 0;
      var yesEnd := lead + |BookFailures(Yes, yes)|;
      r.1[lead..yesEnd] == BookFailures(Yes, yes) && r.1[yesEnd..] == BookFailures(No, no)
  {
    var low := if liquidity < MinLiquidity then [LowLiquidity(liquidity)] else [];
    var yesFailures := BookFailures(Yes, yes);
    var noFailures := BookFailures(No, no);
    var failures := low + yesFailures + noFailures;
    assert failures[|low|..|low| + |yesFailures|] == yesFailures;
    assert failures[|low| + |yesFailures|..] == noFailures;
    (|failures| == 0, failures)
  }

  /** Each violated requirement of each book is reported, against the right
      outcome, and nothing else is. */
  lemma FailureAttribution(liquidity: real, yes: Book, no: Book)
    ensures var fs := CheckLiquidity(liquidity, yes, no).1;
      && (ShallowBids(Yes, |yes.bids|) in fs <==> |yes.bids| < MinDepth)
      && (ShallowAsks(Yes, |yes.asks|) in fs <==> |yes.asks| < MinDepth)
      && ((exists f :: f in fs && f.WideSpread? && f.outcome == Yes) <==> TooWide(yes))
      && (ShallowBids(No, |no.bids|) in fs <==> |no.bids| < MinDepth)
      && (ShallowAsks(No, |no.asks|) in fs <==> |no.asks| < MinDepth)
      && ((exists f :: f in fs && f.WideSpread? && f.outcome == No) <==> TooWide(no))
  {
  }

  // ---------------------------------------------------------------------------
  // Quote pricing (lp.py:271-320)
  // ---------------------------------------------------------------------------

  datatype Opportunity = Opportunity(yesMid: real, noMid: real, yesBid: real, noBid: real,
                                     totalCost: real, edge: real, takerCost: real, takerEdge: real)

  /** The bid placed on one side: half a percent below mid, not more than a
      tick above the best bid, and never under one cent. */
  function Quote(mid: real, bestBid: real): (q: real)
    ensures q >= PriceFloor
    ensures q == PriceFloor || q <= mid - BidBelowMidBps / 10000.0
    ensures q == PriceFloor || q <= bestBid + Tick
    ensures q == mid - BidBelowMidBps / 10000.0 || q == bestBid + Tick || q == PriceFloor
    ensures q >= MinReal(mid - BidBelowMidBps / 10000.0, bestBid + Tick)
  {
    MaxReal(PriceFloor, MinReal(mid - BidBelowMidBps / 10000.0, bestBid + Tick))
  }

  /** `calculate_opportunity`: nothing when either mid is missing (or zero);
      otherwise a quote on each side and the edge if both fill. */
  function CalculateOpportunity(yes: Book, no: Book): (r: Option<Opportunity>)
    ensures r.None? <==> !Truthy(Mid(yes)) || !Truthy(Mid(no))
    ensures r.Some? ==> r.value.yesBid >= PriceFloor && r.value.noBid >= PriceFloor
    ensures r.Some? ==> r.value.edge == 1.0 - (r.value.yesBid + r.value.noBid)
    ensures r.Some? ==> r.value.yesMid == Mid(yes).value && r.value.noMid == Mid(no).value
    ensures r.Some? ==> (r.value.yesBid == Quote(Mid(yes).value, BestBid(yes).value)
                     && r.value.noBid == Quote(Mid(no).value, BestBid(no).value))
  {
    if !Truthy(Mid(yes)) || !Truthy(Mid(no)) then None
    else
      var yesBid := Quote(Mid(yes).value, BestBid(yes).value);
      var noBid := Quote(Mid(no).value, BestBid(no).value);
      var total := yesBid + noBid;
      var takerCost := BestAsk(yes).value + BestAsk(no).value;
      Some(Opportunity(Mid(yes).value, Mid(no).value, yesBid, noBid, total, 1.0 - total, takerCost, 1.0 - takerCost))
  }

  /** Each quote stays strictly below its mid once the mid is high enough
      for the floor not to bind, and never exceeds the best bid by more
      than a tick. */
  lemma QuotesBelowMid(yes: Book, no: Book)
    requires CalculateOpportunity(yes, no).Some?
    ensures var o := CalculateOpportunity(yes, no).value;
      (o.yesMid > PriceFloor + 0.005 ==> o.yesBid < o.yesMid) && (o.noMid > PriceFloor + 0.005 ==> o.noBid < o.noMid)
    ensures var o := CalculateOpportunity(yes, no).value;
      o.yesBid <= MaxReal(PriceFloor, BestBid(yes).value + Tick) && o.noBid <= MaxReal(PriceFloor, BestBid(no).value + Tick)
  {
  }

  /** Quoting both sides of a complementary market below the asks earns
      at least what taking both asks would. */
  lemma MakerEdgeAtLeastTakerEdge(yes: Book, no: Book)
    requires CalculateOpportunity(yes, no).Some?
    requires BestAsk(yes).value >= PriceFloor && BestAsk(no).value >= PriceFloor
    requires BestBid(yes).value + Tick <= BestAsk(yes).value && BestBid(no).value + Tick <= BestAsk(no).value
    ensures CalculateOpportunity(yes, no).value.edge >= CalculateOpportunity(yes, no).value.takerEdge
  {
  }

  // ---------------------------------------------------------------------------
  // Position gate, cancellation and pairing (lp.py:322-357, 411-415)
  // ---------------------------------------------------------------------------

  datatype Position = Position(yes: int, no: int)

  datatype Reason = Ok | EdgeTooSmall(edge: real) | YesAtLimit(shares: int) | NoAtLimit(shares: int) | Imbalanced(amount: int)

  function Abs(x: int): (r: nat)
    ensures r == x || r == -x
  {
    if x < 0 then -x else x
  }

  /** `should_place_orders`: refused for too small an edge, a side at its
      limit, or too large an imbalance, checked in that order. */
  function ShouldPlace(edge: real, p: Position): (r: (bool, Reason))
    ensures r.0 <==> r.1 == Ok
    ensures r.0 <==> edge >= MinEdge && p.yes < MaxPositionPerSide && p.no < MaxPositionPerSide
                     && Abs(p.yes - p.no) < MaxImbalance
    ensures edge < MinEdge ==> r.1 == EdgeTooSmall(edge)
    ensures edge >= MinEdge && p.yes >= MaxPositionPerSide ==> r.1 == YesAtLimit(p.yes)
    ensures edge >= MinEdge && p.yes < MaxPositionPerSide && p.no >= MaxPositionPerSide ==> r.1 == NoAtLimit(p.no)
    ensures (edge >= MinEdge && p.yes < MaxPositionPerSide && p.no < MaxPositionPerSide
             && Abs(p.yes - p.no) >= MaxImbalance) ==> r.1 == Imbalanced(Abs(p.yes - p.no))
    ensures r.1.Imbalanced? ==> edge >= MinEdge && p.yes < MaxPositionPerSide && p.no < MaxPositionPerSide
  {
    if edge < MinEdge then (false, EdgeTooSmall(edge))
    else if p.yes >= MaxPositionPerSide then (false, YesAtLimit(p.yes))
    else if p.no >= MaxPositionPerSide then (false, NoAtLimit(p.no))
    else if Abs(p.yes - p.no) >= MaxImbalance then (false, Imbalanced(Abs(p.yes - p.no)))
    else (true, Ok)
  }

  datatype ActiveOrders = ActiveOrders(yes: seq<string>, no: seq<string>)

  /** `cancel_all_orders`: the lists end empty in both modes; a live run
      asks to cancel every tracked order (errors are swallowed), a dry run
      asks nothing. */
  function CancelAll(orders: ActiveOrders, dryRun: bool): (r: (ActiveOrders, seq<string>))
    ensures r.0 == ActiveOrders([], [])
    ensures dryRun ==> r.1 == []
    ensures !dryRun ==> multiset(r.1) == multiset(orders.yes) + multiset(orders.no)
  {
    (ActiveOrders([], []), if dryRun then [] else orders.yes + orders.no)
  }

  /** Shares held on both sides, which pay $1 together at resolution. */
  function Paired(p: Position): (n: int)
    ensures n <= p.yes && n <= p.no && (n == p.yes || n == p.no)
  {
    MinInt(p.yes, p.no)
  }

  /** Pairing leaves at most one side unhedged and splits each holding. */
  lemma UnhedgedOnOneSide(p: Position)
    ensures p.yes - Paired(p) == 0 || p.no - Paired(p) == 0
    ensures p.yes - Paired(p) >= 0 && p.no - Paired(p) >= 0
    ensures Paired(p) + (p.yes - Paired(p)) + (p.no - Paired(p)) == MaxInt(p.yes, p.no)
  {
  }

  // ---------------------------------------------------------------------------
  // One iteration of the quoting loop (lp.py:426-500)
  // ---------------------------------------------------------------------------

  datatype Action =
    | FetchFailed
    | LiquidityFailed(failures: seq<Failure>)
    | NoOpportunity
    | Requote(opp: Opportunity)
    | Pause(reason: Reason)
    | Hold(secondsLeft: int)

  datatype Provider = Provider(position: Position, orders: ActiveOrders, lastQuote: real, dryRun: bool)

  /** One pass of `run` at clock reading `now`, given the fetched books (or
      none on a fetch error) and the market's reported liquidity. Placing
      a quote is a dry-run no-op, so it does not change the orders. */
  function Iterate(p: Provider, books: Option<(Book, Book)>, liquidity: real, now: real): (r: (Action, Provider))
    ensures r.0.Requote? <==>
      && books.Some?
      && CheckLiquidity(liquidity, books.value.0, books.value.1).0
      && CalculateOpportunity(books.value.0, books.value.1).Some?
      && ShouldPlace(CalculateOpportunity(books.value.0, books.value.1).value.edge, p.position).0
      && now - p.lastQuote >= QuoteLifetime
    ensures r.0.Requote? ==> r.0.opp == CalculateOpportunity(books.value.0, books.value.1).value
    ensures r.0.Requote? ==> r.1.lastQuote == now
    ensures !r.0.Requote? ==> r.1.lastQuote == p.lastQuote
    ensures r.0.LiquidityFailed? || r.0.Pause? || r.0.Requote? ==> r.1.orders == ActiveOrders([], [])
    ensures r.0.FetchFailed? <==> books.None?
    ensures books.Some? && !CheckLiquidity(liquidity, books.value.0, books.value.1).0 ==>
      r.0 == LiquidityFailed(CheckLiquidity(liquidity, books.value.0, books.value.1).1)
    ensures r.0.NoOpportunity? <==>
      books.Some? && CheckLiquidity(liquidity, books.value.0, books.value.1).0
      && CalculateOpportunity(books.value.0, books.value.1).None?
    ensures books.Some? && CheckLiquidity(liquidity, books.value.0, books.value.1).0
            && CalculateOpportunity(books.value.0, books.value.1).Some?
            && !ShouldPlace(CalculateOpportunity(books.value.0, books.value.1).value.edge, p.position).0 ==>
      r.0 == Pause(ShouldPlace(CalculateOpportunity(books.value.0, books.value.1).value.edge, p.position).1)
    ensures r.0.Hold? ==> now - p.lastQuote < QuoteLifetime
    ensures r.0.Hold? ==> r.0.secondsLeft == Trunc(QuoteLifetime - (now - p.lastQuote))
    ensures r.0.FetchFailed? || r.0.NoOpportunity? || r.0.Hold? ==> r.1 == p
    ensures r.1.position == p.position
  {
    if books.None? then (FetchFailed, p)
    else
      var (yes, no) := books.value;
      var (passes, failures) := CheckLiquidity(liquidity, yes, no);
      if !passes then (LiquidityFailed(failures), p.(orders := CancelAll(p.orders, p.dryRun).0))
      else
        var opp := CalculateOpportunity(yes, no);
        if opp.None? then (NoOpportunity, p)
        else
          var (place, reason) := ShouldPlace(opp.value.edge, p.position);
          if place && now - p.lastQuote >= QuoteLifetime then
            (Requote(opp.value), p.(orders := CancelAll(p.orders, p.dryRun).0, lastQuote := now))
          else if !place then (Pause(reason), p.(orders := CancelAll(p.orders, p.dryRun).0))
          else (Hold(Trunc(QuoteLifetime - (now - p.lastQuote))), p)
  }

  /** The position is never updated by the loop, so from the initial flat
      position the position gate always passes: only the edge decides. */
  lemma FlatPositionGateOnEdge(edge: real)
    ensures ShouldPlace(edge, Position(0, 0)).0 <==> edge >= MinEdge
  {
  }

  /** While quotes are fresh the loop holds with between 0 and 15 seconds
      left on the quote. */
  lemma HoldCountdown(p: Provider, books: Option<(Book, Book)>, liquidity: real, now: real)
    requires p.lastQuote <= now
    ensures Iterate(p, books, liquidity, now).0.Hold? ==>
      0 <= Iterate(p, books, liquidity, now).0.secondsLeft <= 15
  {
  }
}

=== FILE: market.dfy ===
/**
  The two complementary instruments of a binary market and how the
  processes decide which listed outcome is the positive one ("Yes"/"Up").
 */
module Market {

  /** The two sides of a binary market. */
  datatype Outcome = Up | Down

  function Opposite(o: Outcome): (r: Outcome)
    ensures r != o
  {
    match o
    case Up => Down
    case Down => Up
  }

  /** ASCII lower-casing. No character outside A-Z lower-cases to one of the
      letters of "yes" or "up", so the positive-label test below is exact. */
  function Lower(s: string): (r: string)
    ensures |r| == |s|
    ensures forall i :: 0 <= i < |s| ==> r[i] == LowerChar(s[i])
  {
    if |s| == 0 then [] else [LowerChar(s[0])] + Lower(s[1..])
  }

  function LowerChar(c: char): char {
    if 'A' <= c <= 'Z' then (c as int + 32) as char else c
  }

  /** `outcomes[0].lower() in ["yes", "up"]` */
  predicate IsPositiveLabel(name: string) {
    Lower(name) == "yes" || Lower(name) == "up"
  }

  /** Index of the positive (Yes/Up) outcome: 0 when the first listed outcome
      is "yes" or "up" in any case, else 1; an empty outcome list counts as a
      first label of "" (sniper.py:303-304, arb.py:240-241). */
  function PositiveIndex(outcomes: seq<string>): nat {
    if |outcomes| > 0 && IsPositiveLabel(outcomes[0]) then 0 else 1
  }

  /** Index of the negative (No/Down) outcome (sniper.py:305, arb.py:242). */
  function NegativeIndex(outcomes: seq<string>): nat {
    if PositiveIndex(outcomes) == 0 then 1 else 0
  }

  /** The two indices are 0 and 1 in some order, and the positive one is 0
      exactly when the first label reads "yes" or "up". */
  lemma IndicesPartition(outcomes: seq<string>)
    ensures {PositiveIndex(outcomes), NegativeIndex(outcomes)} == {0, 1}
    ensures PositiveIndex(outcomes) != NegativeIndex(outcomes)
    ensures PositiveIndex(outcomes) == 0
        <==> |outcomes| > 0 && (Lower(outcomes[0]) == "yes" || Lower(outcomes[0]) == "up")
  {
  }

  /** Case does not matter: "UP", "Up" and "up" all select index 0, while
      "Down" does not. */
  lemma PositiveLabelExamples()
    ensures PositiveIndex(["Up", "Down"]) == 0
    ensures PositiveIndex(["YES", "NO"]) == 0
    ensures PositiveIndex(["Down", "Up"]) == 1
    ensures PositiveIndex([]) == 1
  {
    assert Lower("Up") == "up";
    assert Lower("YES") == "yes";
    assert Lower("Down") == "down";
  }
}

=== FILE: numeric.dfy ===
module Numeric {
  /** Python `int(x)` on a float: truncation toward zero. */
  function Trunc(x: real): (r: int)
    ensures x >= 0.0 ==> 0 <= r && r as real <= x < r as real + 1.0
    ensures x < 0.0 ==> r <= 0 && r as real - 1.0 < x <= r as real
  {
    if x >= 0.0 then x.Floor else -((-x).Floor)
  }

  function MinReal(a: real, b: real): (r: real)
    ensures r <= a && r <= b && (r == a || r == b)
  {
    if a <= b then a else b
  }

  function MaxReal(a: real, b: real): (r: real)
    ensures r >= a && r >= b && (r == a || r == b)
  {
    if a >= b then a else b
  }

  function MinInt(a: int, b: int): (r: int)
    ensures r <= a && r <= b && (r == a || r == b)
  {
    if a <= b then a else b
  }

  function MaxInt(a: int, b: int): (r: int)
    ensures r >= a && r >= b && (r == a || r == b)
  {
    if a >= b then a else b
  }

  /** Dollar value of a number of shares at a price. */
  function Notional(size: int, price: real): real {
    size as real * price
  }

  /** At least Trunc(1/p) + 1 shares at a positive price p, the minimum
      order both the sniper and the arbitrage compute, are worth more than 1. */
  lemma MinimumSharesWorthOverOne(b: int, p: real)
    requires p != 0.0 && b >= Trunc(1.0 / p) + 1
    ensures p > 0.0 ==> Notional(b, p) > 1.0
  {
    if p > 0.0 {
      var x := 1.0 / p;
      assert x > 0.0;
      assert b as real > x;
      AboveInverseOverOne(b, p);
    }
  }

  /** More shares than 1/p at a positive price p are worth more than 1. */
  lemma AboveInverseOverOne(b: int, p: real)
    requires p > 0.0 && b as real > 1.0 / p
    ensures Notional(b, p) > 1.0
  {
    var x := 1.0 / p;
    var bb := b as real;
    assert x * p == 1.0;
    assert (bb - x) * p > 0.0;
    assert (bb - x) * p == bb * p - x * p;
    AboveOne(bb * p, x * p);
  }

  lemma AboveOne(u: real, v: real)
    requires u > v && v == 1.0
    ensures u > 1.0
  {
  }

  /** A whole number no larger than x is no larger than its truncation. */
  lemma TruncIsLargestBelow(x: real, n: int)
    requires x >= 0.0 && n as real <= x
    ensures n <= Trunc(x)
  {
  }

  lemma TruncExamples()
    ensures Trunc(2.7) == 2 && Trunc(-2.7) == -2 && Trunc(3.0) == 3
  {
  }
}

=== FILE: recorder.dfy ===
/**
  The order-book recorder (recorder.py). For one interval at a time it
  keeps the books of the market's two tokens and writes one row per level
  of each snapshot and one per applied change, each row carrying the best
  asks, their sum and the seconds left in the interval. Rows are returned
  as a sequence; the file itself is left out.
 */
module Recorder {
  import opened Wrappers
  import opened Ladder
  import opened Market
  import opened Intervals
  import opened Slugs
  import opened Feed

  /** One CSV row, without its wall-clock timestamp. */
  datatype Row = Row(eventType: string, outcome: Outcome, bookSide: string, price: real, size: real,
                     bestUp: real, bestDown: real, priceSum: real, secondsRemaining: nat)

  /** `writerOpen` stands for the CSV writer being set. */
  datatype Recorder = Recorder(books: Books, upToken: TokenId, downToken: TokenId, intervalEnd: int,
                               writerOpen: bool, eventCount: nat, rows: seq<Row>)

  /** `get_best_ask` (recorder.py:150-156): the head of the asks, or 0 for
      an unknown token or an empty side. */
  function BestAsk(books: Books, token: TokenId): (r: real)
    ensures token !in books || |books[token].asks| == 0 ==> r == 0.0
    ensures token in books && |books[token].asks| > 0 ==> r == books[token].asks[0].price
  {
    var asks := BookOf(books, token).asks;
    if |asks| > 0 then asks[0].price else 0.0
  }

  /** `get_best_size` (recorder.py:158-164): the size at the head of the
      asks, or 0. */
  function BestSize(books: Books, token: TokenId): (r: real)
    ensures token !in books || |books[token].asks| == 0 ==> r == 0.0
    ensures token in books && |books[token].asks| > 0 ==> r == books[token].asks[0].size
  {
    var asks := BookOf(books, token).asks;
    if |asks| > 0 then asks[0].size else 0.0
  }

  /** The recorded price sum: the two best asks added when both are
      positive, and 0 when either side has no positive price. */
  function PriceSum(up: real, down: real): (r: real)
    ensures r > 0.0 <==> up > 0.0 && down > 0.0
    ensures r != 0.0 ==> r == up + down
  {
    if up > 0.0 && down > 0.0 then up + down else 0.0
  }

  /** What a row reads from the recorder: the books, the two tokens and
      the interval end. */
  datatype View = View(books: Books, upToken: TokenId, downToken: TokenId, intervalEnd: int)

  function ViewOf(rec: Recorder): View {
    View(rec.books, rec.upToken, rec.downToken, rec.intervalEnd)
  }

  /** The row `write_row` makes for one level of `token` against the view
      `v`: every column but the wall-clock timestamp. */
  function RowOf(v: View, eventType: string, token: TokenId, bookSide: string,
                 price: real, size: real, now: int): (row: Row)
    ensures row.eventType == eventType && row.bookSide == bookSide
    ensures row.outcome == Up <==> token == v.upToken
    ensures row.price == price && row.size == size
    ensures row.bestUp == BestAsk(v.books, v.upToken) && row.bestDown == BestAsk(v.books, v.downToken)
    ensures row.priceSum == PriceSum(row.bestUp, row.bestDown)
    ensures row.secondsRemaining == SecondsRemaining(v.intervalEnd, now)
  {
    var up := BestAsk(v.books, v.upToken);
    var down := BestAsk(v.books, v.downToken);
    Row(eventType, if token == v.upToken then Up else Down, bookSide, price, size,
        up, down, PriceSum(up, down), SecondsRemaining(v.intervalEnd, now))
  }

  /** `write_row` (recorder.py:166-189) at clock reading `now`: nothing
      without an open writer; otherwise one row describing the current
      books, and one more event counted. */
  function WriteRow(rec: Recorder, eventType: string, token: TokenId, bookSide: string,
                    price: real, size: real, now: int): (r: Recorder)
    ensures !rec.writerOpen ==> r == rec
    ensures rec.writerOpen ==> r.eventCount == rec.eventCount + 1
    ensures rec.writerOpen ==> r.rows == rec.rows + [RowOf(ViewOf(rec), eventType, token, bookSide, price, size, now)]
    ensures r == rec.(rows := r.rows, eventCount := r.eventCount)
  {
    if !rec.writerOpen then rec
    else
      var row := RowOf(ViewOf(rec), eventType, token, bookSide, price, size, now);
      rec.(rows := rec.rows + [row], eventCount := rec.eventCount + 1)
  }

  /** Rows written and events counted move together, and nothing is
      written while the writer is closed. */
  predicate Counted(before: Recorder, after: Recorder) {
    && after.eventCount - before.eventCount == |after.rows| - |before.rows| >= 0
    && after.rows[..|before.rows|] == before.rows
    && (!before.writerOpen ==> after.rows == before.rows)
  }

  /** The "snapshot" rows of a run of levels of one side: one per level, in
      order, all read against the same view. */
  function LevelRows(v: View, token: TokenId, bookSide: string, levels: seq<Level>, now: int): (rows: seq<Row>)
    ensures |rows| == |levels|
  {
    if |levels| == 0 then []
    else
      var last := levels[|levels| - 1];
      LevelRows(v, token, bookSide, levels[..|levels| - 1], now)
        + [RowOf(v, "snapshot", token, bookSide, last.price, last.size, now)]
  }

  /** The i-th row of a run is the row of the i-th level. */
  lemma {:induction false} LevelRowsAt(v: View, token: TokenId, bookSide: string, levels: seq<Level>, now: int)
    ensures forall i :: 0 <= i < |levels| ==>
      LevelRows(v, token, bookSide, levels, now)[i] == RowOf(v, "snapshot", token, bookSide, levels[i].price, levels[i].size, now)
    decreases |levels|
  {
    if |levels| > 0 {
      LevelRowsAt(v, token, bookSide, levels[..|levels| - 1], now);
    }
  }

  /** One row per level of a side, in order. */
  function WriteLevels(rec: Recorder, token: TokenId, bookSide: string, levels: seq<Level>, now: int): (r: Recorder)
    ensures Counted(rec, r) && r == rec.(rows := r.rows, eventCount := r.eventCount)
    ensures rec.writerOpen ==> r.rows == rec.rows + LevelRows(ViewOf(rec), token, bookSide, levels, now)
  {
    if |levels| == 0 then rec
    else
      var before := WriteLevels(rec, token, bookSide, levels[..|levels| - 1], now);
      var last := levels[|levels| - 1];
      var r := WriteRow(before, "snapshot", token, bookSide, last.price, last.size, now);
      assert ViewOf(before) == ViewOf(rec);
      assert r.rows[..|before.rows|] == before.rows;
      assert r.rows[..|rec.rows|] == before.rows[..|rec.rows|];
      r
  }

  /** One entry of a list message: a book event replaces that token's book
      verbatim and writes a row per bid, then per ask, each read against
      the replaced book; any other event changes nothing. */
  function RecordEvent(rec: Recorder, e: Event, now: int): (r: Recorder)
    ensures Counted(rec, r) && r.writerOpen == rec.writerOpen && r.intervalEnd == rec.intervalEnd
    ensures r.upToken == rec.upToken && r.downToken == rec.downToken
    ensures !IsSnapshot(e) ==> r == rec
    ensures IsSnapshot(e) ==> r.books == ApplySnapshot(rec.books, e.assetId, e.bids, e.asks)
    ensures rec.writerOpen && IsSnapshot(e) ==>
      r.rows[|rec.rows|..] == LevelRows(ViewOf(r), e.assetId, "bid", e.bids, now)
                              + LevelRows(ViewOf(r), e.assetId, "ask", e.asks, now)
  {
    if IsSnapshot(e) then
      var replaced := rec.(books := ApplySnapshot(rec.books, e.assetId, e.bids, e.asks));
      var withBids := WriteLevels(replaced, e.assetId, "bid", e.bids, now);
      var r := WriteLevels(withBids, e.assetId, "ask", e.asks, now);
      assert ViewOf(r) == ViewOf(withBids) == ViewOf(replaced);
      assert r.rows[..|rec.rows|] == withBids.rows[..|rec.rows|];
      assert rec.writerOpen ==> r.rows[|rec.rows|..] == withBids.rows[|rec.rows|..] + r.rows[|withBids.rows|..];
      r
    else rec
  }

  /** A list message, event by event. When the last event is a book event,
      its rows close the output: its bids, then its asks, read against the
      books that hold its book. */
  function RecordEvents(rec: Recorder, es: seq<Event>, now: int): (r: Recorder)
    ensures Counted(rec, r) && r.writerOpen == rec.writerOpen && r.intervalEnd == rec.intervalEnd
    ensures r.upToken == rec.upToken && r.downToken == rec.downToken
    ensures rec.writerOpen ==> |r.rows| == |rec.rows| + SnapshotLevels(es)
    ensures |es| > 0 && IsSnapshot(es[|es| - 1]) ==>
      var e := es[|es| - 1];
      e.assetId in r.books && r.books[e.assetId] == Book(e.bids, e.asks)
    ensures rec.writerOpen && |es| > 0 && IsSnapshot(es[|es| - 1]) ==>
      var e := es[|es| - 1];
      var start := |r.rows| - |e.bids| - |e.asks|;
      && start >= |rec.rows|
      && r.rows[start..] == LevelRows(ViewOf(r), e.assetId, "bid", e.bids, now)
                            + LevelRows(ViewOf(r), e.assetId, "ask", e.asks, now)
  {
    if |es| == 0 then rec
    else
      var before := RecordEvents(rec, es[..|es| - 1], now);
      var e := es[|es| - 1];
      var r := RecordEvent(before, e, now);
      assert r.rows[..|rec.rows|] == before.rows[..|rec.rows|];
      assert rec.writerOpen && IsSnapshot(e) ==> |r.rows| - |e.bids| - |e.asks| == |before.rows|;
      r
  }

  /** The number of rows the book events of a list message produce. */
  function SnapshotLevels(es: seq<Event>): nat {
    if |es| == 0 then 0
    else
      var e := es[|es| - 1];
      SnapshotLevels(es[..|es| - 1]) + (if IsSnapshot(e) then |e.bids| + |e.asks| else 0)
  }

  /** A dict message: each change with an instrument, a side and a price
      updates that book and writes one "update" row, read against the
      books after the change. */
  function RecordChanges(rec: Recorder, cs: seq<FlatChange>, now: int): (r: Recorder)
    ensures Counted(rec, r) && r.writerOpen == rec.writerOpen && r.intervalEnd == rec.intervalEnd
    ensures r.upToken == rec.upToken && r.downToken == rec.downToken
    ensures r.books == ApplyFlatChanges(rec.books, cs)
    ensures rec.writerOpen ==> |r.rows| == |rec.rows| + RecordedChanges(cs)
    ensures rec.writerOpen && |cs| > 0 && cs[|cs| - 1].assetId != "" && Applicable(cs[|cs| - 1].change) ==>
      var c := cs[|cs| - 1];
      r.rows[|r.rows| - 1] == RowOf(ViewOf(r), "update", c.assetId, if c.change.side == "BUY" then "bid" else "ask",
                                    c.change.price.value, c.change.size, now)
  {
    if |cs| == 0 then rec
    else
      var before := RecordChanges(rec, cs[..|cs| - 1], now);
      var c := cs[|cs| - 1];
      if c.assetId != "" && Applicable(c.change) then
        var updated := before.(books := ApplyChange(before.books, c.assetId, c.change));
        var r := WriteRow(updated, "update", c.assetId, if c.change.side == "BUY" then "bid" else "ask",
                          c.change.price.value, c.change.size, now);
        assert ViewOf(r) == ViewOf(updated);
        assert r.rows[..|rec.rows|] == before.rows[..|rec.rows|];
        r
      else before
  }

  /** The number of changes of a dict message that are applied and
      recorded. */
  function RecordedChanges(cs: seq<FlatChange>): (n: nat)
    ensures n <= |cs|
  {
    if |cs| == 0 then 0
    else RecordedChanges(cs[..|cs| - 1]) + (if cs[|cs| - 1].assetId != "" && Applicable(cs[|cs| - 1].change) then 1 else 0)
  }

  /** `on_message` (recorder.py:205-238) at clock reading `now`. Unlike the
      trading feed, a list message handles only book events, and there is
      no warm-up. */
  function OnMessage(rec: Recorder, msg: Message, now: int): (r: Recorder)
    ensures Counted(rec, r) && r.writerOpen == rec.writerOpen && r.intervalEnd == rec.intervalEnd
    ensures msg.OtherValue? ==> r == rec
    ensures msg.PriceChanges? ==> r.books == Process(FeedState(rec.books, false), msg).final.books
  {
    match msg
    case PriceChanges(cs) => RecordChanges(rec, cs, now)
    case EventList(es) => RecordEvents(rec, es, now)
    case OtherValue => rec
  }

  /** On a list message without delta events the recorder's books are the
      ones the trading feed would hold. */
  lemma {:induction false} SnapshotBooksAsFeed(rec: Recorder, es: seq<Event>, now: int, warm: bool)
    requires forall i :: 0 <= i < |es| ==> !IsDelta(es[i])
    ensures RecordEvents(rec, es, now).books == ProcessEvents(FeedState(rec.books, warm), es).final.books
  {
    if |es| > 0 {
      SnapshotBooksAsFeed(rec, es[..|es| - 1], now, warm);
      var e := es[|es| - 1];
      assert RecordEvents(rec, es, now) == RecordEvent(RecordEvents(rec, es[..|es| - 1], now), e, now);
    }
  }

  /** `setup_market` (recorder.py:101-127): needs at least two outcomes
      and two tokens; picks UP by the first label, and clears the books and
      the event count. The interval end and the writer are untouched. */
  function SetupMarket(rec: Recorder, outcomes: seq<string>, tokenIds: seq<TokenId>): (r: Option<Recorder>)
    ensures r.Some? <==> |outcomes| >= 2 && |tokenIds| >= 2
    ensures r.Some? ==> (r.value.books == map[] && r.value.eventCount == 0
      && {r.value.upToken, r.value.downToken} == {tokenIds[0], tokenIds[1]}
      && PositiveIndex(outcomes) < 2 && NegativeIndex(outcomes) < 2
      && r.value.upToken == tokenIds[PositiveIndex(outcomes)] && r.value.downToken == tokenIds[NegativeIndex(outcomes)]
      && (tokenIds[0] != tokenIds[1] ==> r.value.upToken != r.value.downToken))
    ensures r.Some? ==> r.value.writerOpen == rec.writerOpen && r.value.intervalEnd == rec.intervalEnd
  {
    if |outcomes| < 2 || |tokenIds| < 2 then None
    else
      IndicesPartition(outcomes);
      Some(rec.(upToken := tokenIds[PositiveIndex(outcomes)], downToken := tokenIds[NegativeIndex(outcomes)],
                books := map[], eventCount := 0))
  }

  /** The start of `run_interval` (recorder.py:289-300): the interval end
      read from the slug's timestamp, the market set up and a fresh CSV
      opened. A slug whose last component is not a number stops the
      interval with the writer closed; a market that cannot be set up
      stops it with nothing opened. */
  function BeginInterval(rec: Recorder, slug: string, minutes: int, market: Option<(seq<string>, seq<TokenId>)>): (r: Recorder)
    ensures SlugIntervalEnd(slug, minutes).None? ==> !r.writerOpen && r.books == rec.books
    ensures r.writerOpen <==>
      || (SlugIntervalEnd(slug, minutes).Some? && market.Some? && |market.value.0| >= 2 && |market.value.1| >= 2)
      || (SlugIntervalEnd(slug, minutes).Some? && rec.writerOpen)
    ensures SlugIntervalEnd(slug, minutes).Some? ==> r.intervalEnd == SlugIntervalEnd(slug, minutes).value
    ensures r.rows == rec.rows
  {
    var end := SlugIntervalEnd(slug, minutes);
    if end.None? then rec.(writerOpen := false)
    else
      var timed := rec.(intervalEnd := end.value);
      var ready := if market.Some? then SetupMarket(timed, market.value.0, market.value.1) else None;
      if ready.None? then timed
      else ready.value.(writerOpen := true)
  }

  /** `close_csv`: the writer is dropped; further messages write nothing. */
  function EndInterval(rec: Recorder): (r: Recorder)
    ensures !r.writerOpen && r.rows == rec.rows && r.eventCount == rec.eventCount
  {
    rec.(writerOpen := false)
  }

  /** The interval the recorder opens for the current slug ends where the
      clock's interval ends, and every row of it reports a countdown of at
      most one interval. */
  lemma CurrentSlugEnd(rec: Recorder, asset: string, minutes: int, now: int, market: Option<(seq<string>, seq<TokenId>)>)
    requires minutes >= 1 && IntervalStart(now, minutes) >= 0
    ensures BeginInterval(rec, CurrentSlug(asset, minutes, now), minutes, market).intervalEnd == IntervalEnd(now, minutes)
    ensures 0 < SecondsRemaining(BeginInterval(rec, CurrentSlug(asset, minutes, now), minutes, market).intervalEnd, now)
              <= minutes * SecondsPerMinute
  {
    SlugEndIsIntervalEnd(asset, minutes, now);
  }

  /** After the writer is closed, no message adds a row or an event. */
  lemma ClosedWriterRecordsNothing(rec: Recorder, msgs: seq<Message>, now: int)
    ensures RunClosed(EndInterval(rec), msgs, now).rows == rec.rows
    ensures RunClosed(EndInterval(rec), msgs, now).eventCount == rec.eventCount
  {
    RunClosedFacts(EndInterval(rec), msgs, now);
  }

  function RunClosed(rec: Recorder, msgs: seq<Message>, now: int): (r: Recorder)
    ensures r.writerOpen == rec.writerOpen
  {
    if |msgs| == 0 then rec else OnMessage(RunClosed(rec, msgs[..|msgs| - 1], now), msgs[|msgs| - 1], now)
  }

  lemma {:induction false} RunClosedFacts(rec: Recorder, msgs: seq<Message>, now: int)
    requires !rec.writerOpen
    ensures RunClosed(rec, msgs, now).rows == rec.rows
    ensures RunClosed(rec, msgs, now).eventCount == rec.eventCount
  {
    if |msgs| > 0 {
      RunClosedFacts(rec, msgs[..|msgs| - 1], now);
    }
  }
}

=== FILE: slugs.dfy ===
/**
  Market identifiers. A short-interval market is named
  `{short}-updown-{m}m-{ts}`, where ts is the Unix start of its interval;
  hourly markets name their hour in 12-hour form.
 */
module Slugs {
  import opened Wrappers
  import opened Text
  import opened Intervals

  /** Asset names the recorder and the sniper abbreviate; any other asset
      is used as given (recorder.py:52, sniper.py:213). */
  const ShortNames: map<string, string> :=
    map["bitcoin" := "btc", "ethereum" := "eth", "solana" := "sol", "xrp" := "xrp"]

  /** The same table in the arbitrage process, which has no entry for xrp
      (arb.py:110). */
  const ArbShortNames: map<string, string> :=
    map["bitcoin" := "btc", "ethereum" := "eth", "solana" := "sol"]

  /** `table.get(asset, asset)` */
  function ShortName(table: map<string, string>, asset: string): (r: string)
    ensures asset in table ==> r == table[asset]
    ensures asset !in table ==> r == asset
  {
    if asset in table then table[asset] else asset
  }

  /** Leaving xrp out of the arbitrage table changes nothing: both tables
      abbreviate every asset the same way. */
  lemma ShortNameTablesAgree(asset: string)
    ensures ShortName(ArbShortNames, asset) == ShortName(ShortNames, asset)
  {
  }

  /** `generate_market_slug(asset, m)` for the interval starting at ts
      (recorder.py:50-54; sniper.py:211-215 with m = 15). */
  function MarketSlug(asset: string, minutes: int, ts: int): (slug: string)
    ensures |slug| > 0 && slug[|slug| - 1] != '-' <== ts >= 0
  {
    ShortName(ShortNames, asset) + "-updown-" + IntToString(minutes) + "m-" + IntToString(ts)
  }

  /** The slug for the interval containing now. */
  function CurrentSlug(asset: string, minutes: int, now: int): string
    requires minutes >= 1
  {
    MarketSlug(asset, minutes, IntervalStart(now, minutes))
  }

  /** `int(slug.split("-")[-1])`: the timestamp a slug ends with
      (recorder.py:290-291). None where Python's `int` would raise. */
  function SlugTimestamp(slug: string): (r: Option<nat>)
    ensures var t := LastComponent(slug, '-');
      r.Some? <==> |t| > 0 && forall i :: 0 <= i < |t| ==> IsDigit(t[i])
    ensures r.Some? ==> r.value == DigitsValue(LastComponent(slug, '-'))
  {
    ParseNat(LastComponent(slug, '-'))
  }

  /** `interval_end_unix = int(ts) + interval_seconds` (recorder.py:291-292). */
  function SlugIntervalEnd(slug: string, minutes: int): (r: Option<int>)
    ensures r.Some? <==> SlugTimestamp(slug).Some?
    ensures r.Some? ==> r.value == SlugTimestamp(slug).value + minutes * SecondsPerMinute
    ensures r.Some? ==> r.value - minutes * SecondsPerMinute >= 0
  {
    match SlugTimestamp(slug)
    case Some(ts) => Some(ts + minutes * SecondsPerMinute)
    case None => None
  }

  /** The timestamp at the end of a slug parses back, whatever the asset
      name: the text after the last '-' is exactly the digits of ts. */
  lemma SlugRoundTrip(asset: string, minutes: int, ts: nat)
    ensures SlugTimestamp(MarketSlug(asset, minutes, ts)) == Some(ts)
  {
    var prefix := ShortName(ShortNames, asset) + "-updown-" + IntToString(minutes) + "m-";
    assert MarketSlug(asset, minutes, ts) == prefix + NatToString(ts);
    assert '-' !in NatToString(ts) by {
      forall i | 0 <= i < |NatToString(ts)| ensures NatToString(ts)[i] != '-' {
        assert IsDigit(NatToString(ts)[i]);
      }
    }
    LastComponentOfTail(prefix, NatToString(ts), '-');
    ParseNatToString(ts);
  }

  /** The end read back from the current slug is the end of the current
      interval. */
  lemma SlugEndIsIntervalEnd(asset: string, minutes: int, now: int)
    requires minutes >= 1
    requires IntervalStart(now, minutes) >= 0
    ensures SlugIntervalEnd(CurrentSlug(asset, minutes, now), minutes) == Some(IntervalEnd(now, minutes))
  {
    SlugRoundTrip(asset, minutes, IntervalStart(now, minutes));
  }

  /** Different intervals of the same market get different slugs. */
  lemma SlugInjective(asset: string, minutes: int, t1: nat, t2: nat)
    requires MarketSlug(asset, minutes, t1) == MarketSlug(asset, minutes, t2)
    ensures t1 == t2
  {
    SlugRoundTrip(asset, minutes, t1);
    SlugRoundTrip(asset, minutes, t2);
  }

  /** Crossing an interval boundary changes the slug the processes look up. */
  lemma SlugChangesAtBoundary(asset: string, minutes: int, t: int)
    requires minutes >= 1
    requires IsBoundary(t, minutes) && t >= 1
    requires IntervalStart(t - 1, minutes) >= 0
    ensures CurrentSlug(asset, minutes, t - 1) != CurrentSlug(asset, minutes, t + 1)
  {
    RolloverAtBoundary(t, minutes);
    if CurrentSlug(asset, minutes, t - 1) == CurrentSlug(asset, minutes, t + 1) {
      SlugInjective(asset, minutes, IntervalStart(t - 1, minutes), IntervalStart(t + 1, minutes));
    }
  }

  /** `format_hour_ampm` (arb.py:48-57): a 24-hour clock hour in 12-hour
      form with an "am"/"pm" suffix. */
  function FormatHourAmPm(hour: int): (s: string)
    ensures |s| >= 3
  {
    if hour == 0 then "12am"
    else if hour < 12 then IntToString(hour) + "am"
    else if hour == 12 then "12pm"
    else IntToString(hour - 12) + "pm"
  }

  /** Reads a 12-hour label back into a 24-hour clock hour. */
  function ParseHourAmPm(s: string): (r: Option<int>)
    ensures r.Some? ==> 0 <= r.value < 24
  {
    if |s| < 3 then None
    else
      var suffix := s[|s| - 2..];
      match ParseNat(s[..|s| - 2])
      case None => None
      case Some(n) =>
        if n < 1 || n > 12 then None
        else if suffix == "am" then Some(if n == 12 then 0 else n)
        else if suffix == "pm" then Some(if n == 12 then 12 else n + 12)
        else None
  }

  /** Every hour of the day formats to a label that reads back as that hour. */
  lemma HourRoundTrip(hour: int)
    requires 0 <= hour < 24
    ensures ParseHourAmPm(FormatHourAmPm(hour)) == Some(hour)
  {
    var s := FormatHourAmPm(hour);
    var n := if hour == 0 || hour == 12 then 12 else if hour < 12 then hour else hour - 12;
    var suffix := if hour < 12 then "am" else "pm";
    if hour == 0 || hour == 12 {
      assert NatToString(12) == "12";
    }
    assert s == NatToString(n) + suffix;
    assert s[..|s| - 2] == NatToString(n);
    ParseNatToString(n);
  }

  /** The 24 hours of a day get 24 distinct labels. */
  lemma HourLabelsDistinct(h1: int, h2: int)
    requires 0 <= h1 < 24 && 0 <= h2 < 24
    requires FormatHourAmPm(h1) == FormatHourAmPm(h2)
    ensures h1 == h2
  {
    HourRoundTrip(h1);
    HourRoundTrip(h2);
  }

  lemma HourExamples()
    ensures FormatHourAmPm(0) == "12am"
    ensures FormatHourAmPm(9) == "9am"
    ensures FormatHourAmPm(12) == "12pm"
    ensures FormatHourAmPm(13) == "1pm"
    ensures FormatHourAmPm(23) == "11pm"
  {
    assert NatToString(9) == "9";
    assert NatToString(1) == "1";
    assert NatToString(11) == "11";
  }
}

=== FILE: sniper.dfy ===
/**
  The late-interval sniper (sniper.py): a time-tiered target price, the
  choice of the side to buy, the gate in front of every trade, and the
  sizing of the fill-or-kill order.
 */
module Sniper {
  import opened Wrappers
  import opened Numeric
  import opened Ladder
  import opened Market
  import opened Intervals
  import opened Feed
  import opened Exposure

  /** A tier's upper bound on the seconds remaining; the last tier has none. */
  datatype Threshold = AtMost(seconds: int) | Unbounded

  datatype Tier = Tier(threshold: Threshold, price: real)

  /** PRICE_TIERS (sniper.py:43-47). */
  const PriceTiers: seq<Tier> := [Tier(AtMost(30), 0.85), Tier(AtMost(60), 0.92), Tier(Unbounded, 0.96)]

  /** The price get_target_price returns when no tier applies. */
  const FallbackPrice: real := 0.98

  predicate Covers(th: Threshold, secs: int) {
    match th
    case AtMost(limit) => secs <= limit
    case Unbounded => true
  }

  /** The price of the first tier whose threshold covers secs. */
  function TierPrice(tiers: seq<Tier>, secs: int): (r: real)
    ensures (exists i :: 0 <= i < |tiers| && Covers(tiers[i].threshold, secs)) ==>
      exists i :: 0 <= i < |tiers| && Covers(tiers[i].threshold, secs) && r == tiers[i].price
        && forall j :: 0 <= j < i ==> !Covers(tiers[j].threshold, secs)
    ensures (forall i :: 0 <= i < |tiers| ==> !Covers(tiers[i].threshold, secs)) ==> r == FallbackPrice
  {
    if |tiers| == 0 then FallbackPrice
    else if Covers(tiers[0].threshold, secs) then tiers[0].price
    else
      var r := TierPrice(tiers[1..], secs);
      assert forall i :: 1 <= i < |tiers| ==> tiers[1..][i - 1] == tiers[i];
      r
  }

  /** `get_target_price` (sniper.py:50-55). */
  function TargetPrice(secs: int): real {
    TierPrice(PriceTiers, secs)
  }

  /** The three bands: 0.85 up to 30 s, 0.92 up to 60 s, 0.96 beyond. */
  lemma TargetBands(secs: int)
    ensures secs <= 30 ==> TargetPrice(secs) == 0.85
    ensures 30 < secs <= 60 ==> TargetPrice(secs) == 0.92
    ensures secs > 60 ==> TargetPrice(secs) == 0.96
  {
    var t := PriceTiers;
    assert t[1..][1..] == [t[2]];
    if secs <= 30 {
      assert Covers(t[0].threshold, secs);
    } else if secs <= 60 {
      assert !Covers(t[0].threshold, secs) && Covers(t[1].threshold, secs);
      assert TierPrice(t, secs) == TierPrice(t[1..], secs);
    } else {
      assert !Covers(t[0].threshold, secs) && !Covers(t[1].threshold, secs);
      assert TierPrice(t, secs) == TierPrice(t[1..], secs) == TierPrice(t[1..][1..], secs);
    }
  }

  /** The fallback is unreachable: the last tier covers every input, so the
      target is always one of the tier prices. */
  lemma FallbackUnreachable(secs: int)
    ensures TargetPrice(secs) != FallbackPrice
    ensures TargetPrice(secs) in {0.85, 0.92, 0.96}
  {
    TargetBands(secs);
  }

  /** The target rises as more time remains. */
  lemma TargetMonotone(s1: int, s2: int)
    requires s1 <= s2
    ensures TargetPrice(s1) <= TargetPrice(s2)
  {
    TargetBands(s1);
    TargetBands(s2);
  }

  lemma TargetExamples()
    ensures TargetPrice(20) == 0.85 && TargetPrice(45) == 0.92 && TargetPrice(500) == 0.96
  {
    TargetBands(20);
    TargetBands(45);
    TargetBands(500);
  }

  /** Slack under the target that still counts as reaching it. */
  const Epsilon: real := 0.005

  /** The best ask of one side as the monitor reads it. */
  datatype Quote = Quote(price: real, size: real)

  datatype Opportunity = Opportunity(side: Outcome, price: real, size: real)

  predicate Qualifies(q: Quote, target: real) {
    q.price >= target - Epsilon && q.size > 0.0
  }

  /** Python `max(xs, key=price)`: the first element of greatest price. */
  function MaxByPrice(xs: seq<Opportunity>): (r: Opportunity)
    requires |xs| > 0
    ensures r in xs
    ensures forall x | x in xs :: x.price <= r.price
    ensures exists i :: 0 <= i < |xs| && xs[i] == r && forall j :: 0 <= j < i ==> xs[j].price < r.price
  {
    if |xs| == 1 then xs[0]
    else
      var rest := MaxByPrice(xs[1..]);
      assert forall x | x in xs[1..] :: x in xs;
      if rest.price > xs[0].price then
        var i :| 0 <= i < |xs[1..]| && xs[1..][i] == rest && forall j :: 0 <= j < i ==> xs[1..][j].price < rest.price;
        assert xs[i + 1] == rest;
        rest
      else
        xs[0]
  }

  /** `get_best_opportunity` (sniper.py:508-539): the qualifying sides, UP
      listed first, and the highest priced among them. */
  function BestOpportunity(up: Quote, down: Quote, target: real): (r: Option<Opportunity>)
    ensures r.None? <==> !Qualifies(up, target) && !Qualifies(down, target)
    ensures r.Some? && r.value.side == Up ==> Qualifies(up, target) && r.value == Opportunity(Up, up.price, up.size)
    ensures r.Some? && r.value.side == Down ==> Qualifies(down, target) && r.value == Opportunity(Down, down.price, down.size)
    ensures r.Some? && Qualifies(up, target) ==> r.value.price >= up.price
    ensures r.Some? && Qualifies(down, target) ==> r.value.price >= down.price
  {
    var ups := if Qualifies(up, target) then [Opportunity(Up, up.price, up.size)] else [];
    var downs := if Qualifies(down, target) then [Opportunity(Down, down.price, down.size)] else [];
    var opps := ups + downs;
    if |opps| == 0 then None else Some(MaxByPrice(opps))
  }

  /** When both sides qualify at the same price, UP is chosen; DOWN is
      chosen over a qualifying UP only at a strictly higher price. */
  lemma UpWinsTies(up: Quote, down: Quote, target: real)
    requires Qualifies(up, target) && Qualifies(down, target)
    ensures BestOpportunity(up, down, target).value.side == Down <==> down.price > up.price
  {
    var opps := [Opportunity(Up, up.price, up.size), Opportunity(Down, down.price, down.size)];
    var r := MaxByPrice(opps);
    var i :| 0 <= i < |opps| && opps[i] == r && forall j :: 0 <= j < i ==> opps[j].price < r.price;
  }

  /** Why check_snipe_opportunity does or does not trade (sniper.py:409-506). */
  datatype Decision =
    | MissingToken
    | EmptyAsks
    | AlreadySniped
    | WarmingUp
    | Stale
    | NoOpportunity
    | Busy
    | Fire(opportunity: Opportunity, target: real)

  /** Highest price sum of the two best asks still taken as live. */
  const MaxLiveSum: real := 1.15

  /** The monitor's state as the check sees it. */
  datatype Monitor = Monitor(upToken: string, downToken: string, intervalEnd: int, sniped: bool, attempting: bool)

  function HeadQuote(asks: seq<Level>): Quote
    requires |asks| > 0
  {
    Quote(asks[0].price, asks[0].size)
  }

  /** `check_snipe_opportunity` with the clock reading `now`. */
  function CheckSnipe(m: Monitor, st: FeedState, now: int): (r: Decision)
    ensures r.Fire? <==>
      && m.upToken != "" && m.downToken != ""
      && |BookOf(st.books, m.upToken).asks| > 0 && |BookOf(st.books, m.downToken).asks| > 0
      && !m.sniped && st.warmedUp
      && BookOf(st.books, m.upToken).asks[0].price + BookOf(st.books, m.downToken).asks[0].price <= MaxLiveSum
      && BestOpportunity(HeadQuote(BookOf(st.books, m.upToken).asks), HeadQuote(BookOf(st.books, m.downToken).asks),
                         TargetPrice(SecondsRemaining(m.intervalEnd, now))).Some?
      && !m.attempting
    ensures r.Fire? ==> r.target == TargetPrice(SecondsRemaining(m.intervalEnd, now))
    ensures r.Fire? ==> r.opportunity.price >= r.target - Epsilon && r.opportunity.size > 0.0
    ensures r.Fire? ==>
      r.opportunity == BestOpportunity(HeadQuote(BookOf(st.books, m.upToken).asks), HeadQuote(BookOf(st.books, m.downToken).asks),
                                       r.target).value
  {
    if m.upToken == "" || m.downToken == "" then MissingToken
    else
      var upAsks := BookOf(st.books, m.upToken).asks;
      var downAsks := BookOf(st.books, m.downToken).asks;
      if |upAsks| == 0 || |downAsks| == 0 then EmptyAsks
      else
        var up := HeadQuote(upAsks);
        var down := HeadQuote(downAsks);
        var target := TargetPrice(SecondsRemaining(m.intervalEnd, now));
        if m.sniped then AlreadySniped
        else if !st.warmedUp then WarmingUp
        else if up.price + down.price > MaxLiveSum then Stale
        else match BestOpportunity(up, down, target)
          case None => NoOpportunity
          case Some(opp) => if m.attempting then Busy else Fire(opp, target)
  }

  /** After a reconnect, a message of snapshots alone never fires: every
      check it runs sees the feed still cold. */
  lemma NoFireOnSnapshots(m: Monitor, st: FeedState, es: seq<Event>, now: int)
    requires forall i :: 0 <= i < |es| ==> !IsDelta(es[i])
    ensures forall k :: 0 <= k < |ProcessEvents(OnOpen(st), es).checks| ==>
      !CheckSnipe(m, ProcessEvents(OnOpen(st), es).checks[k], now).Fire?
  {
    SnapshotsDoNotWarm(OnOpen(st), es);
  }

  /** Why execute_snipe did not submit (sniper.py:659-740). */
  datatype Rejection = NoClient | NoBook | NoLiquidity | BelowTarget | ZeroPrice | TooSmall | OverExposure

  datatype SnipeResult =
    | Rejected(reason: Rejection)
    | Submitted(size: int, price: real, filled: bool, ledger: Ledger)

  /** Dollars the sniper spends per trade at most (sniper.py:59). */
  const MaxPositionSize: real := 50.0

  /** Shares the order asks for before the liquidity cap: the budget
      divided by the price, raised to the $1 minimum order
      (sniper.py:687-694). */
  function BudgetShares(price: real): (r: int)
    requires price != 0.0
    ensures r >= Trunc(1.0 / price) + 1
  {
    var size := Trunc(MaxPositionSize / price);
    var minShares := Trunc(1.0 / price) + 1;
    if size < minShares then minShares else size
  }

  /** The order size: the budget shares, capped by the whole shares
      available in both the signalled and the fresh book (sniper.py:697-699).
      Below the cap, a positive-price order is worth more than $1. */
  function SnipeSize(price: real, wanted: real, offered: real): (size: int)
    requires price != 0.0
    ensures size <= Trunc(MinReal(wanted, offered))
    ensures size < Trunc(MinReal(wanted, offered)) ==> size == BudgetShares(price)
    ensures price > 0.0 && size < Trunc(MinReal(wanted, offered)) ==> Notional(size, price) > 1.0
  {
    var budget := BudgetShares(price);
    var available := Trunc(MinReal(wanted, offered));
    MinimumSharesWorthOverOne(budget, price);
    if budget > available then available else budget
  }

  /** `execute_snipe`: `hasClient` says whether a trading client could be
      built, `book` is the head of the asks the REST book returns (None when
      there is no book or no asks), `fills` the outcome of the fill-or-kill
      order. Prices are used unrounded. A zero price makes the source raise,
      which its handler turns into a rejection. */
  function ExecuteSnipe(opp: Opportunity, target: real, hasClient: bool, book: Option<Level>, ledger: Ledger, asset: string, fills: bool): (r: SnipeResult)
    ensures r.Rejected? <==>
      || !hasClient || book.None? || book.value.size <= 0.0
      || book.value.price < target - Epsilon || book.value.price == 0.0
      || SnipeSize(book.value.price, opp.size, book.value.size) < 1
      || !CanOpen(ledger, Notional(SnipeSize(book.value.price, opp.size, book.value.size), book.value.price))
    ensures !hasClient ==> r == Rejected(NoClient)
    ensures r.Submitted? ==> r.size == SnipeSize(book.value.price, opp.size, book.value.size)
    ensures r.Submitted? ==> book.Some? && book.value.size > 0.0 && book.value.price >= target - Epsilon
    ensures r.Submitted? ==> r.price == book.value.price
    ensures r.Submitted? ==> 1 <= r.size <= Trunc(MinReal(opp.size, book.value.size))
    ensures r.Submitted? ==> CanOpen(ledger, Notional(r.size, r.price))
    ensures r.Submitted? && r.filled ==> r.ledger == Record(ledger, asset, opp.side, r.size, r.price)
    ensures r.Submitted? && !r.filled ==> r.ledger == ledger
    ensures r.Submitted? ==> r.filled == fills
    ensures r.Submitted? && r.price > 0.0 && r.size < Trunc(MinReal(opp.size, book.value.size)) ==>
      Notional(r.size, r.price) > 1.0
  {
    if !hasClient then Rejected(NoClient)
    else if book.None? then Rejected(NoBook)
    else
      var ask := book.value;
      if ask.size <= 0.0 then Rejected(NoLiquidity)
      else if ask.price < target - Epsilon then Rejected(BelowTarget)
      else if ask.price == 0.0 then Rejected(ZeroPrice)
      else
        var size := SnipeSize(ask.price, opp.size, ask.size);
        if size < 1 then Rejected(TooSmall)
        else if !CanOpen(ledger, Notional(size, ask.price)) then Rejected(OverExposure)
        else Submitted(size, ask.price, fills, if fills then Record(ledger, asset, opp.side, size, ask.price) else ledger)
  }

  /** The liquidity cap comes after the $1 minimum and can undo it: with one
      share available at 0.90, the order is for one share, worth 0.90. */
  lemma CapUndoesMinimum()
    ensures var r := ExecuteSnipe(Opportunity(Up, 0.90, 1.0), 0.85, true, Some(Level(0.90, 5.0)), EmptyLedger, "BTC", true);
      r.Submitted? && r.size == 1 && Notional(r.size, r.price) < 1.0
  {
  }
}

=== FILE: text.dfy ===
/**
  Decimal rendering and parsing of integers, and the last-component split
  the processes use on market identifiers.
 */
module Text {
  import opened Wrappers

  predicate IsDigit(c: char) {
    '0' <= c <= '9'
  }

  function DigitChar(d: nat): (c: char)
    requires d < 10
    ensures IsDigit(c)
  {
    ('0' as int + d) as char
  }

  function DigitValue(c: char): (d: nat)
    requires IsDigit(c)
    ensures d < 10
  {
    c as int - '0' as int
  }

  /** Python `str(n)` for n >= 0: decimal digits, no leading zero. */
  function NatToString(n: nat): (s: string)
    ensures |s| >= 1
    ensures forall i :: 0 <= i < |s| ==> IsDigit(s[i])
    decreases n
  {
    if n < 10 then [DigitChar(n)] else NatToString(n / 10) + [DigitChar(n % 10)]
  }

  /** Python `str(n)` for any integer. */
  function IntToString(n: int): (s: string)
    ensures n >= 0 ==> s == NatToString(n)
    ensures n < 0 ==> s == "-" + NatToString(-n)
  {
    if n >= 0 then NatToString(n) else "-" + NatToString(-n)
  }

  /** Value of a string of decimal digits, read left to right. */
  function DigitsValue(s: string): nat
    requires forall i :: 0 <= i < |s| ==> IsDigit(s[i])
  {
    if |s| == 0 then 0 else DigitsValue(s[..|s| - 1]) * 10 + DigitValue(s[|s| - 1])
  }

  /** `int(s)` on a non-empty run of decimal digits; anything else (which
      makes Python raise) is None. */
  function ParseNat(s: string): (r: Option<nat>)
    ensures r.Some? <==> |s| > 0 && forall i :: 0 <= i < |s| ==> IsDigit(s[i])
  {
    if |s| > 0 && forall i :: 0 <= i < |s| ==> IsDigit(s[i]) then Some(DigitsValue(s)) else None
  }

  /** Parsing what NatToString wrote gives the number back. */
  lemma {:induction false} ParseNatToString(n: nat)
    ensures ParseNat(NatToString(n)) == Some(n)
    decreases n
  {
    DigitsOfNat(n);
  }

  lemma {:induction false} DigitsOfNat(n: nat)
    ensures DigitsValue(NatToString(n)) == n
    decreases n
  {
    var s := NatToString(n);
    if n < 10 {
      assert s[..0] == [];
    } else {
      DigitsOfNat(n / 10);
      assert s[..|s| - 1] == NatToString(n / 10);
    }
  }

  /** Distinct numbers print differently. */
  lemma NatToStringInjective(a: nat, b: nat)
    requires NatToString(a) == NatToString(b)
    ensures a == b
  {
    DigitsOfNat(a);
    DigitsOfNat(b);
  }

  /** `s.split(sep)[-1]`: the text after the last separator, or all of s
      when it holds none. */
  function LastComponent(s: string, sep: char): (r: string)
    ensures |r| <= |s|
    ensures sep !in r
    ensures r == s[|s| - |r|..]
    ensures |r| < |s| ==> s[|s| - |r| - 1] == sep
  {
    if |s| == 0 then ""
    else if s[|s| - 1] == sep then ""
    else
      var init := s[..|s| - 1];
      var t := LastComponent(init, sep);
      assert s[|s| - |t| - 1..] == init[|init| - |t|..] + [s[|s| - 1]];
      t + [s[|s| - 1]]
  }

  /** The last component of a prefix ending in the separator followed by a
      separator-free tail is that tail. */
  lemma {:induction false} LastComponentOfTail(prefix: string, tail: string, sep: char)
    requires |prefix| > 0 && prefix[|prefix| - 1] == sep
    requires sep !in tail
    ensures LastComponent(prefix + tail, sep) == tail
    decreases |tail|
  {
    var s := prefix + tail;
    if |tail| == 0 {
      assert s == prefix;
    } else {
      assert s[..|s| - 1] == prefix + tail[..|tail| - 1];
      assert tail[|tail| - 1] in tail;
      LastComponentOfTail(prefix, tail[..|tail| - 1], sep);
      assert tail == tail[..|tail| - 1] + [tail[|tail| - 1]];
    }
  }
}

=== FILE: wrappers.dfy ===
/** The optional-value datatype the model uses for Python's `None`. */
module Wrappers {

  datatype Option<+T> = None | Some(value: T) {

    /** Returns the value held in Some, or the default for None */
    function GetOr(default: T): T {
      match this
      case Some(v) => v
      case None => default
    }
  }
}
